=== FILE: README.md ===
# gdrive-ftp-adapter core, modelled in Dafny

The gdrive-ftp-adapter serves a Google Drive account over FTP. This project
models the part that turns Drive's file records into an FTP file system and
turns FTP commands into Drive calls:

- **Path strings** (`Path.java`): joining path pieces with exactly one `/`,
  and comparing paths while ignoring one trailing `/`.
- **Virtual file names** (`FtpFileSystemView` in `GFtpServerFactory.java`):
  - characters FTP clients cannot handle are replaced by `_`;
  - a duplicated or sanitised name gets the Drive id spliced in before its
    extension as `__ID__<id>__ID__`, and the id is decoded back when a client
    sends the name;
  - a listing names every file, giving colliding names (case-insensitive on
    Windows) their ids.
- **The session view**: lazily created home folder `/`, working directory,
  `getFile` / `getFileByPath` / `getFileByName` resolution one name at a
  time, and `changeWorkingDirectory` with `/`, `.` and `..`.
- **The file wrapper operations** `delete`, `move`, `mkdir`,
  `setLastModified` and `createOutputStream`, which forward to the controller.
- **The MFMT command**, which sets a file's modification time and picks the
  FTP reply code.
- **The controller** (`Controller.java`):
  - the 10-entry access-ordered LRU map that throttles `getFiles`: every
    third listing of a folder within 10 s forces a refresh;
  - `touch` with its rename and set-time callers, `trashFile`, `mkdir`, and
    the directory guard of `createOutputStream`.
- **The upload stream** (`GoogleDriveUploadStream.java`):
  - bytes are buffered into a 512 KiB chunk;
  - a file shorter than one chunk is sent in one direct insert or update;
  - a longer one is sent through one resumable session, one `PUT` per chunk
    with a `Content-Range` header, where 308 means "send more";
  - the file metadata is built from the record.

Drive, the metadata cache, the sync service, the clock, MIME detection, FTP
date parsing and the HTTP server are not modelled. Their answers enter as
parameters: a `Metadata` record of lookup results, a `now` value, an `Env`
holding a server reply function, a `parse` function and `remote`
results. Each remote effect the source performs is returned as an event or
a call in a trace, in order, so contracts can say what was sent.

Modules, one per file, from the bottom up:

- `Wrappers`: `Option`.
- `Strings`: Java `trim`, `indexOf`, `lastIndexOf` and lowercasing, plus decimal rendering.
- `Path`: `Path.java`.
- `Drive`: the `GFile` record and cache answers.
- `NameCodec`: sanitising, encoding, decoding and virtual names.
- `Lru`: the access-ordered map.
- `Controller`: the `Controller` class.
- `Upload`: one call of each stream method.
- `UploadRuns`: whole sequences of writes and closes.
- `View`: wrappers, resolution, the session view and wrapper operations.
- `Listing`: `listFiles`.
- `Mfmt`: the MFMT command.

Java `long` and `int` are modelled as unbounded integers. A written byte is
kept as its value modulo 256.

## Model

| member | source | states |
|---|---|---|
| Strings.Trim | src/main/java/org/andresoviedo/apps/gdrive_ftp_adapter/view/ftp/GFtpServerFactory.java:806 | `String.trim`: the result is one stretch of the input with only trimmable characters (at or below U+0020) outside it, and it neither starts nor ends with one; a string holding none comes back unchanged |
| Strings.TrimIdempotent | src/main/java/org/andresoviedo/apps/gdrive_ftp_adapter/view/ftp/GFtpServerFactory.java:806-812 | trimming an already trimmed MFMT argument changes nothing |
| Path.Join | src/main/java/org/andresoviedo/util/Path.java:18-35 | an empty side gives the other side back; otherwise the two sides meet at exactly one separator; the result always starts with `a` and ends with `b`, and its length is within one of `|a|+|b|` |
| Path.JoinJunction | src/main/java/org/andresoviedo/util/Path.java:21-33 | two separators at the seam collapse into one, no separator gets one inserted, and exactly one leaves plain `a+b` |
| Path.JoinAll | src/main/java/org/andresoviedo/util/Path.java:8-16 | the variadic loop gives `""` for no parts, the part itself for one, and otherwise the left fold of the binary join |
| Path.FoldSnoc | src/main/java/org/andresoviedo/util/Path.java:12-14 | adding one more part to the fold joins it onto the previous result, which is the loop step |
| Path.Equals | src/main/java/org/andresoviedo/util/Path.java:38-43 | two paths are equal iff they agree once one trailing separator is removed from each string longer than one character |
| Path.EqualsIsEquivalence | src/main/java/org/andresoviedo/util/Path.java:38-43 | path equality is reflexive, symmetric and transitive |
| Path.EqualsIgnoresOnlyOneSeparator | src/main/java/org/andresoviedo/util/Path.java:40-42 | one trailing separator is ignored but two are not, and `/` never equals the empty path |
| Drive.Prospective | src/main/java/org/andresoviedo/apps/gdrive_ftp_adapter/view/ftp/GFtpServerFactory.java:666 | the stand-in for a missing file does not exist, is not a directory, and lies in exactly the folder it was looked up in |
| NameCodec.Sanitize | src/main/java/org/andresoviedo/apps/gdrive_ftp_adapter/view/ftp/GFtpServerFactory.java:69 | the default pattern replaces each illegal character by `_` and keeps every other character and the length, so the result is legal |
| NameCodec.SanitizeIdempotent | src/main/java/org/andresoviedo/apps/gdrive_ftp_adapter/view/ftp/GFtpServerFactory.java:691-694 | sanitising twice is sanitising once |
| NameCodec.SanitizeFixesExactlyLegal | src/main/java/org/andresoviedo/apps/gdrive_ftp_adapter/view/ftp/GFtpServerFactory.java:680-681 | a name is left unchanged by sanitising iff it is already legal |
| NameCodec.ExtensionStart | src/main/java/org/andresoviedo/apps/gdrive_ftp_adapter/view/ftp/GFtpServerFactory.java:742-747 | the extension starts at the last `.`, or is empty when there is none |
| NameCodec.Encode | src/main/java/org/andresoviedo/apps/gdrive_ftp_adapter/view/ftp/GFtpServerFactory.java:740-753 | the id between two `__ID__` tokens is inserted just before the extension; cutting that segment out gives the name back |
| NameCodec.EncodeSeparatesIds | src/main/java/org/andresoviedo/apps/gdrive_ftp_adapter/view/ftp/GFtpServerFactory.java:740-753 | two names of the same shape encoded with different ids never coincide |
| NameCodec.Decode | src/main/java/org/andresoviedo/apps/gdrive_ftp_adapter/view/ftp/GFtpServerFactory.java:760-774 | an id is found iff the whole name matches `^(.*)__ID__(.{28})__ID__(.*)$` with no line terminator; the greedy first group picks the last match; the name without the segment and the 28-character id come back; otherwise the name comes back with no id |
| NameCodec.DecodePlain | src/main/java/org/andresoviedo/apps/gdrive_ftp_adapter/view/ftp/GFtpServerFactory.java:762-773 | a name without the token decodes to itself with no id |
| NameCodec.DecodeEncode | src/main/java/org/andresoviedo/apps/gdrive_ftp_adapter/view/ftp/GFtpServerFactory.java:740-774 | decoding an encoded name gives the name and id back, for a 28-character id without `_` and a name without the token and without line terminators |
| NameCodec.VirtualName | src/main/java/org/andresoviedo/apps/gdrive_ftp_adapter/view/ftp/GFtpServerFactory.java:677-689 | a wrapper keeps the name it was asked for iff that name is legal |
| NameCodec.VirtualNameLegal | src/main/java/org/andresoviedo/apps/gdrive_ftp_adapter/view/ftp/GFtpServerFactory.java:680-683 | every virtual name is legal when the id is |
| NameCodec.EncodeKeepsLegal | src/main/java/org/andresoviedo/apps/gdrive_ftp_adapter/view/ftp/GFtpServerFactory.java:752 | splicing a legal id into a legal name keeps it legal |
| NameCodec.VirtualNameDecodes | src/main/java/org/andresoviedo/apps/gdrive_ftp_adapter/view/ftp/GFtpServerFactory.java:680-683 | the virtual name of an illegal name decodes to the sanitised name and the file's id |
| Lru.Empty | src/main/java/org/andresoviedo/apps/gdrive_ftp_adapter/controller/Controller.java:67 | a new map is empty and within its capacity |
| Lru.Get | src/main/java/org/andresoviedo/apps/gdrive_ftp_adapter/controller/Controller.java:29-44 | a read returns the key's value and moves the key to the most recent end; a miss changes nothing; no key's value changes, and every other entry keeps its place in the access order |
| Lru.Put | src/main/java/org/andresoviedo/apps/gdrive_ftp_adapter/controller/Controller.java:29-44 | a put makes the key map to the value as the most recent entry and keeps the capacity; the only other key that may vanish is the eldest, and only when a new key arrives at a full map |
| Lru.PutKeepsOrder | src/main/java/org/andresoviedo/apps/gdrive_ftp_adapter/controller/Controller.java:29-44 | a put keeps every entry it leaves in place in its access order: only the key put moves, to the most recent end, and only an evicted eldest drops out |
| Lru.Update | src/main/java/org/andresoviedo/apps/gdrive_ftp_adapter/controller/Controller.java:86-94 | changing a stored entry in place keeps the order of keys and every other key's value |
| Lru.UpdateKeepsOrder | src/main/java/org/andresoviedo/apps/gdrive_ftp_adapter/controller/Controller.java:86-94 | changing a stored entry in place moves no key, so any access order kept before the change is still kept after it |
| Lru.PutEvictsEldest | src/main/java/org/andresoviedo/apps/gdrive_ftp_adapter/controller/Controller.java:40-43 | a new key in a full map evicts exactly the least recently accessed entry |
| Controller.NewQueries | src/main/java/org/andresoviedo/apps/gdrive_ftp_adapter/controller/Controller.java:67 | the throttle map starts empty, with room for 10 folders |
| Controller.GetFiles | src/main/java/org/andresoviedo/apps/gdrive_ftp_adapter/controller/Controller.java:78-99 | returns the cache listing whatever the throttle decides; a refresh is forced iff this is at least the third call since the entry's stamp and within 10 s of it; the folder's count then restarts at 0 and its stamp at now; every other folder keeps its entry, except the eldest, which is evicted exactly when a folder not yet in the full throttle is listed; the folder listed becomes the most recently accessed entry, and every other surviving entry keeps its relative access order |
| Controller.Recall | src/main/java/org/andresoviedo/apps/gdrive_ftp_adapter/controller/Controller.java:81-85 | reading the folder's entry, or creating it stamped now with count 0 when absent, makes it the most recently accessed entry; the other entries keep their values and relative order, except the eldest, evicted exactly when a new folder enters the full throttle |
| Controller.Tally | src/main/java/org/andresoviedo/apps/gdrive_ftp_adapter/controller/Controller.java:81-95 | counts the call: the stored entry is the recalled one with its count raised by one, or restarted at now with count 0 once the count passes 2; the folder is then the most recently accessed entry, and the others keep their values and order apart from the eviction of the eldest |
| Controller.ThirdListingRefreshes | src/main/java/org/andresoviedo/apps/gdrive_ftp_adapter/controller/Controller.java:81-95 | for a new folder, the first two listings refresh nothing and the third, within 10 s of the first, refreshes and resets the count |
| Controller.RefreshesAtMostEveryThird | src/main/java/org/andresoviedo/apps/gdrive_ftp_adapter/controller/Controller.java:86-95 | over any run of listings of one folder, forced refreshes are at most one in three calls, counting the calls already made |
| Controller.Touch | src/main/java/org/andresoviedo/apps/gdrive_ftp_adapter/controller/Controller.java:113-143 | throws IllegalArgumentException before any remote call iff the patch has no name and no positive time; otherwise sends one patch with exactly the fields set, then reports success and schedules an update iff Drive returned a file |
| Controller.RenameFile | src/main/java/org/andresoviedo/apps/gdrive_ftp_adapter/controller/Controller.java:101-104 | a rename never throws and patches the title only |
| Controller.UpdateLastModified | src/main/java/org/andresoviedo/apps/gdrive_ftp_adapter/controller/Controller.java:106-111 | setting a time throws iff the time is not positive; otherwise only the modified date is patched |
| Controller.TouchChangesOnlyWhatIsPatched | src/main/java/org/andresoviedo/apps/gdrive_ftp_adapter/controller/Controller.java:127-135 | a rename leaves the time alone, a time change leaves the title alone, and a patch with both sends both |
| Controller.TrashFile | src/main/java/org/andresoviedo/apps/gdrive_ftp_adapter/controller/Controller.java:145-152 | trashes with 3 attempts and removes the file from the cache iff the trash succeeded |
| Controller.Mkdir | src/main/java/org/andresoviedo/apps/gdrive_ftp_adapter/controller/Controller.java:154-160 | asks Drive for the folder under the parent and schedules an update of the new folder iff it was created |
| Controller.CreateOutputStream | src/main/java/org/andresoviedo/apps/gdrive_ftp_adapter/controller/Controller.java:166-173 | refuses directories with IllegalArgumentException; otherwise opens an empty, unconfirmed upload stream for the file |
| Upload.Open | src/main/java/org/andresoviedo/apps/gdrive_ftp_adapter/model/GoogleDriveUploadStream.java:40-54 | a new stream has an empty buffer, nothing sent, no session and no confirmed file |
| Upload.BuildMetadata | src/main/java/org/andresoviedo/apps/gdrive_ftp_adapter/model/GoogleDriveUploadStream.java:126-142 | the title is the file name; the modified date is the file's when non-zero, else now; parents come from the parent set, else the current parent, else none |
| Upload.Write | src/main/java/org/andresoviedo/apps/gdrive_ftp_adapter/model/GoogleDriveUploadStream.java:56-64 | the byte is stored; nothing is sent while the buffer is not yet full; the write that fills the buffer hands it to handleChunk, which on an unconfirmed stream sends a request; a write to a full buffer fails with the index error after the position has moved; a confirmed stream sends nothing more |
| Upload.Close | src/main/java/org/andresoviedo/apps/gdrive_ftp_adapter/model/GoogleDriveUploadStream.java:71-74 | closing a confirmed stream does nothing; closing a short file never sent issues one update or insert carrying the buffered bytes; closing inside a session sends the buffered rest as one chunk |
| Upload.HandleChunk | src/main/java/org/andresoviedo/apps/gdrive_ftp_adapter/model/GoogleDriveUploadStream.java:77-109 | nothing once confirmed; on the first handling a short buffer goes out as one direct update or insert and no session; a full buffer first starts a session, fails with nothing more sent on a non-200 reply, and otherwise is sent as one chunk to the returned location; every later handling sends exactly one chunk |
| Upload.Direct | src/main/java/org/andresoviedo/apps/gdrive_ftp_adapter/model/GoogleDriveUploadStream.java:82-101 | exactly one request of the built metadata: an update of the file's id iff the file exists, else an insert, carrying exactly the buffered bytes and no content iff nothing is buffered; success confirms the upload and failure changes nothing |
| Upload.GetUploadSession | src/main/java/org/andresoviedo/apps/gdrive_ftp_adapter/model/GoogleDriveUploadStream.java:145-169 | a known session sends nothing; otherwise exactly one session start: PUT on the file's id URI for an existing file, POST on the collection URI for a new one, with the built metadata and the MIME type as upload content type; it succeeds iff the reply is 200 and then keeps the reply's location, changing nothing else |
| Upload.UploadChunk | src/main/java/org/andresoviedo/apps/gdrive_ftp_adapter/model/GoogleDriveUploadStream.java:171-186 | sends one chunk when a session exists; a success confirms and 308 does not; both advance the sent length by the buffered bytes and empty the buffer; any other status fails leaving the stream as it was |
| UploadRuns.RunChunks | src/main/java/org/andresoviedo/apps/gdrive_ftp_adapter/model/GoogleDriveUploadStream.java:171-186 | over any run of writes and closes, the chunk ranges sent are contiguous from the stream's start, and after a run that did not fail the sent length equals the bytes sent |
| UploadRuns.RunSessions | src/main/java/org/andresoviedo/apps/gdrive_ftp_adapter/model/GoogleDriveUploadStream.java:145-146 | a resumable session is started at most once per stream, never once one is known, and a run that started one and did not fail holds its URI |
| UploadRuns.ConfirmedIsFinal | src/main/java/org/andresoviedo/apps/gdrive_ftp_adapter/model/GoogleDriveUploadStream.java:78 | once confirmed, an upload sends nothing more and stays confirmed, so a file is confirmed at most once |
| UploadRuns.ApplyKeepsRoom | src/main/java/org/andresoviedo/apps/gdrive_ftp_adapter/model/GoogleDriveUploadStream.java:59-62 | one write or close that neither fails nor confirms leaves the buffer position below the chunk size |
| UploadRuns.RunKeepsRoom | src/main/java/org/andresoviedo/apps/gdrive_ftp_adapter/model/GoogleDriveUploadStream.java:56-64 | between calls of a run that has neither failed nor been confirmed, the buffer position stays below the chunk size |
| UploadRuns.ConfirmedStreamOverflows | src/main/java/org/andresoviedo/apps/gdrive_ftp_adapter/model/GoogleDriveUploadStream.java:59 | after confirmation, writes still fill the buffer without sending anything, and the write past a full buffer fails with the index error |
| UploadRuns.BufferedWrites | src/main/java/org/andresoviedo/apps/gdrive_ftp_adapter/model/GoogleDriveUploadStream.java:56-64 | writes that do not fill the buffer send nothing and append their bytes after the ones already buffered |
| UploadRuns.RunAppend | src/main/java/org/andresoviedo/apps/gdrive_ftp_adapter/model/GoogleDriveUploadStream.java:56-74 | running two sequences of calls is running the first and then, unless it failed, the second from where it stopped |
| UploadRuns.ShortFileOneRequest | src/main/java/org/andresoviedo/apps/gdrive_ftp_adapter/model/GoogleDriveUploadStream.java:79-101 | writing fewer bytes than a chunk and closing sends exactly one request: an update iff the file exists, else an insert, carrying exactly the bytes written, with no content when none were; the file is confirmed iff it succeeded |
| UploadRuns.FullChunkStartsSession | src/main/java/org/andresoviedo/apps/gdrive_ftp_adapter/model/GoogleDriveUploadStream.java:56-109 | writing a full chunk to a fresh stream starts one resumable session, by PUT for an existing file and POST for a new one, and after a 200 reply with a location sends exactly one chunk there carrying every written byte, with no total announced |
| UploadRuns.FullBufferStartsSession | src/main/java/org/andresoviedo/apps/gdrive_ftp_adapter/model/GoogleDriveUploadStream.java:102-105 | a full buffer handled before anything was sent starts a session (PUT iff the file exists) and, after a 200 reply with a location, sends the whole buffer there as one chunk with no total announced |
| UploadRuns.ContentRangeRoundTrip | src/main/java/org/andresoviedo/apps/gdrive_ftp_adapter/model/GoogleDriveUploadStream.java:174 | reading back a `Content-Range` header gives the byte span sent (none for an empty buffer) and the total, known iff closing or the chunk is short |
| UploadRuns.ContentRangeDistinguishes | src/main/java/org/andresoviedo/apps/gdrive_ftp_adapter/model/GoogleDriveUploadStream.java:174 | two non-empty intermediate chunks carry the same header only if they have the same start and length |
| View.AbsolutePathIsChain | src/main/java/org/andresoviedo/apps/gdrive_ftp_adapter/view/ftp/GFtpServerFactory.java:227-228 | a non-root wrapper's path is `/` followed by the names from below the root down to it, joined by `/` |
| View.ChildPath | src/main/java/org/andresoviedo/apps/gdrive_ftp_adapter/view/ftp/GFtpServerFactory.java:227-228 | a child's path is its parent's path with one `/` (none after the root) and the child's name |
| View.PathStartsWithSeparator | src/main/java/org/andresoviedo/apps/gdrive_ftp_adapter/view/ftp/GFtpServerFactory.java:227-228 | under a root shown as `/`, every path starts with `/` |
| View.GetFileByName | src/main/java/org/andresoviedo/apps/gdrive_ftp_adapter/view/ftp/GFtpServerFactory.java:631-675 | the wrapper hangs from the folder under the virtual name of the part asked for; an id-tagged part gives the cached file of that id when its sanitised name is the decoded name, and a prospective file when the id is missing, ambiguous or the name differs; a plain part gives the file of that name in the folder, and a prospective file when there is none or several |
| View.PlainNameResolves | src/main/java/org/andresoviedo/apps/gdrive_ftp_adapter/view/ftp/GFtpServerFactory.java:655-659 | a legal, unencoded name the cache finds in the folder resolves to that file under that name |
| View.DuplicateNameResolves | src/main/java/org/andresoviedo/apps/gdrive_ftp_adapter/view/ftp/GFtpServerFactory.java:641-650 | a file's name encoded with its own id resolves back to that file, with no check of its parent |
| View.IllegalNameResolves | src/main/java/org/andresoviedo/apps/gdrive_ftp_adapter/view/ftp/GFtpServerFactory.java:641-650 | the virtual name given to a file with illegal characters resolves back to that file |
| View.Split | src/main/java/org/andresoviedo/apps/gdrive_ftp_adapter/view/ftp/GFtpServerFactory.java:586 | `String.split("/")`: a string without `/` gives itself; otherwise the pieces between separators, minus trailing empty ones |
| View.PiecesRejoin | src/main/java/org/andresoviedo/apps/gdrive_ftp_adapter/view/ftp/GFtpServerFactory.java:586 | joining the pieces with `/` gives the string back |
| View.SplitKeepsAllPieces | src/main/java/org/andresoviedo/apps/gdrive_ftp_adapter/view/ftp/GFtpServerFactory.java:586 | a path not ending in `/` loses no piece when split |
| View.Walk | src/main/java/org/andresoviedo/apps/gdrive_ftp_adapter/view/ftp/GFtpServerFactory.java:586-593 | walking names from a folder never leaves its tree |
| View.WalkPath | src/main/java/org/andresoviedo/apps/gdrive_ftp_adapter/view/ftp/GFtpServerFactory.java:586-593 | walking a relative path of legal names lands on a wrapper whose path is the folder's path followed by that relative path |
| View.GetFileByPath | src/main/java/org/andresoviedo/apps/gdrive_ftp_adapter/view/ftp/GFtpServerFactory.java:558-594 | resolution never leaves the home folder's tree |
| View.CurrentPathGivesCurrent | src/main/java/org/andresoviedo/apps/gdrive_ftp_adapter/view/ftp/GFtpServerFactory.java:559-562 | a path equal to the working directory's path, give or take one trailing `/`, resolves to the working directory itself |
| View.ResolveAbsolute | src/main/java/org/andresoviedo/apps/gdrive_ftp_adapter/view/ftp/GFtpServerFactory.java:565-574 | an absolute path of legal names resolves to a wrapper whose path is exactly that path, whether it is taken from the working directory or from home |
| View.ResolveRelative | src/main/java/org/andresoviedo/apps/gdrive_ftp_adapter/view/ftp/GFtpServerFactory.java:575-583 | a relative path of legal names resolves below the working directory, to the working directory's path followed by the relative path |
| View.Home | src/main/java/org/andresoviedo/apps/gdrive_ftp_adapter/view/ftp/GFtpServerFactory.java:424 | the home wrapper has no parent and is shown as `/` |
| View.Init | src/main/java/org/andresoviedo/apps/gdrive_ftp_adapter/view/ftp/GFtpServerFactory.java:418-429 | the first use makes home and working directory the root folder; later uses change nothing |
| View.WorkingDirectory | src/main/java/org/andresoviedo/apps/gdrive_ftp_adapter/view/ftp/GFtpServerFactory.java:409-416 | returns the working directory, which is home on first use |
| View.Dispose | src/main/java/org/andresoviedo/apps/gdrive_ftp_adapter/view/ftp/GFtpServerFactory.java:481-484 | disposing forgets the working directory, so the next use starts again from the root folder |
| View.ChangeWorkingDirectory | src/main/java/org/andresoviedo/apps/gdrive_ftp_adapter/view/ftp/GFtpServerFactory.java:431-479 | home never changes; a refusal leaves the working directory as it was; a successful move goes home, to the parent, or to a directory |
| View.SpecialDirectories | src/main/java/org/andresoviedo/apps/gdrive_ftp_adapter/view/ftp/GFtpServerFactory.java:439-457 | `/` and `//` go home, `.` and `./` stay, and `..` at home stays; all succeed |
| View.ChangeToAbsolutePath | src/main/java/org/andresoviedo/apps/gdrive_ftp_adapter/view/ftp/GFtpServerFactory.java:465-472 | changing to an absolute path of legal names succeeds iff it names a directory, which then has exactly that path |
| View.ChangeToPlainName | src/main/java/org/andresoviedo/apps/gdrive_ftp_adapter/view/ftp/GFtpServerFactory.java:465-475 | changing to a single name moves to what the name resolves to in the working directory iff that is a directory, and otherwise changes nothing |
| View.DescendThenAscend | src/main/java/org/andresoviedo/apps/gdrive_ftp_adapter/view/ftp/GFtpServerFactory.java:450-472 | after a successful change into a child, `..` brings the session back to where it was |
| View.AscendToParent | src/main/java/org/andresoviedo/apps/gdrive_ftp_adapter/view/ftp/GFtpServerFactory.java:451-462 | `..` below home moves to the parent and succeeds |
| View.GetFile | src/main/java/org/andresoviedo/apps/gdrive_ftp_adapter/view/ftp/GFtpServerFactory.java:494-527 | the empty name, `.` and `./` give the working directory; every other name is resolved as a path by getFileByPath; every answer lies in home's tree; the session only changes by its first initialisation |
| View.Delete | src/main/java/org/andresoviedo/apps/gdrive_ftp_adapter/view/ftp/GFtpServerFactory.java:284-290 | deleting a missing file throws a RuntimeException and sends nothing; otherwise the file is trashed and the answer is the trash result |
| View.Move | src/main/java/org/andresoviedo/apps/gdrive_ftp_adapter/view/ftp/GFtpServerFactory.java:313-316 | a move renames the file to the destination's name and changes nothing else |
| View.Mkdir | src/main/java/org/andresoviedo/apps/gdrive_ftp_adapter/view/ftp/GFtpServerFactory.java:328-334 | creating the root throws IllegalArgumentException; otherwise the folder is created under the wrapper's parent with the file's name |
| View.SetLastModified | src/main/java/org/andresoviedo/apps/gdrive_ftp_adapter/view/ftp/GFtpServerFactory.java:336-339 | throws iff the time is not positive; otherwise only the modified date is patched |
| View.CreateOutputStream | src/main/java/org/andresoviedo/apps/gdrive_ftp_adapter/view/ftp/GFtpServerFactory.java:318-321 | a directory is refused; a file gets a fresh upload stream |
| View.MkdirUsesLookupFolder | src/main/java/org/andresoviedo/apps/gdrive_ftp_adapter/view/ftp/GFtpServerFactory.java:328-334 | a folder created from a name the lookup did not find goes into the folder it was looked up in, under that name |
| Listing.SameKeySameShape | src/main/java/org/andresoviedo/apps/gdrive_ftp_adapter/view/ftp/GFtpServerFactory.java:720 | names that collide, on either system, have the same length and the same extension position |
| Listing.NameLoop | src/main/java/org/andresoviedo/apps/gdrive_ftp_adapter/view/ftp/GFtpServerFactory.java:711-735 | the loop, with its map from key to first holder, produces the names the collision rule prescribes: a file keeps its name until its key repeats, and both the first holder and the newcomer are then encoded with their ids |
| Listing.ListFiles | src/main/java/org/andresoviedo/apps/gdrive_ftp_adapter/view/ftp/GFtpServerFactory.java:696-738 | one wrapper per listed file, in order, under the folder, named by the collision rule as the code writes it (the first of a colliding group takes the last newcomer's name with its own id); an empty listing gives none; the throttle acts as in getFiles |
| Listing.KeepsShownNameIffUnique | src/main/java/org/andresoviedo/apps/gdrive_ftp_adapter/view/ftp/GFtpServerFactory.java:722-731 | a file keeps its virtual name iff no other file in the listing has the same key |
| Listing.GroupNamesDistinct | src/main/java/org/andresoviedo/apps/gdrive_ftp_adapter/view/ftp/GFtpServerFactory.java:729-731 | files with the same key and different ids are given different names |
| Listing.ListedNamesDistinct | src/main/java/org/andresoviedo/apps/gdrive_ftp_adapter/view/ftp/GFtpServerFactory.java:729-731 | the listed names of two colliding files with different ids differ, as written and as corrected |
| Listing.UnixListsIntended | src/main/java/org/andresoviedo/apps/gdrive_ftp_adapter/view/ftp/GFtpServerFactory.java:720 | off Windows, colliding names are identical, so the code as written already gives the intended names |
| Listing.IntendedNamesResolve | src/main/java/org/andresoviedo/apps/gdrive_ftp_adapter/view/ftp/GFtpServerFactory.java:696-738 | every name in a corrected listing, looked up in the same folder, gives back the listed file |
| Listing.CaseCollision | src/main/java/org/andresoviedo/apps/gdrive_ftp_adapter/view/ftp/GFtpServerFactory.java:720 | on Windows, `A.txt` and `a.txt` collide |
| Listing.MisspeltTagMisses | src/main/java/org/andresoviedo/apps/gdrive_ftp_adapter/view/ftp/GFtpServerFactory.java:641-653 | an encoded name whose name part is not the file's sanitised name resolves to a prospective, missing file |
| Listing.FirstDuplicateNames | src/main/java/org/andresoviedo/apps/gdrive_ftp_adapter/view/ftp/GFtpServerFactory.java:730 | listing `A.txt` then `a.txt` on Windows names the first file with `a.txt` and its own id, where `A.txt` was meant |
| Listing.WindowsFirstDuplicateLost | src/main/java/org/andresoviedo/apps/gdrive_ftp_adapter/view/ftp/GFtpServerFactory.java:730 | the name listed for that first file resolves to a missing file, while the corrected name resolves to it |
| Mfmt.SplitOnce | src/main/java/org/andresoviedo/apps/gdrive_ftp_adapter/view/ftp/GFtpServerFactory.java:798 | `split(" ", 2)`: one part iff there is no space; otherwise the text before the first space and everything after it |
| Mfmt.Arguments | src/main/java/org/andresoviedo/apps/gdrive_ftp_adapter/view/ftp/GFtpServerFactory.java:792-812 | there are arguments iff the argument is present, not blank, and holds a space; the timestamp has no space, and both parts are trimmed |
| Mfmt.ArgumentsRoundTrip | src/main/java/org/andresoviedo/apps/gdrive_ftp_adapter/view/ftp/GFtpServerFactory.java:798-812 | a timestamp and a trimmed file name sent as `timestamp name` are read back unchanged |
| Mfmt.LeadingSpaceEmptiesTimestamp | src/main/java/org/andresoviedo/apps/gdrive_ftp_adapter/view/ftp/GFtpServerFactory.java:792-806 | an argument starting with a space yields an empty timestamp, which goes on to the date parser |
| Mfmt.Execute | src/main/java/org/andresoviedo/apps/gdrive_ftp_adapter/view/ftp/GFtpServerFactory.java:785-864 | a missing, blank or one-part argument and an unparsable time give 501 and touch nothing; the reply is one of 501, 550, 450 and 213; 213 only after Drive accepted the new time; the only remote effect is a time-only patch with a positive time; a non-positive time escapes as IllegalArgumentException |
| Mfmt.SetsTimeOfNamedFile | src/main/java/org/andresoviedo/apps/gdrive_ftp_adapter/view/ftp/GFtpServerFactory.java:845-856 | for an existing file (directories included) and a positive time, the file's modified date is patched, then the reply is 213 with `ModifyTime=<timestamp>; <name>` if Drive answered, else 450 |
| Mfmt.MissingFileUntouched | src/main/java/org/andresoviedo/apps/gdrive_ftp_adapter/view/ftp/GFtpServerFactory.java:818-827 | a file that does not exist gets 550 `MFMT.filemissing` and nothing is sent |
| Mfmt.NonPositiveTimeRaises | src/main/java/org/andresoviedo/apps/gdrive_ftp_adapter/view/ftp/GFtpServerFactory.java:845-861 | a time at or before the epoch makes `setLastModified` throw IllegalArgumentException, which the command does not catch, and nothing is sent |

## Left out

- Server wiring, listener and port settings, the user manager and authentication (`GFtpServerFactory.java` 82-192): these configure Apache FtpServer and contain no adapter logic.
- Concurrency: the double-checked lazy initialisation of home and the shared `lastQueries` map are modelled sequentially. The view is initialised once, and the map is read and written by one call at a time.
- Logging, and the stack-trace inspection in `getFile` that only decides whether to log.
- MIME detection by Tika: the detected type is a parameter (`Env.detect`) read once, on the first chunk.
- HTTP transport and response parsing: each request is a `Call` value and the server's reply is a parameter (`Env.server`). `getUploadStatus` is never called in the source and is not modelled.
- `DateUtils.parseFTPDate`: a parameter `parse`, whose `None` stands for a `ParseException`.
- The illegal-character pattern can be replaced by a configuration property; only the default pattern is modelled.
- Lowercasing for the Windows key is Java's `toLowerCase`, modelled for ASCII letters only.
- The missing root folder: the model assumes the cache returns a root file record.
- `getHomeDirectory` before the first use of the view returns null; the model has no null wrapper and does not model that call.
- `createInputStream` and downloads: the controller passes them straight to `GoogleDrive`, which is not part of this model.
- MFMT's `session.resetState()` and the localisation of reply texts: a reply is modelled as its code, message key and argument.
- Exceptions thrown while looking up the MFMT target are caught by the command and read as a missing file; the model's lookup never throws.
- Java `long` overflow of times and byte counts; the signedness of Java `byte` (bytes are kept as values 0-255).
- Each call reads one clock value `now`, where `getFiles` reads the clock up to three times.
- The fields a prospective `GFile` gets from `GoogleDrive.java`: assumed not a directory, not existing, modified time 0 and no current parent.
- `GoogleDrive.java` and `Cache.java` are not part of this model; their answers enter as `Metadata` lookups and `remote` results.
- Trivial getters of the wrapper (`isHidden`, `isReadable`, `isWritable`, `getGroupName`, `getOwnerName`, `getSize`, `getLinkCount`).
- Adaptive chunk resizing: the code has none; the fixed 512 KiB chunk is modelled.
- Listing.IntendedNamesResolve: covers duplicated names only when the name itself is legal; a duplicated name with illegal characters is encoded twice by the source and is not covered.
- View.GetFileByPath: its contract only keeps the answer in home's tree; the individual resolution cases are stated by `View.CurrentPathGivesCurrent`, `View.ResolveAbsolute` and `View.ResolveRelative` for paths of legal names.
- View.ChangeWorkingDirectory: its contract states the shape of every outcome; the exact outcomes are stated for special directories, absolute paths of legal names and single names by the lemmas that follow it.

## Findings

| source | as written | input that shows it | evidently intended | confidence | as-written member | corrected member |
|---|---|---|---|---|---|---|
| src/main/java/org/andresoviedo/apps/gdrive_ftp_adapter/view/ftp/GFtpServerFactory.java:730 | the first file of a colliding group is renamed by encoding the NEWCOMER's name with the first file's id | on Windows, a folder listing `A.txt` (id x1) then `a.txt` (id x2): the first file is listed as `a__ID__x1__ID__.txt`, whose decoded name `a.txt` differs from the file's own name `A.txt`, so looking that name up finds nothing | encode the first file's own virtual name: `A__ID__x1__ID__.txt` | not executed | Listing.WindowsFirstDuplicateLost | Listing.IntendedNamesResolve |

=== FILE: controller.dfy ===
/**
  `Controller`: the layer between the FTP view and Drive. Listing a folder
  goes through a small throttle (an access-ordered cache of the last ten
  queries) that forces a refresh of the folder when it is listed three times
  within ten seconds. The mutating operations issue one remote request each
  and, when Drive answers, tell the synchronisation service or the cache.

  Drive and the synchronisation service are not part of this model: what
  they answer enters as a parameter, and what they are asked to do comes
  out as a sequence of events.
 */
module Controller {
  import opened Wrappers
  import opened Drive
  import Lru
  import Upload

  /** The throttle remembers the last ten folders queried. */
  const CAPACITY: nat := 10

  /** Milliseconds within which repeated listings force a refresh. */
  const WINDOW: int := 10000

  /** Listings tolerated before the third one forces a refresh. */
  const BURST: int := 2

  /** Attempts the controller allows Drive's trash call. */
  const TRASH_ATTEMPTS: nat := 3

  /** `ControllerRequest`: when the current burst started and how many listings it holds. */
  datatype Request = Request(stamp: int, times: int)

  type Queries = Lru.Cache<string, Request>

  /** What the controller asks of Drive, the synchronisation service and the cache. */
  datatype Event =
    | UpdateFolderNow(target: FileId)
    | TouchRemote(target: FileId, title: Option<string>, modified: Option<int>)
    | UpdateNow(target: FileId)
    | TrashRemote(target: FileId, attempts: nat)
    | CacheDelete(target: FileId)
    | MkdirRemote(parent: FileId, name: string)

  datatype Exception = IllegalArgument | Runtime

  /** A call's result or the exception it throws, with the events it caused either way. */
  datatype Outcome<T> = Returned(value: T, events: seq<Event>) | Thrown(error: Exception, events: seq<Event>)

  // ---------------------------------------------------------------
  // Listing and its throttle
  // ---------------------------------------------------------------

  function QueryKey(folderId: FileId): string {
    "getFiles-" + IdText(folderId)
  }

  /** The throttle as the controller builds it: empty, ten entries at most. */
  function NewQueries(): (q: Queries)
    ensures Throttle(q)
  {
    Lru.Empty(CAPACITY)
  }

  /** The throttle's invariant: a valid cache of ten whose counts never pass the burst. */
  ghost predicate Throttle(q: Queries) {
    && Lru.Valid(q) && q.capacity == CAPACITY
    && forall k :: Lru.Lookup(q.entries, k).Some? ==> 0 <= Lru.Lookup(q.entries, k).value.times <= BURST
  }

  datatype Listed = Listed(queries: Queries, events: seq<Event>, files: seq<GFile>)

  /**
    `getFiles`: count this listing of the folder, starting a burst on the
    first one; the third within a burst resets the burst and forces a refresh
    of the folder when the burst began less than ten seconds ago. The
    listing itself comes from the cache, unchanged.
   */
  function GetFiles(q: Queries, folderId: FileId, now: int, listing: seq<GFile>): (r: Listed)
    requires Throttle(q)
    ensures Throttle(r.queries)
    ensures r.files == listing
    ensures var key := QueryKey(folderId);
            var prior := Lru.Lookup(q.entries, key);
            var counted := if prior.None? then Request(now, 1) else prior.value.(times := prior.value.times + 1);
            && (r.events == [UpdateFolderNow(folderId)] <==> prior.Some? && prior.value.times >= BURST && now < prior.value.stamp + WINDOW)
            && (r.events == [] || r.events == [UpdateFolderNow(folderId)])
            && Lru.Lookup(r.queries.entries, key) == Some(if counted.times > BURST then Request(now, 0) else counted)
    // other folders keep their counts, except the eldest when a new folder evicts it
    ensures forall k :: k != QueryKey(folderId) ==>
              Lru.Lookup(r.queries.entries, k) ==
                (if Lru.Lookup(q.entries, QueryKey(folderId)).None? && |q.entries| == CAPACITY && q.entries[0].0 == k
                 then None else Lru.Lookup(q.entries, k))
    // the folder listed becomes the most recently accessed, so the eldest is the one listed longest ago
    ensures r.queries.entries != [] && r.queries.entries[|r.queries.entries| - 1].0 == QueryKey(folderId)
    ensures Lru.KeepsOrder(q.entries, r.queries.entries, QueryKey(folderId),
                           if Lru.Lookup(q.entries, QueryKey(folderId)).None? && |q.entries| == CAPACITY then 1 else 0)
  {
    var key := QueryKey(folderId);
    var (queries, req) := Tally(q, key, now);
    var events := if req.times + 1 > BURST && now < req.stamp + WINDOW then [UpdateFolderNow(folderId)] else [];
    Listed(queries, events, listing)
  }

  /**
    The throttle's bookkeeping in `getFiles`: the folder's request as it
    was recalled, and the throttle after counting this listing, a third
    listing resetting the burst to start now.
   */
  function Tally(q: Queries, key: string, now: int): (r: (Queries, Request))
    requires Throttle(q)
    ensures Throttle(r.0)
    ensures r.1 == (if Lru.Lookup(q.entries, key).Some? then Lru.Lookup(q.entries, key).value else Request(now, 0))
    ensures Lru.Lookup(r.0.entries, key) ==
              Some(if r.1.times + 1 > BURST then Request(now, 0) else Request(r.1.stamp, r.1.times + 1))
    ensures forall k :: k != key ==>
              Lru.Lookup(r.0.entries, k) ==
                (if Lru.Lookup(q.entries, key).None? && |q.entries| == CAPACITY && q.entries[0].0 == k
                 then None else Lru.Lookup(q.entries, k))
    ensures r.0.entries != [] && r.0.entries[|r.0.entries| - 1].0 == key
    ensures Lru.KeepsOrder(q.entries, r.0.entries, key,
                           if Lru.Lookup(q.entries, key).None? && |q.entries| == CAPACITY then 1 else 0)
  {
    var (q2, req) := Recall(q, key, now);
    var times := req.times + 1;
    var counted := if times > BURST then Request(now, 0) else Request(req.stamp, times);
    var q3 := Lru.Update(q2, key, counted);
    CountsBounded(q, q2, q3, key, counted);
    Lru.UpdateKeepsOrder(q.entries, q2, key, counted, key,
                         if Lru.Lookup(q.entries, key).None? && |q.entries| == CAPACITY then 1 else 0);
    (q3, req)
  }

  /** Storing a count within the burst keeps every count of the throttle within it. */
  lemma CountsBounded(q: Queries, q2: Queries, q3: Queries, key: string, counted: Request)
    requires Throttle(q) && Lru.Valid(q3) && q3.capacity == CAPACITY
    requires 0 <= counted.times <= BURST && Lru.Lookup(q3.entries, key) == Some(counted)
    requires forall k :: k != key ==> Lru.Lookup(q3.entries, k) == Lru.Lookup(q2.entries, k)
    requires forall k :: k != key && Lru.Lookup(q2.entries, k).Some? ==> Lru.Lookup(q2.entries, k) == Lru.Lookup(q.entries, k)
    ensures Throttle(q3)
  {
    forall k | Lru.Lookup(q3.entries, k).Some?
      ensures 0 <= Lru.Lookup(q3.entries, k).value.times <= BURST
    {
      if k != key {
        assert Lru.Lookup(q2.entries, k) == Lru.Lookup(q.entries, k);
      }
    }
  }

  /**
    The lookup at the start of `getFiles`: a known folder's request is read
    (and becomes the most recently used); an unknown folder gets a new
    request stamped now, which may evict the eldest folder.
   */
  function Recall(q: Queries, key: string, now: int): (r: (Queries, Request))
    requires Throttle(q)
    ensures Lru.Valid(r.0) && r.0.capacity == CAPACITY
    ensures Lru.Lookup(r.0.entries, key) == Some(r.1)
    ensures r.1 == (if Lru.Lookup(q.entries, key).Some? then Lru.Lookup(q.entries, key).value else Request(now, 0))
    ensures forall k :: k != key ==>
              Lru.Lookup(r.0.entries, k) ==
                (if Lru.Lookup(q.entries, key).None? && |q.entries| == CAPACITY && q.entries[0].0 == k
                 then None else Lru.Lookup(q.entries, k))
    // the folder becomes the most recently accessed; the others keep their order
    ensures r.0.entries != [] && r.0.entries[|r.0.entries| - 1].0 == key
    ensures Lru.KeepsOrder(q.entries, r.0.entries, key,
                           if Lru.Lookup(q.entries, key).None? && |q.entries| == CAPACITY then 1 else 0)
  {
    var (q1, hit) := Lru.Get(q, key);
    if hit.Some? then (q1, hit.value)
    else
      Lru.PutKeepsOrder(q1, key, Request(now, 0));
      (Lru.Put(q1, key, Request(now, 0)), Request(now, 0))
  }

  /** `getFiles` on one folder, once per instant, in order. */
  function ListRepeatedly(q: Queries, folderId: FileId, instants: seq<int>, listing: seq<GFile>): (r: Listed)
    requires Throttle(q)
    ensures Throttle(r.queries)
    decreases |instants|
  {
    if instants == [] then Listed(q, [], listing)
    else
      var first := GetFiles(q, folderId, instants[0], listing);
      var rest := ListRepeatedly(first.queries, folderId, instants[1..], listing);
      Listed(rest.queries, first.events + rest.events, listing)
  }

  /**
    A folder the throttle has not seen is refreshed by its third listing
    when all three fall within ten seconds of the first, and not before.
   */
  lemma ThirdListingRefreshes(q: Queries, folderId: FileId, t1: int, t2: int, t3: int, listing: seq<GFile>)
    requires Throttle(q) && Lru.Lookup(q.entries, QueryKey(folderId)).None?
    requires t3 < t1 + WINDOW
    ensures var a := GetFiles(q, folderId, t1, listing);
            var b := GetFiles(a.queries, folderId, t2, listing);
            var c := GetFiles(b.queries, folderId, t3, listing);
            && a.events == [] && b.events == []
            && c.events == [UpdateFolderNow(folderId)]
            && Lru.Lookup(c.queries.entries, QueryKey(folderId)) == Some(Request(t3, 0))
  {
    var a := GetFiles(q, folderId, t1, listing);
    assert Lru.Lookup(a.queries.entries, QueryKey(folderId)) == Some(Request(t1, 1));
    var b := GetFiles(a.queries, folderId, t2, listing);
    assert Lru.Lookup(b.queries.entries, QueryKey(folderId)) == Some(Request(t1, 2));
  }

  /**
    Bursts are counted, not timed: however far apart, every third listing of
    a folder closes its burst, so at most one refresh is forced per three
    listings.
   */
  lemma {:induction false} RefreshesAtMostEveryThird(q: Queries, folderId: FileId, instants: seq<int>, listing: seq<GFile>)
    requires Throttle(q)
    ensures var r := ListRepeatedly(q, folderId, instants, listing);
            var prior := Lru.Lookup(q.entries, QueryKey(folderId));
            var done := if prior.None? then 0 else prior.value.times;
            3 * |r.events| <= |instants| + done
    decreases |instants|
  {
    if instants != [] {
      var key := QueryKey(folderId);
      var first := GetFiles(q, folderId, instants[0], listing);
      RefreshesAtMostEveryThird(first.queries, folderId, instants[1..], listing);
      var prior := Lru.Lookup(q.entries, key);
      var after := Lru.Lookup(first.queries.entries, key);
      assert after.Some?;
    }
  }

  // ---------------------------------------------------------------
  // Mutations
  // ---------------------------------------------------------------

  /** The patch `touch` applies: a new title, a new modification time (0 for none), or both. */
  datatype Patch = Patch(name: Option<string>, lastModified: int)

  /**
    `touch`: refuse a patch with neither a name nor a positive time; send the
    title when there is a name and the time when it is positive, and report
    the updated file to the synchronisation service when Drive returns it.
    `remote` is Drive's answer to `touchFile`.
   */
  function Touch(file: GFile, patch: Patch, remote: Option<FileId>): (r: Outcome<bool>)
    ensures r.Thrown? <==> patch.name.None? && patch.lastModified <= 0
    ensures r.Thrown? ==> r == Thrown(IllegalArgument, [])
    ensures r.Returned? ==>
              && r.value == remote.Some?
              && |r.events| >= 1
              && r.events[0] == TouchRemote(file.id, patch.name, if patch.lastModified > 0 then Some(patch.lastModified) else None)
              && r.events[1..] == (if remote.Some? then [UpdateNow(remote.value)] else [])
  {
    if patch.name.None? && patch.lastModified <= 0 then Thrown(IllegalArgument, [])
    else
      var touched := TouchRemote(file.id, patch.name, if patch.lastModified > 0 then Some(patch.lastModified) else None);
      if remote.Some? then Returned(true, [touched, UpdateNow(remote.value)])
      else Returned(false, [touched])
  }

  /** `renameFile`: a patch carrying only the new name. */
  function RenameFile(file: GFile, newName: string, remote: Option<FileId>): (r: Outcome<bool>)
    ensures r.Returned? && r.value == remote.Some?
    ensures |r.events| >= 1 && r.events[0] == TouchRemote(file.id, Some(newName), None)
  {
    Touch(file, Patch(Some(newName), 0), remote)
  }

  /** `updateLastModified`: a patch carrying only the time, which must be positive. */
  function UpdateLastModified(file: GFile, time: int, remote: Option<FileId>): (r: Outcome<bool>)
    ensures r.Thrown? <==> time <= 0
    ensures r.Returned? ==> r.value == remote.Some? && |r.events| >= 1 && r.events[0] == TouchRemote(file.id, None, Some(time))
  {
    Touch(file, Patch(None, time), remote)
  }

  /**
    A rename never changes the modification time and a time update never
    renames: each touches exactly the field it was asked to.
   */
  lemma TouchChangesOnlyWhatIsPatched(file: GFile, newName: string, time: int, remote: Option<FileId>)
    requires time > 0
    ensures var e := RenameFile(file, newName, remote).events; |e| >= 1 && e[0].TouchRemote? && e[0].modified.None?
    ensures var e := UpdateLastModified(file, time, remote).events; |e| >= 1 && e[0].TouchRemote? && e[0].title.None?
    ensures var e := Touch(file, Patch(Some(newName), time), remote).events;
            |e| >= 1 && e[0] == TouchRemote(file.id, Some(newName), Some(time))
  {
  }

  /**
    `trashFile`: ask Drive to trash the file (three attempts); only when
    Drive confirms is the file dropped from the cache. `ok` is whether Drive
    returned the trashed file.
   */
  function TrashFile(file: GFile, ok: bool): (r: Outcome<bool>)
    ensures r.Returned? && r.value == ok
    ensures |r.events| >= 1 && r.events[0] == TrashRemote(file.id, TRASH_ATTEMPTS)
    ensures CacheDelete(file.id) in r.events <==> ok
    ensures |r.events| <= 2
  {
    if ok then Returned(true, [TrashRemote(file.id, TRASH_ATTEMPTS), CacheDelete(file.id)])
    else Returned(false, [TrashRemote(file.id, TRASH_ATTEMPTS)])
  }

  /**
    `mkdir`: ask Drive for a folder named after the file under the parent;
    when Drive returns it, have it synchronised. `created` is the new
    folder's id, if Drive returned one.
   */
  function Mkdir(parentId: FileId, file: GFile, created: Option<FileId>): (r: Outcome<bool>)
    ensures r.Returned? && r.value == created.Some?
    ensures |r.events| >= 1 && r.events[0] == MkdirRemote(parentId, file.name)
    ensures forall i :: 0 < i < |r.events| ==> created.Some? && r.events[i] == UpdateNow(created.value)
    ensures created.Some? ==> UpdateNow(created.value) in r.events
  {
    if created.Some? then Returned(true, [MkdirRemote(parentId, file.name), UpdateNow(created.value)])
    else Returned(false, [MkdirRemote(parentId, file.name)])
  }

  /**
    `createOutputStream`: directories cannot be written; any other file gets
    a fresh upload stream.
   */
  function CreateOutputStream(file: GFile): (r: Outcome<Upload.Stream>)
    ensures r.Thrown? <==> file.isDirectory
    ensures r.Returned? ==> r.value == Upload.Open(file) && r.events == []
    ensures r.Returned? ==> Upload.Valid(r.value) && r.value.file == file && r.value.offset == 0 && !r.value.uploaded
  {
    if file.isDirectory then Thrown(IllegalArgument, []) else Returned(Upload.Open(file), [])
  }
}

=== FILE: drive.dfy ===
/**
  The slice of the Google Drive side the adapter consumes: the cached file
  record (`GoogleDrive.GFile`) and the answers of the metadata cache
  (`Cache.getFile`, `Cache.getFileByName`). GoogleDrive.java and Cache.java
  are not part of this model; their results enter as values.
 */
module Drive {
  import opened Wrappers

  /** A Drive file id. `NullId` is the missing id of a file not created yet. */
  datatype FileId = Id(value: string) | NullId

  /** How Java string concatenation renders an id: a null id reads "null". */
  function IdText(id: FileId): string {
    match id
    case Id(s) => s
    case NullId => "null"
  }

  /**
    A file or folder as the cache knows it. `parents` is null for files
    loaded without parent information; `currentParent` is the id of
    `getCurrentParent()`, when there is one.
   */
  datatype GFile = GFile(
    id: FileId,
    name: string,
    isDirectory: bool,
    existing: bool,
    parents: Option<set<FileId>>,
    lastModified: int,
    currentParent: Option<FileId>)

  /**
    `new GFile(Collections.singleton(parentId), name)`: a file that does not
    exist yet, placed under one folder. Its remaining fields keep their
    defaults: no id, not a directory, never modified, no current parent.
   */
  function Prospective(parentId: FileId, name: string): (f: GFile)
    ensures !f.existing && !f.isDirectory
    ensures f.parents == Some({parentId}) && f.name == name
  {
    GFile(NullId, name, false, false, Some({parentId}), 0, None)
  }

  /**
    One cache lookup: a single match, none, or more than one (the cache then
    throws `IncorrectResultSizeDataAccessException`).
   */
  datatype Lookup = Found(file: GFile) | NotFound | Ambiguous

  /** The metadata cache as two lookup functions. */
  datatype Metadata = Metadata(
    byId: FileId -> Lookup,
    byName: (FileId, string) -> Lookup)
}

=== FILE: listing.dfy ===
/**
  `listFiles`: a folder's listing as wrappers carrying the names the FTP
  client sees. A file whose shown name no other file of the listing shares
  keeps it; files that share one (ignoring ASCII case on Windows) are told
  apart by injecting their ids into their names.
 */
module Listing {
  import opened Wrappers
  import opened Strings
  import opened Drive
  import opened NameCodec
  import opened View
  import Controller

  /** The name a file is first shown under: what `createFtpFileWrapper` gives it. */
  function Shown(f: GFile): string {
    VirtualName(f.name, f.id)
  }

  /** What makes two names collide: the name on Unix, the lower-cased name on Windows. */
  function Key(windows: bool, name: string): string {
    if windows then ToLower(name) else name
  }

  /** The key of every file of the listing, in order. */
  function Keys(windows: bool, q: seq<GFile>): (r: seq<string>)
    ensures |r| == |q|
  {
    seq(|q|, j requires 0 <= j < |q| => Key(windows, Shown(q[j])))
  }

  /** Colliding names have the same length and their extension at the same place. */
  lemma SameKeySameShape(windows: bool, s: string, t: string)
    requires Key(windows, s) == Key(windows, t)
    ensures |s| == |t| && ExtensionStart(s) == ExtensionStart(t)
  {
    assert |s| == |t|;
    forall i | 0 <= i < |s| ensures s[i] == '.' <==> t[i] == '.' {
      if windows {
        assert LowerChar(s[i]) == ToLower(s)[i] == ToLower(t)[i] == LowerChar(t[i]);
      }
    }
  }

  /** The first position below `n` holding `key`, or -1. */
  function FirstBelow(keys: seq<string>, key: string, n: nat): (r: int)
    requires n <= |keys|
    ensures -1 <= r < n
    ensures r >= 0 ==> keys[r] == key
    ensures forall j :: 0 <= j < n && (r < 0 || j < r) ==> keys[j] != key
    decreases n
  {
    if n == 0 then -1
    else
      var r := FirstBelow(keys, key, n - 1);
      if r >= 0 then r else if keys[n - 1] == key then n - 1 else -1
  }

  /** The last position below `n` holding `key`, or -1. */
  function LastBelow(keys: seq<string>, key: string, n: nat): (r: int)
    requires n <= |keys|
    ensures -1 <= r < n
    ensures r >= 0 ==> keys[r] == key
    ensures forall j :: r < j < n ==> keys[j] != key
    decreases n
  {
    if n == 0 then -1
    else if keys[n - 1] == key then n - 1
    else LastBelow(keys, key, n - 1)
  }

  /** No other position below `n` holds the key at `j`. */
  predicate Unique(keys: seq<string>, n: nat, j: nat)
    requires j < n <= |keys|
  {
    forall k :: 0 <= k < n && k != j ==> keys[k] != keys[j]
  }

  lemma UniqueIsFirstAndLast(keys: seq<string>, n: nat, j: nat)
    requires j < n <= |keys|
    ensures Unique(keys, n, j) <==> FirstBelow(keys, keys[j], n) == j && LastBelow(keys, keys[j], n) == j
  {
  }

  // ---------------------------------------------------------------
  // The names as the loop of `listFiles` leaves them
  // ---------------------------------------------------------------

  /**
    How a listed name is built: one file's shown name as is, or one file's
    shown name tagged with a (possibly other) file's id.
   */
  datatype Label = Plain(file: nat) | Tagged(nameOf: nat, idOf: nat)

  predicate Fits(l: Label, n: nat) {
    match l
    case Plain(k) => k < n
    case Tagged(a, b) => a < n && b < n
  }

  function Render(q: seq<GFile>, l: Label): string
    requires Fits(l, |q|)
  {
    match l
    case Plain(k) => Shown(q[k])
    case Tagged(a, b) => Encode(Shown(q[a]), IdText(q[b].id))
  }

  /**
    The label of file `j` once the loop has seen the first `n` files, `keys`
    being their keys. A file colliding with an earlier one is tagged with its
    own id. The first of a group is renamed at every later collision, each
    time from the name of the file that collided, so it ends up with the
    LAST one's shown name tagged with its own id.
   */
  function ListedLabel(keys: seq<string>, n: nat, j: nat): (r: Label)
    requires j < n <= |keys|
    ensures Fits(r, n)
  {
    var first := FirstBelow(keys, keys[j], n);
    var last := LastBelow(keys, keys[j], n);
    if first != j then Tagged(j, j)
    else if last == j then Plain(j)
    else Tagged(last, j)
  }

  /**
    The label file `j` was evidently meant to get: its shown name when no
    other file collides with it, otherwise its shown name tagged with its
    own id.
   */
  function IntendedLabel(keys: seq<string>, n: nat, j: nat): (r: Label)
    requires j < n <= |keys|
    ensures Fits(r, n)
  {
    if Unique(keys, n, j) then Plain(j) else Tagged(j, j)
  }

  function ListedName(keys: seq<string>, q: seq<GFile>, j: nat): string
    requires |keys| == |q| && j < |q|
  {
    Render(q, ListedLabel(keys, |q|, j))
  }

  function IntendedName(keys: seq<string>, q: seq<GFile>, j: nat): string
    requires |keys| == |q| && j < |q|
  {
    Render(q, IntendedLabel(keys, |q|, j))
  }

  /** The label as written, or as corrected when `fixed`. */
  function LabelOf(fixed: bool, keys: seq<string>, n: nat, j: nat): (r: Label)
    requires j < n <= |keys|
    ensures Fits(r, n)
  {
    if fixed then IntendedLabel(keys, n, j) else ListedLabel(keys, n, j)
  }

  /** The names of the first `n` files once the loop has seen them. */
  function NamesOf(fixed: bool, keys: seq<string>, q: seq<GFile>, n: nat): (r: seq<string>)
    requires |keys| == |q| && n <= |q|
    ensures |r| == n
  {
    seq(n, j requires 0 <= j < n => Render(q, LabelOf(fixed, keys, n, j)))
  }

  /**
    One more file seen: only the first of its group is relabelled, from the
    new file's name as written, from its own when `fixed`.
   */
  lemma LabelStep(fixed: bool, keys: seq<string>, i: nat, j: nat)
    requires j < i < |keys|
    ensures LabelOf(fixed, keys, i + 1, j) ==
              if keys[j] == keys[i] && FirstBelow(keys, keys[i], i) == j then Tagged(if fixed then j else i, j)
              else LabelOf(fixed, keys, i, j)
  {
    if fixed {
      if keys[j] != keys[i] {
        assert Unique(keys, i + 1, j) == Unique(keys, i, j);
      } else {
        assert !Unique(keys, i + 1, j);
        var first := FirstBelow(keys, keys[i], i);
        if first != j {
          assert !Unique(keys, i, j) by { assert keys[first] == keys[j]; }
        }
      }
    }
  }

  /** The file just seen keeps its shown name unless an earlier file collides with it. */
  lemma NewLabelStep(fixed: bool, keys: seq<string>, i: nat)
    requires i < |keys|
    ensures LabelOf(fixed, keys, i + 1, i) == if FirstBelow(keys, keys[i], i) < 0 then Plain(i) else Tagged(i, i)
  {
    UniqueIsFirstAndLast(keys, i + 1, i);
  }

  /** The loop's step for a file no earlier file collides with: it keeps its shown name. */
  lemma FreshStep(fixed: bool, keys: seq<string>, q: seq<GFile>, names: seq<string>, i: nat, next: seq<string>)
    requires |keys| == |q| && i < |q|
    requires names == NamesOf(fixed, keys, q, i)
    requires FirstBelow(keys, keys[i], i) < 0
    requires next == names + [Shown(q[i])]
    ensures next == NamesOf(fixed, keys, q, i + 1)
  {
    forall j | 0 <= j < i + 1 ensures next[j] == Render(q, LabelOf(fixed, keys, i + 1, j)) {
      if j == i {
        NewLabelStep(fixed, keys, i);
      } else {
        LabelStep(fixed, keys, i, j);
        assert next[j] == names[j];
      }
    }
  }

  /**
    The loop's step for a file colliding with file `first`: the first file
    is renamed, from the new file's name as written or from its own when
    `fixed`, and the new file is tagged with its own id.
   */
  lemma CollisionStep(fixed: bool, keys: seq<string>, q: seq<GFile>, names: seq<string>, i: nat, first: nat, renamed: nat, next: seq<string>)
    requires |keys| == |q| && i < |q|
    requires names == NamesOf(fixed, keys, q, i)
    requires first == FirstBelow(keys, keys[i], i)
    requires renamed == if fixed then first else i
    requires next == names[first := Encode(Shown(q[renamed]), IdText(q[first].id))] + [Encode(Shown(q[i]), IdText(q[i].id))]
    ensures next == NamesOf(fixed, keys, q, i + 1)
  {
    forall j | 0 <= j < i + 1 ensures next[j] == Render(q, LabelOf(fixed, keys, i + 1, j)) {
      CollisionAt(fixed, keys, q, names, i, first, renamed, next, j);
    }
  }

  /** One name after a collision step, by where it sits. */
  lemma CollisionAt(fixed: bool, keys: seq<string>, q: seq<GFile>, names: seq<string>, i: nat, first: nat, renamed: nat, next: seq<string>, j: nat)
    requires |keys| == |q| && i < |q| && j < i + 1
    requires names == NamesOf(fixed, keys, q, i)
    requires first == FirstBelow(keys, keys[i], i)
    requires renamed == if fixed then first else i
    requires next == names[first := Encode(Shown(q[renamed]), IdText(q[first].id))] + [Encode(Shown(q[i]), IdText(q[i].id))]
    ensures next[j] == Render(q, LabelOf(fixed, keys, i + 1, j))
  {
    if j == i {
      assert LabelOf(fixed, keys, i + 1, j) == Tagged(i, i) by { NewLabelStep(fixed, keys, i); }
      assert next[j] == Encode(Shown(q[i]), IdText(q[i].id));
    } else if j == first {
      assert LabelOf(fixed, keys, i + 1, j) == Tagged(renamed, first) by { LabelStep(fixed, keys, i, j); }
      assert next[j] == Encode(Shown(q[renamed]), IdText(q[first].id));
    } else {
      assert LabelOf(fixed, keys, i + 1, j) == LabelOf(fixed, keys, i, j) by { LabelStep(fixed, keys, i, j); }
      assert next[j] == names[j];
    }
  }

  /** `seen` maps each key met among the first `n` files to the first file holding it. */
  ghost predicate Remembers(keys: seq<string>, seen: map<string, nat>, n: nat)
    requires n <= |keys|
  {
    && (forall key :: key in seen <==> FirstBelow(keys, key, n) >= 0)
    && (forall key :: key in seen ==> seen[key] == FirstBelow(keys, key, n))
  }

  /** Remembering one more file adds its key, pointing at it, when the key is new. */
  lemma SeenStep(keys: seq<string>, seen: map<string, nat>, i: nat)
    requires i < |keys| && Remembers(keys, seen, i)
    ensures keys[i] in seen ==> Remembers(keys, seen, i + 1) && seen[keys[i]] == FirstBelow(keys, keys[i], i)
    ensures keys[i] !in seen ==> Remembers(keys, seen[keys[i] := i], i + 1) && FirstBelow(keys, keys[i], i) < 0
  {
  }

  /**
    The naming loop of `listFiles`: remember the first file of each key; at
    a collision, rename the first file and tag the colliding file with its
    own id. As written (`fixed` false) the first file is renamed from the
    colliding file's name; corrected, from its own.
   */
  method NameLoop(keys: seq<string>, files: seq<GFile>, fixed: bool) returns (names: seq<string>)
    requires |keys| == |files|
    ensures names == NamesOf(fixed, keys, files, |files|)
  {
    names := [];
    var seen: map<string, nat> := map[];
    for i := 0 to |files|
      invariant names == NamesOf(fixed, keys, files, i)
      invariant Remembers(keys, seen, i)
    {
      var key := keys[i];
      SeenStep(keys, seen, i);
      if key !in seen {
        var next := names + [Shown(files[i])];
        FreshStep(fixed, keys, files, names, i, next);
        names := next;
        seen := seen[key := i];
      } else {
        var first := seen[key];
        var renamed := if fixed then first else i;
        var next := names[first := Encode(Shown(files[renamed]), IdText(files[first].id))]
                    + [Encode(Shown(files[i]), IdText(files[i].id))];
        CollisionStep(fixed, keys, files, names, i, first, renamed, next);
        names := next;
      }
    }
  }

  /**
    `listFiles`: ask the controller for the folder's files (counting the
    query in its throttle) and wrap each one, in order, under its listed
    name. An empty listing gives no wrappers.
   */
  method ListFiles(q: Controller.Queries, folder: Node, now: int, listing: seq<GFile>, windows: bool)
    returns (queries: Controller.Queries, events: seq<Controller.Event>, nodes: seq<Node>)
    requires Controller.Throttle(q)
    ensures Controller.Throttle(queries)
    ensures var g := Controller.GetFiles(q, folder.file.id, now, listing); queries == g.queries && events == g.events
    ensures |nodes| == |listing|
    ensures forall j :: 0 <= j < |listing| ==>
              nodes[j] == Node(Some(folder), listing[j], ListedName(Keys(windows, listing), listing, j))
  {
    var g := Controller.GetFiles(q, folder.file.id, now, listing);
    queries, events := g.queries, g.events;
    if |g.files| == 0 {
      return queries, events, [];
    }
    var names := NameLoop(Keys(windows, g.files), g.files, false);
    nodes := seq(|names|, j requires 0 <= j < |names| => Node(Some(folder), g.files[j], names[j]));
  }

  // ---------------------------------------------------------------
  // What the listed names promise
  // ---------------------------------------------------------------

  /** A file keeps its shown name exactly when no other file of the listing collides with it. */
  lemma KeepsShownNameIffUnique(windows: bool, q: seq<GFile>, j: nat)
    requires j < |q|
    ensures var keys := Keys(windows, q);
            && (ListedName(keys, q, j) == Shown(q[j]) <==> Unique(keys, |q|, j))
            && (IntendedName(keys, q, j) == Shown(q[j]) <==> Unique(keys, |q|, j))
  {
    var keys := Keys(windows, q);
    UniqueIsFirstAndLast(keys, |q|, j);
    var last := LastBelow(keys, keys[j], |q|);
    SameKeySameShape(windows, Shown(q[last]), Shown(q[j]));
  }

  /** A file sharing its key is tagged with its own id, built from a name of its group. */
  lemma CollidingIsTagged(fixed: bool, keys: seq<string>, n: nat, j: nat)
    requires j < n <= |keys| && !Unique(keys, n, j)
    ensures var l := LabelOf(fixed, keys, n, j);
            l.Tagged? && l.idOf == j && keys[l.nameOf] == keys[j]
  {
    UniqueIsFirstAndLast(keys, n, j);
  }

  /** Names of one group tagged with different ids differ. */
  lemma TagsDiffer(windows: bool, q: seq<GFile>, x: nat, y: nat, a: nat, b: nat)
    requires x < |q| && y < |q| && a < |q| && b < |q|
    requires Key(windows, Shown(q[x])) == Key(windows, Shown(q[y]))
    requires IdText(q[a].id) != IdText(q[b].id)
    ensures Encode(Shown(q[x]), IdText(q[a].id)) != Encode(Shown(q[y]), IdText(q[b].id))
  {
    SameKeySameShape(windows, Shown(q[x]), Shown(q[y]));
    if Encode(Shown(q[x]), IdText(q[a].id)) == Encode(Shown(q[y]), IdText(q[b].id)) {
      EncodeSeparatesIds(Shown(q[x]), Shown(q[y]), IdText(q[a].id), IdText(q[b].id));
    }
  }

  /**
    Within a group of colliding files, distinct ids give distinct names, as
    written and as corrected.
   */
  lemma GroupNamesDistinct(fixed: bool, windows: bool, q: seq<GFile>, a: nat, b: nat)
    requires a < |q| && b < |q| && a != b
    requires Key(windows, Shown(q[a])) == Key(windows, Shown(q[b]))
    requires IdText(q[a].id) != IdText(q[b].id)
    ensures var keys := Keys(windows, q);
            Render(q, LabelOf(fixed, keys, |q|, a)) != Render(q, LabelOf(fixed, keys, |q|, b))
  {
    var keys := Keys(windows, q);
    assert keys[a] == keys[b];
    assert !Unique(keys, |q|, a) && !Unique(keys, |q|, b);
    CollidingIsTagged(fixed, keys, |q|, a);
    CollidingIsTagged(fixed, keys, |q|, b);
    var la, lb := LabelOf(fixed, keys, |q|, a), LabelOf(fixed, keys, |q|, b);
    assert keys[la.nameOf] == Key(windows, Shown(q[la.nameOf]));
    assert keys[lb.nameOf] == Key(windows, Shown(q[lb.nameOf]));
    TagsDiffer(windows, q, la.nameOf, lb.nameOf, a, b);
  }

  /** The names as written and as corrected both keep colliding files apart. */
  lemma ListedNamesDistinct(windows: bool, q: seq<GFile>, a: nat, b: nat)
    requires a < |q| && b < |q| && a != b
    requires Key(windows, Shown(q[a])) == Key(windows, Shown(q[b]))
    requires IdText(q[a].id) != IdText(q[b].id)
    ensures var keys := Keys(windows, q);
            && ListedName(keys, q, a) != ListedName(keys, q, b)
            && IntendedName(keys, q, a) != IntendedName(keys, q, b)
  {
    GroupNamesDistinct(false, windows, q, a, b);
    GroupNamesDistinct(true, windows, q, a, b);
  }

  /** On Unix colliding names are equal, so the loop as written gives the intended names. */
  lemma UnixListsIntended(q: seq<GFile>, j: nat)
    requires j < |q|
    ensures ListedName(Keys(false, q), q, j) == IntendedName(Keys(false, q), q, j)
  {
    UniqueIsFirstAndLast(Keys(false, q), |q|, j);
  }

  /** What a listed file needs for its name to lead back to it. */
  predicate Reachable(md: Metadata, folder: Node, f: GFile, unique: bool) {
    && f.id.Id? && |f.id.value| == ID_LENGTH
    && NoUnderscore(f.id.value) && NoLineTerminator(f.id.value) && IsLegal(f.id.value)
    && NoLineTerminator(f.name)
    && md.byId(f.id) == Found(f)
    && (unique && IsLegal(f.name) ==> md.byName(folder.file.id, f.name) == Found(f))
  }

  /**
    Looking up the intended listed name of a file in its folder gives back
    that very file under that name: through the folder for a plain unique
    name, through the id for every other.
   */
  lemma IntendedNamesResolve(md: Metadata, folder: Node, windows: bool, q: seq<GFile>, j: nat)
    requires j < |q|
    requires Reachable(md, folder, q[j], Unique(Keys(windows, q), |q|, j))
    requires NoToken(Sanitize(q[j].name))
    requires IsLegal(q[j].name) || Unique(Keys(windows, q), |q|, j)
    ensures var name := IntendedName(Keys(windows, q), q, j);
            GetFileByName(md, folder, name) == Node(Some(folder), q[j], name)
  {
    var f := q[j];
    SanitizeFixesExactlyLegal(f.name);
    if Unique(Keys(windows, q), |q|, j) {
      if IsLegal(f.name) {
        DecodePlain(f.name);
        PlainNameResolves(md, folder, f);
      } else {
        IllegalNameResolves(md, folder, f, f.id.value);
      }
    } else {
      DuplicateNameResolves(md, folder, f, f.id.value);
    }
  }

  // ---------------------------------------------------------------
  // The first duplicate on Windows
  // ---------------------------------------------------------------

  /** An id of the shape Drive hands out: 28 legal characters, no `_`, no line break. */
  predicate IdShape(id: string) {
    |id| == ID_LENGTH && NoUnderscore(id) && NoLineTerminator(id) && IsLegal(id)
  }

  function UpperFile(id: string): GFile {
    GFile(Id(id), "A.txt", false, true, None, 0, None)
  }

  function LowerFile(id: string): GFile {
    GFile(Id(id), "a.txt", false, true, None, 0, None)
  }

  /** On Windows `A.txt` and `a.txt` collide; each is shown under its own name. */
  lemma CaseCollision(x1: string, x2: string)
    ensures Shown(UpperFile(x1)) == "A.txt" && Shown(LowerFile(x2)) == "a.txt"
    ensures var keys := Keys(true, [UpperFile(x1), LowerFile(x2)]);
            keys[0] == keys[1] && !Unique(keys, 2, 0)
  {
    assert IsLegal("A.txt") && IsLegal("a.txt");
    var lower := ToLower("A.txt");
    assert lower == "a.txt" by {
      assert |lower| == 5;
      forall i | 0 <= i < 5 ensures lower[i] == "a.txt"[i] {
        assert lower[i] == LowerChar("A.txt"[i]);
      }
    }
    var same := ToLower("a.txt");
    assert same == "a.txt" by {
      assert |same| == 5;
      forall i | 0 <= i < 5 ensures same[i] == "a.txt"[i] {
        assert same[i] == LowerChar("a.txt"[i]);
      }
    }
    var keys := Keys(true, [UpperFile(x1), LowerFile(x2)]);
    assert keys[0] == Key(true, Shown(UpperFile(x1)));
    assert keys[1] == Key(true, Shown(LowerFile(x2)));
  }

  /**
    A name tagged with a file's id but spelt otherwise than the file's own
    sanitised name does not lead back to that file.
   */
  lemma MisspeltTagMisses(md: Metadata, folder: Node, f: GFile, id: string, spelt: string)
    requires md.byId(Id(id)) == Found(f) && Sanitize(f.name) != spelt
    requires IdShape(id) && NoToken(spelt) && NoLineTerminator(spelt)
    ensures var name := Encode(spelt, id);
            GetFileByName(md, folder, name).file == Prospective(folder.file.id, name)
  {
    DecodeEncode(spelt, id);
  }

  /** The two sample names are plain: legal, on one line, without the token. */
  lemma SampleNames()
    ensures IsLegal("A.txt") && NoLineTerminator("A.txt") && NoToken("A.txt")
    ensures IsLegal("a.txt") && NoLineTerminator("a.txt") && NoToken("a.txt")
  {
    forall i | 0 <= i < 5 ensures !IsIllegal("A.txt"[i]) && !IsLineTerminator("A.txt"[i]) {
      assert "A.txt"[i] in {'A', 'a', '.', 't', 'x'};
    }
    forall i | 0 <= i < 5 ensures !IsIllegal("a.txt"[i]) && !IsLineTerminator("a.txt"[i]) {
      assert "a.txt"[i] in {'A', 'a', '.', 't', 'x'};
    }
  }

  /** As written `A.txt` is tagged under the spelling of `a.txt`; as corrected, under its own. */
  lemma FirstDuplicateNames(x1: string, x2: string)
    ensures var q := [UpperFile(x1), LowerFile(x2)];
            && ListedName(Keys(true, q), q, 0) == Encode("a.txt", x1)
            && IntendedName(Keys(true, q), q, 0) == Encode("A.txt", x1)
  {
    var q := [UpperFile(x1), LowerFile(x2)];
    var keys := Keys(true, q);
    CaseCollision(x1, x2);
    assert LastBelow(keys, keys[0], 2) == 1;
    assert ListedLabel(keys, 2, 0) == Tagged(1, 0);
    assert IntendedLabel(keys, 2, 0) == Tagged(0, 0);
  }

  /**
    On Windows, `A.txt` listed before `a.txt` is shown as
    `a__ID__<its id>__ID__.txt`: the loop renames it from the second file's
    name. Looking that name up finds the id, but the file's own name does not
    match the decoded `a.txt`, so the lookup gives a file that does not exist
    instead of `A.txt`; the intended name leads back to it.
   */
  lemma WindowsFirstDuplicateLost(md: Metadata, folder: Node, x1: string, x2: string)
    requires IdShape(x1) && md.byId(Id(x1)) == Found(UpperFile(x1))
    ensures var q := [UpperFile(x1), LowerFile(x2)];
            var listed := ListedName(Keys(true, q), q, 0);
            && listed == Encode("a.txt", x1)
            && GetFileByName(md, folder, listed).file == Prospective(folder.file.id, listed)
            && !GetFileByName(md, folder, listed).file.existing
            && GetFileByName(md, folder, IntendedName(Keys(true, q), q, 0)).file == UpperFile(x1)
  {
    FirstDuplicateNames(x1, x2);
    assert Sanitize("A.txt") != "a.txt" by {
      SanitizeFixesExactlyLegal("A.txt");
      assert "A.txt"[0] != "a.txt"[0];
    }
    SampleNames();
    MisspeltTagMisses(md, folder, UpperFile(x1), x1, "a.txt");
    DuplicateNameResolves(md, folder, UpperFile(x1), x1);
  }
}

=== FILE: lru.dfy ===
/**
  The access-ordered `LinkedHashMap` behind `Controller.LRUCache`. Entries are
  kept from least to most recently accessed; a read or a re-put of a key moves
  it to the end, and inserting a new key evicts the eldest entry once the map
  holds more than `capacity` entries (`removeEldestEntry`).
 */
module Lru {
  import opened Wrappers

  datatype Cache<K, V> = Cache(capacity: nat, entries: seq<(K, V)>)

  predicate DistinctKeys<K(==,!new), V>(entries: seq<(K, V)>) {
    forall i, j :: 0 <= i < j < |entries| ==> entries[i].0 != entries[j].0
  }

  /** Keys are distinct and the capacity is respected. */
  predicate Valid<K(==,!new), V>(c: Cache<K, V>) {
    DistinctKeys(c.entries) && |c.entries| <= c.capacity
  }

  function Empty<K(==,!new), V>(capacity: nat): (c: Cache<K, V>)
    ensures Valid(c) && c.entries == []
  {
    Cache(capacity, [])
  }

  /** The position of `k`, or -1. */
  function IndexOf<K(==,!new), V>(entries: seq<(K, V)>, k: K): (r: int)
    ensures -1 <= r < |entries|
    ensures r >= 0 ==> entries[r].0 == k
    ensures r == -1 ==> forall j :: 0 <= j < |entries| ==> entries[j].0 != k
  {
    IndexFrom(entries, k, 0)
  }

  function IndexFrom<K(==,!new), V>(entries: seq<(K, V)>, k: K, i: nat): (r: int)
    requires i <= |entries|
    ensures r == -1 || i <= r < |entries|
    ensures r >= 0 ==> entries[r].0 == k
    ensures r == -1 ==> forall j :: i <= j < |entries| ==> entries[j].0 != k
    decreases |entries| - i
  {
    if i == |entries| then -1
    else if entries[i].0 == k then i
    else IndexFrom(entries, k, i + 1)
  }

  /** The value stored under `k`, without touching the access order. */
  function Lookup<K(==,!new), V>(entries: seq<(K, V)>, k: K): Option<V> {
    var i := IndexOf(entries, k);
    if i < 0 then None else Some(entries[i].1)
  }

  /** With distinct keys, the entry holding `k` is the one `Lookup` reads. */
  lemma LookupAt<K(!new), V>(entries: seq<(K, V)>, i: nat)
    requires DistinctKeys(entries) && i < |entries|
    ensures Lookup(entries, entries[i].0) == Some(entries[i].1)
  {
    var j := IndexOf(entries, entries[i].0);
    assert j == i;
  }

  /** With distinct keys, `IndexOf` finds each key at its own position. */
  lemma IndexAt<K(!new), V>(entries: seq<(K, V)>, i: nat)
    requires DistinctKeys(entries) && i < |entries|
    ensures IndexOf(entries, entries[i].0) == i
  {
  }

  /**
    The access order is kept: the entries of `before` from position `lo` on,
    other than the one holding `k`, appear in `after` in the same order.
   */
  predicate KeepsOrder<K(==,!new), V>(before: seq<(K, V)>, after: seq<(K, V)>, k: K, lo: nat) {
    forall i, j :: lo <= i < j < |before| && before[i].0 != k && before[j].0 != k ==>
      0 <= IndexOf(after, before[i].0) < IndexOf(after, before[j].0)
  }

  function Remove<K(==,!new), V>(entries: seq<(K, V)>, i: nat): (r: seq<(K, V)>)
    requires i < |entries|
    ensures |r| == |entries| - 1
    ensures forall j :: 0 <= j < i ==> r[j] == entries[j]
    ensures forall j :: i <= j < |r| ==> r[j] == entries[j + 1]
  {
    entries[..i] + entries[i + 1..]
  }

  /**
    Where an entry other than the removed one ends up after `Remove(e, i) + [x]`
    (and `x` itself at the end): the key sets and values are preserved.
   */
  lemma MoveToEndLookup<K(!new), V>(entries: seq<(K, V)>, i: nat, v: V)
    requires DistinctKeys(entries) && i < |entries|
    ensures var r := Remove(entries, i) + [(entries[i].0, v)];
            && DistinctKeys(r)
            && Lookup(r, entries[i].0) == Some(v)
            && forall k :: k != entries[i].0 ==> Lookup(r, k) == Lookup(entries, k)
  {
    var k0 := entries[i].0;
    var r := Remove(entries, i) + [(k0, v)];
    assert forall j :: 0 <= j < |r| - 1 ==> r[j] == entries[if j < i then j else j + 1];
    LookupAt(r, |r| - 1);
    forall k | k != k0 ensures Lookup(r, k) == Lookup(entries, k) {
      var a := IndexOf(entries, k);
      if a >= 0 {
        LookupAt(entries, a);
        var b := if a < i then a else a - 1;
        assert r[b] == entries[a];
        LookupAt(r, b);
      }
    }
  }

  /**
    `get`: a hit returns the value and makes the entry the most recently
    accessed; a miss changes nothing.
   */
  function Get<K(==,!new), V>(c: Cache<K, V>, k: K): (r: (Cache<K, V>, Option<V>))
    ensures r.1 == Lookup(c.entries, k)
    ensures r.0.capacity == c.capacity && |r.0.entries| == |c.entries|
    ensures r.1.None? ==> r.0 == c
    ensures r.1.Some? ==> r.0.entries[|r.0.entries| - 1] == (k, r.1.value)
    ensures Valid(c) ==> Valid(r.0)
    ensures Valid(c) ==> forall k' :: Lookup(r.0.entries, k') == Lookup(c.entries, k')
    ensures Valid(c) ==> KeepsOrder(c.entries, r.0.entries, k, 0)
  {
    var i := IndexOf(c.entries, k);
    if i < 0 then
      NoChangeOrder(c, k);
      (c, None)
    else
      var v := c.entries[i].1;
      var r := Cache(c.capacity, Remove(c.entries, i) + [(k, v)]);
      MoveToEndLookupValid(c, i, v);
      (r, Some(v))
  }

  /** Leaving the entries alone keeps their order. */
  lemma NoChangeOrder<K(!new), V>(c: Cache<K, V>, k: K)
    ensures Valid(c) ==> KeepsOrder(c.entries, c.entries, k, 0)
  {
    if Valid(c) {
      forall a, b | 0 <= a < b < |c.entries| && c.entries[a].0 != k && c.entries[b].0 != k
        ensures 0 <= IndexOf(c.entries, c.entries[a].0) < IndexOf(c.entries, c.entries[b].0)
      {
        IndexAt(c.entries, a);
        IndexAt(c.entries, b);
      }
    }
  }

  lemma MoveToEndLookupValid<K(!new), V>(c: Cache<K, V>, i: nat, v: V)
    requires i < |c.entries|
    ensures Valid(c) ==>
              var r := Remove(c.entries, i) + [(c.entries[i].0, v)];
              && Valid(Cache(c.capacity, r))
              && Lookup(r, c.entries[i].0) == Some(v)
              && KeepsOrder(c.entries, r, c.entries[i].0, 0)
              && forall k :: k != c.entries[i].0 ==> Lookup(r, k) == Lookup(c.entries, k)
  {
    if Valid(c) {
      MoveToEndLookup(c.entries, i, v);
      MoveToEndOrder(c.entries, i, v);
    }
  }

  /** Moving one entry to the end keeps the others in their order. */
  lemma MoveToEndOrder<K(!new), V>(entries: seq<(K, V)>, i: nat, v: V)
    requires DistinctKeys(entries) && i < |entries|
    requires DistinctKeys(Remove(entries, i) + [(entries[i].0, v)])
    ensures KeepsOrder(entries, Remove(entries, i) + [(entries[i].0, v)], entries[i].0, 0)
  {
    var k := entries[i].0;
    var r := Remove(entries, i) + [(k, v)];
    forall a, b | 0 <= a < b < |entries| && entries[a].0 != k && entries[b].0 != k
      ensures 0 <= IndexOf(r, entries[a].0) < IndexOf(r, entries[b].0)
    {
      var a', b' := if a < i then a else a - 1, if b < i then b else b - 1;
      assert r[a'] == entries[a] && r[b'] == entries[b];
      IndexAt(r, a');
      IndexAt(r, b');
    }
  }

  /**
    `put`: an existing key takes the new value and becomes the most recently
    accessed; a new key is appended and, when that makes the map exceed its
    capacity, the eldest entry is evicted.
   */
  function Put<K(==,!new), V>(c: Cache<K, V>, k: K, v: V): (r: Cache<K, V>)
    ensures r.capacity == c.capacity
    ensures Valid(c) ==> Valid(r)
    ensures c.capacity > 0 ==> |r.entries| > 0 && r.entries[|r.entries| - 1] == (k, v)
    ensures Valid(c) && c.capacity > 0 ==> Lookup(r.entries, k) == Some(v)
    // the only key that can disappear is the eldest one, and only for a new key at capacity
    ensures Valid(c) ==>
              forall k' :: k' != k ==>
                Lookup(r.entries, k') ==
                  (if Lookup(c.entries, k).None? && |c.entries| == c.capacity > 0 && c.entries[0].0 == k'
                   then None else Lookup(c.entries, k'))
  {
    var i := IndexOf(c.entries, k);
    if i >= 0 then
      MoveToEndLookupValid(c, i, v);
      Cache(c.capacity, Remove(c.entries, i) + [(k, v)])
    else
      var e := c.entries + [(k, v)];
      AppendLookup(c, k, v);
      if |e| > c.capacity then
        EvictLookup(e);
        Cache(c.capacity, e[1..])
      else Cache(c.capacity, e)
  }

  /**
    `put` keeps the access order of every entry it leaves in place: only the
    key put moves (to the end), and only an evicted eldest leaves the order.
   */
  lemma PutKeepsOrder<K(!new), V>(c: Cache<K, V>, k: K, v: V)
    requires Valid(c)
    ensures KeepsOrder(c.entries, Put(c, k, v).entries, k,
                       if Lookup(c.entries, k).None? && |c.entries| == c.capacity > 0 then 1 else 0)
  {
    var i := IndexOf(c.entries, k);
    if i >= 0 {
      MoveToEndLookupValid(c, i, v);
    } else {
      InsertOrder(c, k, v);
    }
  }

  /** A new key keeps the order of the entries that stay, whether or not the eldest goes. */
  lemma InsertOrder<K(!new), V>(c: Cache<K, V>, k: K, v: V)
    requires IndexOf(c.entries, k) == -1
    ensures var e := c.entries + [(k, v)];
            Valid(c) ==>
              KeepsOrder(c.entries, if |e| > c.capacity then e[1..] else e, k,
                         if |c.entries| == c.capacity > 0 then 1 else 0)
  {
    var e := c.entries + [(k, v)];
    if Valid(c) {
      if |e| > c.capacity {
        EvictOrder(c, k, v);
      } else {
        AppendOrder(c, k, v);
      }
    }
  }

  /** Appending an absent key keeps the earlier entries in their order. */
  lemma AppendOrder<K(!new), V>(c: Cache<K, V>, k: K, v: V)
    requires IndexOf(c.entries, k) == -1
    ensures DistinctKeys(c.entries) ==> KeepsOrder(c.entries, c.entries + [(k, v)], k, 0)
  {
    var e := c.entries + [(k, v)];
    if DistinctKeys(c.entries) {
      assert DistinctKeys(e);
      forall a, b | 0 <= a < b < |c.entries| && c.entries[a].0 != k && c.entries[b].0 != k
        ensures 0 <= IndexOf(e, c.entries[a].0) < IndexOf(e, c.entries[b].0)
      {
        assert e[a] == c.entries[a] && e[b] == c.entries[b];
        IndexAt(e, a);
        IndexAt(e, b);
      }
    }
  }

  /** After evicting the eldest, the entries after it keep their order. */
  lemma EvictOrder<K(!new), V>(c: Cache<K, V>, k: K, v: V)
    requires IndexOf(c.entries, k) == -1
    ensures var e := c.entries + [(k, v)];
            DistinctKeys(c.entries) && |e| > 1 ==> KeepsOrder(c.entries, e[1..], k, 1)
  {
    var e := c.entries + [(k, v)];
    if DistinctKeys(c.entries) && |e| > 1 {
      var t := e[1..];
      assert DistinctKeys(t);
      forall a, b | 1 <= a < b < |c.entries| && c.entries[a].0 != k && c.entries[b].0 != k
        ensures 0 <= IndexOf(t, c.entries[a].0) < IndexOf(t, c.entries[b].0)
      {
        assert t[a - 1] == c.entries[a] && t[b - 1] == c.entries[b];
        IndexAt(t, a - 1);
        IndexAt(t, b - 1);
      }
    }
  }

  /** Appending a key that is absent keeps the keys distinct and adds one mapping. */
  lemma AppendLookup<K(!new), V>(c: Cache<K, V>, k: K, v: V)
    requires IndexOf(c.entries, k) == -1
    ensures var e := c.entries + [(k, v)];
            DistinctKeys(c.entries) ==>
              && DistinctKeys(e)
              && Lookup(e, k) == Some(v)
              && forall k' :: k' != k ==> Lookup(e, k') == Lookup(c.entries, k')
  {
    var e := c.entries + [(k, v)];
    if DistinctKeys(c.entries) {
      assert DistinctKeys(e);
      LookupAt(e, |e| - 1);
      forall k' | k' != k ensures Lookup(e, k') == Lookup(c.entries, k') {
        var a := IndexOf(c.entries, k');
        if a >= 0 {
          LookupAt(c.entries, a);
          assert e[a] == c.entries[a];
          LookupAt(e, a);
        }
      }
    }
  }

  /** Dropping the eldest entry forgets exactly its key. */
  lemma EvictLookup<K(!new), V>(e: seq<(K, V)>)
    requires |e| > 0
    ensures DistinctKeys(e) ==>
              && DistinctKeys(e[1..])
              && Lookup(e[1..], e[0].0).None?
              && forall k :: k != e[0].0 ==> Lookup(e[1..], k) == Lookup(e, k)
  {
    if DistinctKeys(e) {
      var t := e[1..];
      forall k | k != e[0].0 ensures Lookup(t, k) == Lookup(e, k) {
        var a := IndexOf(e, k);
        if a >= 0 {
          LookupAt(e, a);
          assert a > 0 && t[a - 1] == e[a];
          LookupAt(t, a - 1);
        }
      }
    }
  }

  /**
    Changing the value of a present key in place, as the controller does
    through the reference `get` handed out: the access order stays as it is.
   */
  function Update<K(==,!new), V>(c: Cache<K, V>, k: K, v: V): (r: Cache<K, V>)
    ensures r.capacity == c.capacity
    ensures |r.entries| == |c.entries|
    ensures forall j :: 0 <= j < |c.entries| ==> r.entries[j].0 == c.entries[j].0
    ensures Valid(c) ==> Valid(r)
    ensures Valid(c) && Lookup(c.entries, k).Some? ==> Lookup(r.entries, k) == Some(v)
    ensures Valid(c) ==> forall k' :: k' != k ==> Lookup(r.entries, k') == Lookup(c.entries, k')
    ensures Lookup(c.entries, k).None? ==> r == c
  {
    var i := IndexOf(c.entries, k);
    if i < 0 then c
    else
      var r := Cache(c.capacity, c.entries[i := (k, v)]);
      UpdateLookup(c.entries, i, v);
      r
  }

  /** Two entry lists with the same key at every position find each key at the same place. */
  lemma {:induction false} SameKeysSameIndex<K(!new), V>(a: seq<(K, V)>, b: seq<(K, V)>, k: K, i: nat)
    requires |a| == |b| && i <= |a|
    requires forall j :: 0 <= j < |a| ==> a[j].0 == b[j].0
    ensures IndexFrom(a, k, i) == IndexFrom(b, k, i)
    decreases |a| - i
  {
    if i < |a| {
      SameKeysSameIndex(a, b, k, i + 1);
    }
  }

  /** An in-place update moves no key, so whatever order was kept is still kept. */
  lemma UpdateKeepsOrder<K(!new), V>(before: seq<(K, V)>, c: Cache<K, V>, key: K, v: V, k: K, lo: nat)
    requires KeepsOrder(before, c.entries, k, lo)
    ensures KeepsOrder(before, Update(c, key, v).entries, k, lo)
  {
    var r := Update(c, key, v).entries;
    forall x: K ensures IndexOf(r, x) == IndexOf(c.entries, x) {
      SameKeysSameIndex(r, c.entries, x, 0);
    }
  }

  lemma UpdateLookup<K(!new), V>(entries: seq<(K, V)>, i: nat, v: V)
    requires i < |entries|
    ensures var r := entries[i := (entries[i].0, v)];
            DistinctKeys(entries) ==>
              && DistinctKeys(r)
              && Lookup(r, entries[i].0) == Some(v)
              && forall k :: k != entries[i].0 ==> Lookup(r, k) == Lookup(entries, k)
  {
    var r := entries[i := (entries[i].0, v)];
    if DistinctKeys(entries) {
      assert DistinctKeys(r);
      LookupAt(r, i);
      forall k | k != entries[i].0 ensures Lookup(r, k) == Lookup(entries, k) {
        var a := IndexOf(entries, k);
        if a >= 0 {
          LookupAt(entries, a);
          LookupAt(r, a);
        }
      }
    }
  }

  /**
    Eviction order: when a new key arrives at a full cache, the entry that was
    accessed longest ago goes, and every other entry keeps its relative order.
   */
  lemma {:induction false} PutEvictsEldest<K(!new), V>(c: Cache<K, V>, k: K, v: V)
    requires Valid(c) && c.capacity > 0
    requires Lookup(c.entries, k).None? && |c.entries| == c.capacity
    ensures Put(c, k, v).entries == c.entries[1..] + [(k, v)]
  {
    var i := IndexOf(c.entries, k);
    if i >= 0 {
      LookupAt(c.entries, i);
    }
    assert (c.entries + [(k, v)])[1..] == c.entries[1..] + [(k, v)];
  }
}

=== FILE: mfmt.dfy ===
/**
  The `MFMT` command the server adds to FTP: `MFMT <timestamp> <path>` sets
  a file's modification time and answers with an FTP reply. The date parser
  (`DateUtils.parseFTPDate`) is a parameter giving milliseconds since the
  epoch, or `None` where the parser throws.
 */
module Mfmt {
  import opened Wrappers
  import opened Strings
  import opened Drive
  import opened View
  import Controller

  /** An FTP reply: its code, the message key it is translated from, and the key's argument. */
  datatype Reply = Reply(code: nat, key: string, arg: Option<string>)

  /**
    What the command leaves behind: the view's session and either the reply
    it wrote or the exception that escaped it, with the controller's events.
   */
  datatype Result =
    | Replied(session: Session, reply: Reply, events: seq<Controller.Event>)
    | Raised(session: Session, error: Controller.Exception, events: seq<Controller.Event>)

  const SYNTAX_ERROR: nat := 501
  const NOT_FOUND: nat := 550
  const NOT_TAKEN: nat := 450
  const FILE_STATUS: nat := 213

  /** The reply to anything the command cannot read. */
  const INVALID := Reply(SYNTAX_ERROR, "MFMT.invalid", None)

  /** `String.split(" ", 2)`: the text before the first space and the rest, or the whole text. */
  function SplitOnce(s: string): (r: seq<string>)
    ensures 1 <= |r| <= 2
    ensures |r| == 1 <==> ' ' !in s
    ensures |r| == 1 ==> r[0] == s
    ensures |r| == 2 ==> r[0] + " " + r[1] == s && ' ' !in r[0]
  {
    var i := IndexOf(s, ' ');
    if i < 0 then [s]
    else
      assert s[..i] + " " + s[i + 1..] == s by {
        assert s == s[..i] + s[i..i + 1] + s[i + 1..];
      }
      [s[..i], s[i + 1..]]
  }

  /**
    The timestamp and the file name of a readable argument: the argument is
    not blank and holds a space; each part is trimmed.
   */
  function Arguments(argument: Option<string>): (r: Option<(string, string)>)
    ensures r.Some? <==> argument.Some? && Trim(argument.value) != [] && ' ' in argument.value
    ensures r.Some? ==> ' ' !in r.value.0
    ensures r.Some? ==> Trim(r.value.0) == r.value.0 && Trim(r.value.1) == r.value.1
  {
    if argument.None? || Trim(argument.value) == [] then None
    else
      var parts := SplitOnce(argument.value);
      if |parts| != 2 then None
      else
        TrimIdempotent(parts[0]);
        TrimIdempotent(parts[1]);
        Some((Trim(parts[0]), Trim(parts[1])))
  }

  /**
    `MFMT.execute`: an unreadable argument or an unparsable time gets 501;
    a file that does not exist gets 550; otherwise the file's time is set,
    answering 213 with the new time and the name when Drive accepts it and
    450 when it does not. A time the controller refuses escapes as an
    exception, which the command does not catch.
   */
  function Execute(s: Session, root: GFile, md: Metadata, argument: Option<string>,
                   parse: string -> Option<int>, remote: Option<FileId>): (r: Result)
    requires WellFormed(s)
    ensures WellFormed(r.session)
    ensures Arguments(argument).None? ==> r == Replied(s, INVALID, [])
    ensures Arguments(argument).Some? && parse(Arguments(argument).value.0).None? ==> r == Replied(s, INVALID, [])
    ensures r.Replied? ==> r.reply.code in {SYNTAX_ERROR, NOT_FOUND, NOT_TAKEN, FILE_STATUS}
    ensures r.Raised? ==> r.error == Controller.IllegalArgument && r.events == []
    ensures r.events != [] ==> r.events[0].TouchRemote? && r.events[0].title.None?
                               && r.events[0].modified.Some? && r.events[0].modified.value > 0
    ensures r.Replied? && r.reply.code == FILE_STATUS ==>
              remote.Some? && r.reply.key == "MFMT" && r.reply.arg.Some? && StartsWith(r.reply.arg.value, "ModifyTime=")
  {
    match Arguments(argument)
    case None => Replied(s, INVALID, [])
    case Some((timestamp, fileName)) =>
      match parse(timestamp)
      case None => Replied(s, INVALID, [])
      case Some(time) =>
        var found := GetFile(s, root, md, fileName);
        var v := found.0;
        var file := found.1;
        if !file.file.existing then Replied(v, Reply(NOT_FOUND, "MFMT.filemissing", Some(fileName)), [])
        else
          match SetLastModified(file, time, remote)
          case Thrown(e, events) => Raised(v, e, events)
          case Returned(false, events) => Replied(v, Reply(NOT_TAKEN, "MFMT", Some(fileName)), events)
          case Returned(true, events) =>
            Replied(v, Reply(FILE_STATUS, "MFMT", Some("ModifyTime=" + timestamp + "; " + fileName)), events)
  }

  /**
    A command written as a timestamp without spaces, one space and a trimmed
    file name is read back as exactly that timestamp and file name.
   */
  lemma ArgumentsRoundTrip(timestamp: string, fileName: string)
    requires timestamp != [] && forall k :: 0 <= k < |timestamp| ==> !IsTrimmable(timestamp[k])
    requires Trim(fileName) == fileName
    ensures Arguments(Some(timestamp + " " + fileName)) == Some((timestamp, fileName))
  {
    var a := timestamp + " " + fileName;
    assert a[|timestamp|] == ' ';
    assert !IsTrimmable(a[0]);
    assert Trim(a) != [] by { TrimOfFirstKept(a); }
    var parts := SplitOnce(a);
    assert |parts| == 2;
    assert ' ' !in timestamp;
    SplitAtFirstSpace(timestamp, fileName, parts[0], parts[1]);
  }

  /** Text that starts with a kept character does not trim to nothing. */
  lemma TrimOfFirstKept(s: string)
    requires s != [] && !IsTrimmable(s[0])
    ensures Trim(s) != []
  {
    assert FirstKept(s, 0) == 0;
  }

  /** Splitting at the first space is unique: the part before it holds no space. */
  lemma SplitAtFirstSpace(a: string, b: string, c: string, d: string)
    requires ' ' !in a && ' ' !in c
    requires c + " " + d == a + " " + b
    ensures c == a && d == b
  {
    var x := a + " " + b;
    FirstSpaceAt(a, b);
    FirstSpaceAt(c, d);
    assert c == x[..|c|] && a == x[..|a|];
    assert d == x[|c| + 1..] && b == x[|a| + 1..];
  }

  /** Text without spaces, a space and anything: the first space is right after the text. */
  lemma {:induction false} FirstSpaceAt(a: string, b: string)
    requires ' ' !in a
    ensures IndexOf(a + " " + b, ' ') == |a|
  {
    var x := a + " " + b;
    if a != [] {
      assert x[0] == a[0] && x[1..] == a[1..] + " " + b;
      FirstSpaceAt(a[1..], b);
    }
  }

  /**
    A well-formed command on an existing file with a positive time sets that
    time on the file the name resolves to, and when Drive accepts it answers
    213 with the timestamp and the name as they were written.
   */
  lemma SetsTimeOfNamedFile(s: Session, root: GFile, md: Metadata, timestamp: string, fileName: string,
                            parse: string -> Option<int>, remote: Option<FileId>, time: int)
    requires WellFormed(s)
    requires timestamp != [] && forall k :: 0 <= k < |timestamp| ==> !IsTrimmable(timestamp[k])
    requires Trim(fileName) == fileName
    requires parse(timestamp) == Some(time) && time > 0
    requires GetFile(s, root, md, fileName).1.file.existing
    ensures var r := Execute(s, root, md, Some(timestamp + " " + fileName), parse, remote);
            var file := GetFile(s, root, md, fileName).1;
            && r.Replied?
            && |r.events| >= 1
            && r.session == Init(s, root)
            && r.events[0] == Controller.TouchRemote(file.file.id, None, Some(time))
            && (remote.Some? ==> r.reply == Reply(FILE_STATUS, "MFMT", Some("ModifyTime=" + timestamp + "; " + fileName)))
            && (remote.None? ==> r.reply == Reply(NOT_TAKEN, "MFMT", Some(fileName)))
  {
    ArgumentsRoundTrip(timestamp, fileName);
    SetsTimeOfArguments(s, root, md, timestamp + " " + fileName, timestamp, fileName, parse, remote, time);
  }

  /** The same, once the argument is known to read back as the timestamp and the name. */
  lemma SetsTimeOfArguments(s: Session, root: GFile, md: Metadata, argument: string, timestamp: string, fileName: string,
                            parse: string -> Option<int>, remote: Option<FileId>, time: int)
    requires WellFormed(s)
    requires Arguments(Some(argument)) == Some((timestamp, fileName))
    requires parse(timestamp) == Some(time) && time > 0
    requires GetFile(s, root, md, fileName).1.file.existing
    ensures var r := Execute(s, root, md, Some(argument), parse, remote);
            var file := GetFile(s, root, md, fileName).1;
            && r.Replied?
            && |r.events| >= 1
            && r.session == Init(s, root)
            && r.events[0] == Controller.TouchRemote(file.file.id, None, Some(time))
            && (remote.Some? ==> r.reply == Reply(FILE_STATUS, "MFMT", Some("ModifyTime=" + timestamp + "; " + fileName)))
            && (remote.None? ==> r.reply == Reply(NOT_TAKEN, "MFMT", Some(fileName)))
  {
  }

  /** A name that resolves to no existing file is answered 550 and nothing is touched. */
  lemma MissingFileUntouched(s: Session, root: GFile, md: Metadata, timestamp: string, fileName: string,
                             parse: string -> Option<int>, remote: Option<FileId>)
    requires WellFormed(s)
    requires timestamp != [] && forall k :: 0 <= k < |timestamp| ==> !IsTrimmable(timestamp[k])
    requires Trim(fileName) == fileName
    requires parse(timestamp).Some?
    requires !GetFile(s, root, md, fileName).1.file.existing
    ensures Execute(s, root, md, Some(timestamp + " " + fileName), parse, remote)
            == Replied(Init(s, root), Reply(NOT_FOUND, "MFMT.filemissing", Some(fileName)), [])
  {
    ArgumentsRoundTrip(timestamp, fileName);
  }

  /** A time that is not positive escapes as the controller's exception. */
  lemma NonPositiveTimeRaises(s: Session, root: GFile, md: Metadata, timestamp: string, fileName: string,
                              parse: string -> Option<int>, remote: Option<FileId>, time: int)
    requires WellFormed(s)
    requires timestamp != [] && forall k :: 0 <= k < |timestamp| ==> !IsTrimmable(timestamp[k])
    requires Trim(fileName) == fileName
    requires parse(timestamp) == Some(time) && time <= 0
    requires GetFile(s, root, md, fileName).1.file.existing
    ensures Execute(s, root, md, Some(timestamp + " " + fileName), parse, remote)
            == Raised(Init(s, root), Controller.IllegalArgument, [])
  {
    ArgumentsRoundTrip(timestamp, fileName);
  }

  /**
    The blank check trims the argument but the split does not: an argument
    that starts with a space splits off an empty timestamp.
   */
  lemma LeadingSpaceEmptiesTimestamp(rest: string)
    requires Trim(rest) != []
    ensures Arguments(Some(" " + rest)).Some?
    ensures Arguments(Some(" " + rest)).value.0 == []
  {
    var a := " " + rest;
    assert a[0] == ' ';
    assert Trim(a) != [] by { TrimAfterSpace(rest); }
    var parts := SplitOnce(a);
    assert |parts[0]| == 0;
    assert Trim(parts[0]) == [];
  }

  /** A leading space does not change the trimmed text. */
  lemma TrimAfterSpace(rest: string)
    ensures Trim(" " + rest) == Trim(rest)
  {
    TrimAfterTrimmable(" " + rest, rest);
  }

  lemma TrimAfterTrimmable(a: string, rest: string)
    requires |a| == |rest| + 1 && IsTrimmable(a[0]) && a[1..] == rest
    ensures Trim(a) == Trim(rest)
  {
    var i := FirstKept(rest, 0);
    var j := EndKept(rest, |rest|, i);
    assert FirstKept(a, 0) == i + 1 by {
      SkipTrimmable(a, 0);
      ShiftFirstKept(a, rest, 0);
    }
    assert EndKept(a, |a|, i + 1) == j + 1 by {
      ShiftEndKept(a, rest, |rest|, i);
    }
    assert a[i + 1..j + 1] == rest[i..j];
  }

  lemma SkipTrimmable(s: string, i: nat)
    requires i < |s| && IsTrimmable(s[i])
    ensures FirstKept(s, i) == FirstKept(s, i + 1)
  {
  }

  lemma {:induction false} ShiftFirstKept(a: string, rest: string, i: nat)
    requires |a| == |rest| + 1 && a[1..] == rest && i <= |rest|
    ensures FirstKept(a, i + 1) == FirstKept(rest, i) + 1
    decreases |rest| - i
  {
    if i < |rest| {
      assert a[i + 1] == rest[i];
      if IsTrimmable(rest[i]) {
        ShiftFirstKept(a, rest, i + 1);
      }
    }
  }

  lemma {:induction false} ShiftEndKept(a: string, rest: string, j: nat, lo: nat)
    requires |a| == |rest| + 1 && a[1..] == rest && lo <= j <= |rest|
    ensures EndKept(a, j + 1, lo + 1) == EndKept(rest, j, lo) + 1
  {
    if j > lo {
      assert a[j] == rest[j - 1];
      if IsTrimmable(rest[j - 1]) {
        ShiftEndKept(a, rest, j - 1, lo);
      }
    }
  }
}

=== FILE: name_codec.dfy ===
/**
  The virtual-name codec of the FTP view (`FtpFileSystemView.removeIllegalChars`,
  `encodeFilename`, `decodeFilename`, and the naming step of
  `createFtpFileWrapper`). A Drive name that an FTP client could not use, or
  that collides with a sibling, is shown as `base__ID__<id>__ID__ext`.
 */
module NameCodec {
  import opened Wrappers
  import opened Strings
  import opened Drive

  // ---------------------------------------------------------------
  // Illegal characters
  // ---------------------------------------------------------------

  /**
    The default illegal-character pattern: the separator, the ASCII control
    characters 0x00-0x1F and 0x7F, and `` ` ? * \ < > | " : ``.
   */
  predicate IsIllegal(c: char) {
    || c == '/'
    || c as int <= 0x1F
    || c as int == 0x7F
    || c == '`' || c == '?' || c == '*' || c == '\\'
    || c == '<' || c == '>' || c == '|' || c == '"' || c == ':'
  }

  const REPLACEMENT: char := '_'

  predicate IsLegal(s: string) {
    forall i :: 0 <= i < |s| ==> !IsIllegal(s[i])
  }

  /** `removeIllegalChars`: every illegal character becomes `_`, one for one. */
  function Sanitize(s: string): (r: string)
    ensures |r| == |s|
    ensures IsLegal(r)
    ensures forall i :: 0 <= i < |s| && IsIllegal(s[i]) ==> r[i] == REPLACEMENT
    ensures forall i :: 0 <= i < |s| && !IsIllegal(s[i]) ==> r[i] == s[i]
  {
    if s == [] then []
    else [if IsIllegal(s[0]) then REPLACEMENT else s[0]] + Sanitize(s[1..])
  }

  /** Sanitising twice is sanitising once. */
  lemma SanitizeIdempotent(s: string)
    ensures Sanitize(Sanitize(s)) == Sanitize(s)
  {
    var r := Sanitize(s);
    assert forall i :: 0 <= i < |r| ==> Sanitize(r)[i] == r[i];
  }

  /** A name is left alone by sanitising exactly when it is legal. */
  lemma SanitizeFixesExactlyLegal(s: string)
    ensures Sanitize(s) == s <==> IsLegal(s)
  {
    if IsLegal(s) {
      assert forall i :: 0 <= i < |s| ==> Sanitize(s)[i] == s[i];
    }
  }

  // ---------------------------------------------------------------
  // Duplicate-name encoding
  // ---------------------------------------------------------------

  const TOKEN: string := "__ID__"

  /** The id length the decoding pattern insists on (`.{28}`). */
  const ID_LENGTH: nat := 28

  /** Where the extension starts: at the last `.`, or at the end when there is none. */
  function ExtensionStart(name: string): (k: nat)
    ensures k <= |name|
    ensures k < |name| ==> name[k] == '.'
    ensures forall j :: k < j < |name| ==> name[j] != '.'
    ensures k == |name| ==> forall j :: 0 <= j < |name| ==> name[j] != '.'
  {
    var k := LastIndexOf(name, '.');
    if k == -1 then |name| else k
  }

  /** `encodeFilename`: inject `__ID__<id>__ID__` just before the extension. */
  function Encode(name: string, id: string): (r: string)
    ensures |r| == |name| + |id| + 2 * |TOKEN|
    // cutting the injected segment out gives the name back
    ensures var k := ExtensionStart(name);
            && r[..k] + r[k + |id| + 2 * |TOKEN|..] == name
            && r[k..k + |id| + 2 * |TOKEN|] == TOKEN + id + TOKEN
  {
    var dot := LastIndexOf(name, '.');
    if dot == -1 then name + TOKEN + id + TOKEN
    else name[..dot] + TOKEN + id + TOKEN + name[dot..]
  }

  /** Encoding with different ids of equally long names never coincides. */
  lemma EncodeSeparatesIds(x: string, y: string, a: string, b: string)
    requires |x| == |y| && ExtensionStart(x) == ExtensionStart(y)
    requires Encode(x, a) == Encode(y, b)
    ensures a == b
  {
    var k := ExtensionStart(x);
    var ex, ey := Encode(x, a), Encode(y, b);
    assert |a| == |b|;
    assert ex[k..k + |a| + 12] == TOKEN + a + TOKEN;
    assert a == (TOKEN + a + TOKEN)[6..6 + |a|];
  }

  // ---------------------------------------------------------------
  // Decoding: ^(.*)__ID__(.{28})__ID__(.*)$
  // ---------------------------------------------------------------

  /** The characters Java's `.` does not match (no DOTALL flag). */
  predicate IsLineTerminator(c: char) {
    c == '\n' || c == '\r' || c as int == 0x85 || c as int == 0x2028 || c as int == 0x2029
  }

  predicate NoLineTerminator(s: string) {
    forall i :: 0 <= i < |s| ==> !IsLineTerminator(s[i])
  }

  /** Length of the token-id-token segment. */
  const SEGMENT: nat := 2 * 6 + 28

  /** Group 1 of the pattern can end at `i`: a token, 28 characters, a token. */
  predicate MatchAt(s: string, i: nat) {
    && i + SEGMENT <= |s|
    && s[i..i + 6] == TOKEN
    && s[i + 34..i + SEGMENT] == TOKEN
  }

  /** The greatest position at or below `i` where the pattern fits, or -1. */
  function LastMatchAtOrBelow(s: string, i: int): (r: int)
    requires i < |s|
    ensures r == -1 || 0 <= r <= i
    ensures r >= 0 ==> MatchAt(s, r)
    ensures forall j: nat :: r < j <= i ==> !MatchAt(s, j)
    decreases i + 1
  {
    if i < 0 then -1
    else if MatchAt(s, i) then i
    else LastMatchAtOrBelow(s, i - 1)
  }

  /**
    `decodeFilename`: the real-name guess and, when the whole name matches
    the pattern, the embedded id. The greedy first group makes the last
    possible match win.
   */
  function Decode(s: string): (r: (string, Option<string>))
    ensures r.1.Some? <==> NoLineTerminator(s) && exists i: nat :: MatchAt(s, i)
    ensures r.1.None? ==> r.0 == s
    ensures r.1.Some? ==>
              exists i: nat :: && MatchAt(s, i)
                               && (forall j: nat :: i < j ==> !MatchAt(s, j))
                               && r.0 == s[..i] + s[i + SEGMENT..]
                               && r.1.value == s[i + 6..i + 34]
  {
    if NoLineTerminator(s) then
      var i := LastMatchAtOrBelow(s, |s| - SEGMENT);
      if i >= 0 then (s[..i] + s[i + SEGMENT..], Some(s[i + 6..i + 34]))
      else (s, None)
    else (s, None)
  }

  predicate NoUnderscore(s: string) {
    forall i :: 0 <= i < |s| ==> s[i] != '_'
  }

  /** `s` holds the reserved token at position `p`. */
  predicate TokenAt(s: string, p: nat) {
    p + |TOKEN| <= |s| && s[p..p + |TOKEN|] == TOKEN
  }

  /** `s` does not use the reserved token anywhere. */
  ghost predicate NoToken(s: string) {
    forall p: nat :: !TokenAt(s, p)
  }

  /** A name that never uses the token is not taken for an encoded one. */
  lemma DecodePlain(s: string)
    requires NoToken(s)
    ensures Decode(s) == (s, None)
  {
    forall i: nat | MatchAt(s, i) ensures TokenAt(s, i) {
    }
  }

  /** The encoded name laid out as its five pieces. */
  lemma EncodeLayout(name: string, id: string)
    ensures var k := ExtensionStart(name);
            Encode(name, id) == name[..k] + TOKEN + id + TOKEN + name[k..]
  {
    var e := Encode(name, id);
    var k := ExtensionStart(name);
    var n := |id| + 2 * |TOKEN|;
    assert e[..k] == name[..k];
    assert e[k + n..] == name[k..];
    assert e == e[..k] + e[k..k + n] + e[k + n..];
  }

  /** The characters of the encoded name, piece by piece. */
  lemma EncodedChars(name: string, id: string, e: string, k: nat)
    requires k <= |name| && |id| == ID_LENGTH
    requires e == name[..k] + TOKEN + id + TOKEN + name[k..]
    ensures |e| == |name| + SEGMENT
    ensures forall p :: 0 <= p < k ==> e[p] == name[p]
    ensures forall t :: 0 <= t < 6 ==> e[k + t] == TOKEN[t] && e[k + 34 + t] == TOKEN[t]
    ensures forall t :: 0 <= t < ID_LENGTH ==> e[k + 6 + t] == id[t]
    ensures forall p :: k <= p < |name| ==> e[p + SEGMENT] == name[p]
  {
    var a := name[..k] + TOKEN;
    var b := a + id;
    var c := b + TOKEN;
    assert e == c + name[k..];
    assert forall t :: 0 <= t < 6 ==> a[k + t] == TOKEN[t];
    assert forall t :: 0 <= t < 6 ==> c[k + 34 + t] == TOKEN[t];
  }

  /** Encoding names and ids free of line terminators adds none. */
  lemma EncodeNoLineTerminator(name: string, id: string, e: string, k: nat)
    requires k <= |name| && |id| == ID_LENGTH
    requires e == name[..k] + TOKEN + id + TOKEN + name[k..]
    requires NoLineTerminator(name) && NoLineTerminator(id)
    ensures NoLineTerminator(e)
  {
    EncodedChars(name, id, e, k);
    forall p | 0 <= p < |e| ensures !IsLineTerminator(e[p]) {
      if p < k { assert e[p] == name[p]; }
      else if p < k + 6 { assert e[p] == TOKEN[p - k]; }
      else if p < k + 34 { assert e[p] == id[p - k - 6]; }
      else if p < k + SEGMENT { assert e[p] == TOKEN[p - k - 34]; }
      else { assert e[p] == name[p - SEGMENT]; }
    }
  }

  /**
    Round trip: the name and its 28-character id come back out of the
    encoded name, provided the name does not itself use the reserved token,
    the id holds no `_`, and neither holds a line terminator.
   */
  lemma DecodeEncode(name: string, id: string)
    requires |id| == ID_LENGTH && NoUnderscore(id)
    requires NoToken(name)
    requires NoLineTerminator(name) && NoLineTerminator(id)
    ensures Decode(Encode(name, id)) == (name, Some(id))
  {
    var e := Encode(name, id);
    var k := ExtensionStart(name);
    EncodeLayout(name, id);
    EncodedChars(name, id, e, k);
    EncodeNoLineTerminator(name, id, e, k);
    assert e[k..k + 6] == TOKEN && e[k + 34..k + SEGMENT] == TOKEN;
    assert MatchAt(e, k);
    var i := LastMatchAtOrBelow(e, |e| - SEGMENT);
    assert i >= k;
    if i > k {
      NoLaterMatch(name, id, e, k, i);
    }
    assert e[..k] + e[k + SEGMENT..] == name by {
      assert e[..k] == name[..k] && e[k + SEGMENT..] == name[k..];
      assert name[..k] + name[k..] == name;
    }
    assert e[k + 6..k + 34] == id;
  }

  /** The case analysis behind the round trip: no match lies after the injected one. */
  lemma NoLaterMatch(name: string, id: string, e: string, k: nat, j: nat)
    requires |id| == ID_LENGTH && NoUnderscore(id) && NoToken(name)
    requires k == ExtensionStart(name)
    requires e == name[..k] + TOKEN + id + TOKEN + name[k..]
    requires k < j
    ensures !MatchAt(e, j)
  {
    EncodedChars(name, id, e, k);
    if j + SEGMENT <= |e| {
      if j >= k + SEGMENT {
        NoMatchInTail(name, id, e, k, j);
      } else if j < k + 34 {
        NoMatchInSegment(id, e, k, j);
      } else {
        NoMatchAtExtension(name, id, e, k, j);
      }
    }
  }

  /** A token after the segment would be a token inside the name. */
  lemma NoMatchInTail(name: string, id: string, e: string, k: nat, j: nat)
    requires NoToken(name) && k <= |name| && |id| == ID_LENGTH
    requires e == name[..k] + TOKEN + id + TOKEN + name[k..]
    requires k + SEGMENT <= j && j + 6 <= |e|
    ensures e[j..j + 6] != TOKEN
  {
    EncodedChars(name, id, e, k);
    var w := e[j..j + 6];
    assert !TokenAt(name, j - SEGMENT);
    assert forall t :: 0 <= t < 6 ==> w[t] == e[(j - SEGMENT + t) + SEGMENT];
    assert w == name[j - SEGMENT..j - SEGMENT + 6];
  }

  /** No token starts strictly inside the first token or inside the id. */
  lemma NoMatchInSegment(id: string, e: string, k: nat, j: nat)
    requires |id| == ID_LENGTH && NoUnderscore(id)
    requires k + SEGMENT <= |e|
    requires forall t :: 0 <= t < 6 ==> e[k + t] == TOKEN[t]
    requires forall t :: 0 <= t < ID_LENGTH ==> e[k + 6 + t] == id[t]
    requires k < j < k + 34
    ensures e[j..j + 6] != TOKEN
  {
    var w := e[j..j + 6];
    assert forall t :: 0 <= t < 6 ==> w[t] == e[j + t];
    if j >= k + 6 {
      assert w[0] == id[j - k - 6];
    } else if j == k + 1 {
      assert w[1] == TOKEN[2];
    } else if j == k + 2 || j == k + 3 {
      assert w[0] == TOKEN[j - k];
    } else if j == k + 4 {
      assert w[4] == id[2];
    } else {
      assert w[1] == id[0];
    }
  }

  /** No match starts at or inside the second token. */
  lemma NoMatchAtExtension(name: string, id: string, e: string, k: nat, j: nat)
    requires NoToken(name) && k == ExtensionStart(name) && |id| == ID_LENGTH
    requires e == name[..k] + TOKEN + id + TOKEN + name[k..]
    requires k + 34 <= j < k + SEGMENT && j + SEGMENT <= |e|
    ensures !MatchAt(e, j)
  {
    EncodedChars(name, id, e, k);
    if j == k + 34 {
      // the second token would be followed by a token inside the extension
      NoMatchInTail(name, id, e, k, j + 34);
    } else {
      // a token here would cover the extension's leading '.'
      var w := e[j..j + 6];
      assert k < |name| && name[k] == '.';
      var t := k + SEGMENT - j;
      assert w[t] == e[k + SEGMENT] == '.';
    }
  }

  // ---------------------------------------------------------------
  // Virtual names
  // ---------------------------------------------------------------

  /**
    The naming step of `createFtpFileWrapper`: a legal name is shown as is;
    any other name is sanitised and tagged with the file's id.
   */
  function VirtualName(name: string, id: FileId): (r: string)
    ensures r == name <==> IsLegal(name)
  {
    SanitizeFixesExactlyLegal(name);
    if Sanitize(name) == name then name else Encode(Sanitize(name), IdText(id))
  }

  /** Virtual names are legal whenever the id is. */
  lemma VirtualNameLegal(name: string, id: FileId)
    requires IsLegal(IdText(id))
    ensures IsLegal(VirtualName(name, id))
  {
    SanitizeFixesExactlyLegal(name);
    if Sanitize(name) != name {
      EncodeKeepsLegal(Sanitize(name), IdText(id));
    }
  }

  /** Encoding legal parts gives a legal name. */
  lemma EncodeKeepsLegal(name: string, id: string)
    requires IsLegal(name) && IsLegal(id)
    ensures IsLegal(Encode(name, id))
  {
    var e := Encode(name, id);
    var k := ExtensionStart(name);
    EncodeLayout(name, id);
    forall p | 0 <= p < |e| ensures !IsIllegal(e[p]) {
      if p < k { assert e[p] == name[p]; }
      else if p < k + 6 { assert e[p] == TOKEN[p - k]; }
      else if p < k + 6 + |id| { assert e[p] == id[p - k - 6]; }
      else if p < k + 12 + |id| { assert e[p] == TOKEN[p - k - 6 - |id|]; }
      else { assert e[p] == name[p - 12 - |id|]; }
    }
  }

  /**
    A virtual name given for illegal characters decodes to the sanitised
    name and the file's own id.
   */
  lemma VirtualNameDecodes(name: string, id: string)
    requires !IsLegal(name) && NoToken(Sanitize(name)) && NoLineTerminator(name)
    requires |id| == ID_LENGTH && NoUnderscore(id) && NoLineTerminator(id)
    ensures Decode(VirtualName(name, Id(id))) == (Sanitize(name), Some(id))
  {
    SanitizeFixesExactlyLegal(name);
    var clean := Sanitize(name);
    assert NoLineTerminator(clean) by {
      forall i | 0 <= i < |clean| ensures !IsLineTerminator(clean[i]) {
        assert IsIllegal(name[i]) || clean[i] == name[i];
      }
    }
    DecodeEncode(clean, id);
  }
}

=== FILE: path.dfy ===
/**
  Path string helpers (`org.andresoviedo.util.Path`): joining with exactly one
  separator at the junction, and comparing while ignoring one trailing
  separator.
 */
module Path {
  import opened Strings

  const SEPARATOR: string := "/"

  /** `a` without one trailing separator, if it has one. */
  function DropTrailingSeparator(a: string): string {
    if EndsWith(a, SEPARATOR) then a[..|a| - 1] else a
  }

  /** `b` without one leading separator, if it has one. */
  function DropLeadingSeparator(b: string): string {
    if StartsWith(b, SEPARATOR) then b[1..] else b
  }

  /** `Path.join(String, String)`. */
  function Join(a: string, b: string): (r: string)
    ensures a == [] ==> r == b
    ensures b == [] ==> r == a
    // two non-empty parts meet at exactly one separator
    ensures a != [] && b != [] ==>
              r == DropTrailingSeparator(a) + SEPARATOR + DropLeadingSeparator(b)
    ensures StartsWith(r, a) && EndsWith(r, b)
    ensures |a| + |b| - 1 <= |r| <= |a| + |b| + 1
  {
    if a == [] then b
    else if b == [] then a
    else if EndsWith(a, SEPARATOR) then
      if StartsWith(b, SEPARATOR) then a[..|a| - 1] + b else a + b
    else
      if StartsWith(b, SEPARATOR) then a + b else a + SEPARATOR + b
  }

  /** Which of the three junction shapes `Join` produces, by the parts' ends. */
  lemma JoinJunction(a: string, b: string)
    requires a != [] && b != []
    ensures EndsWith(a, SEPARATOR) && StartsWith(b, SEPARATOR) ==>
              |Join(a, b)| == |a| + |b| - 1 && Join(a, b) == a[..|a| - 1] + b
    ensures !EndsWith(a, SEPARATOR) && !StartsWith(b, SEPARATOR) ==>
              |Join(a, b)| == |a| + |b| + 1 && Join(a, b) == a + SEPARATOR + b
    ensures EndsWith(a, SEPARATOR) != StartsWith(b, SEPARATOR) ==> Join(a, b) == a + b
  {
    var r := Join(a, b);
    if EndsWith(a, SEPARATOR) && !StartsWith(b, SEPARATOR) {
      assert a == a[..|a| - 1] + SEPARATOR;
    }
    if !EndsWith(a, SEPARATOR) && StartsWith(b, SEPARATOR) {
      assert b == SEPARATOR + b[1..];
    }
  }

  /** The left fold of `Join` over `parts`, starting from the empty path. */
  function Fold(parts: seq<string>): string {
    if parts == [] then "" else Join(Fold(parts[..|parts| - 1]), parts[|parts| - 1])
  }

  /** `Path.join(String...)`: special cases for zero and one part, then a loop. */
  method JoinAll(parts: seq<string>) returns (r: string)
    ensures |parts| == 0 ==> r == ""
    ensures |parts| == 1 ==> r == parts[0]
    ensures r == Fold(parts)
  {
    if |parts| == 0 {
      return "";
    }
    if |parts| == 1 {
      assert parts[..0] == [];
      return parts[0];
    }
    r := parts[0];
    assert parts[..1][..0] == [];
    var i := 1;
    while i < |parts|
      invariant 1 <= i <= |parts|
      invariant r == Fold(parts[..i])
    {
      assert parts[..i + 1][..i] == parts[..i];
      r := Join(r, parts[i]);
      i := i + 1;
    }
    assert parts[..|parts|] == parts;
  }

  /** Extending the parts extends the fold by one binary join. */
  lemma FoldSnoc(parts: seq<string>, last: string)
    ensures Fold(parts + [last]) == Join(Fold(parts), last)
  {
    assert (parts + [last])[..|parts|] == parts;
  }

  /** A trailing separator is dropped only from strings longer than one char. */
  function StripOne(s: string): string {
    if |s| > 1 && EndsWith(s, SEPARATOR) then s[..|s| - 1] else s
  }

  /** `Path.equals`: equality up to one trailing separator on either side. */
  function Equals(a: string, b: string): (r: bool)
    ensures r <==> StripOne(a) == StripOne(b)
  {
    if a == b then true else StripOne(a) == StripOne(b)
  }

  /** Path equality is an equivalence relation. */
  lemma EqualsIsEquivalence(a: string, b: string, c: string)
    ensures Equals(a, a)
    ensures Equals(a, b) == Equals(b, a)
    ensures Equals(a, b) && Equals(b, c) ==> Equals(a, c)
  {
  }

  /** Exactly one trailing separator is ignored, and the root is never stripped. */
  lemma EqualsIgnoresOnlyOneSeparator(s: string)
    ensures s != [] && !EndsWith(s, SEPARATOR) ==> Equals(s + SEPARATOR, s)
    ensures !Equals(s + SEPARATOR + SEPARATOR, s)
    ensures !Equals(SEPARATOR, "")
  {
    var t := s + SEPARATOR + SEPARATOR;
    assert EndsWith(t, SEPARATOR);
    assert StripOne(t) == s + SEPARATOR;
    if s != [] && !EndsWith(s, SEPARATOR) {
      assert StripOne(s + SEPARATOR) == s;
    }
  }
}

=== FILE: strings.dfy ===
/**
  The handful of `java.lang.String` operations the adapter relies on, over
  `seq<char>`. A Dafny `char` is a Unicode scalar value; Java counts UTF-16
  code units, which differ only for characters outside the Basic
  Multilingual Plane.
 */
module Strings {

  predicate StartsWith(s: string, prefix: string) {
    |prefix| <= |s| && s[..|prefix|] == prefix
  }

  predicate EndsWith(s: string, suffix: string) {
    |suffix| <= |s| && s[|s| - |suffix|..] == suffix
  }

  /** `String.indexOf(char)`: the first position holding `c`, or -1. */
  function IndexOf(s: string, c: char): (r: int)
    ensures -1 <= r < |s|
    ensures r < 0 ==> c !in s
    ensures r >= 0 ==> s[r] == c && c !in s[..r]
  {
    if |s| == 0 then -1
    else if s[0] == c then 0
    else
      var t := IndexOf(s[1..], c);
      assert s[1..][..if t < 0 then 0 else t] == s[1..1 + if t < 0 then 0 else t];
      if t < 0 then -1 else t + 1
  }

  /** `String.lastIndexOf(char)`: the last position holding `c`, or -1. */
  function LastIndexOf(s: string, c: char): (r: int)
    ensures -1 <= r < |s|
    ensures r >= 0 ==> s[r] == c
    ensures forall k :: r < k < |s| ==> s[k] != c
  {
    LastIndexBelow(s, c, |s|)
  }

  function LastIndexBelow(s: string, c: char, n: nat): (r: int)
    requires n <= |s|
    ensures -1 <= r < n
    ensures r >= 0 ==> s[r] == c
    ensures forall k :: r < k < n ==> s[k] != c
  {
    if n == 0 then -1
    else if s[n - 1] == c then n - 1
    else LastIndexBelow(s, c, n - 1)
  }

  /** Whitespace as `String.trim` sees it: every code point up to U+0020. */
  predicate IsTrimmable(c: char) {
    c as int <= 0x20
  }

  /**
    `String.trim`: drop the trimmable characters from both ends. What is
    kept is one stretch of `s`, and everything outside it is trimmable.
   */
  function Trim(s: string): (r: string)
    ensures r == [] || (!IsTrimmable(r[0]) && !IsTrimmable(r[|r| - 1]))
    ensures exists i, j :: 0 <= i <= j <= |s| && r == s[i..j]
              && (forall k :: 0 <= k < i ==> IsTrimmable(s[k]))
              && (forall k :: j <= k < |s| ==> IsTrimmable(s[k]))
    ensures (forall k :: 0 <= k < |s| ==> !IsTrimmable(s[k])) ==> r == s
  {
    var i := FirstKept(s, 0);
    var j := EndKept(s, |s|, i);
    s[i..j]
  }

  /** A string that already starts and ends with kept characters is its own trim. */
  lemma TrimOfTrimmed(s: string)
    requires s == [] || (!IsTrimmable(s[0]) && !IsTrimmable(s[|s| - 1]))
    ensures Trim(s) == s
  {
    if s != [] {
      assert FirstKept(s, 0) == 0;
      assert EndKept(s, |s|, 0) == |s|;
    }
  }

  /** Trimming twice is trimming once. */
  lemma TrimIdempotent(s: string)
    ensures Trim(Trim(s)) == Trim(s)
  {
    TrimOfTrimmed(Trim(s));
  }

  /** The first position at or after `i` that trimming keeps. */
  function FirstKept(s: string, i: nat): (r: nat)
    requires i <= |s|
    ensures i <= r <= |s|
    ensures forall k :: i <= k < r ==> IsTrimmable(s[k])
    ensures r < |s| ==> !IsTrimmable(s[r])
    decreases |s| - i
  {
    if i < |s| && IsTrimmable(s[i]) then FirstKept(s, i + 1) else i
  }

  /** The end (exclusive) of what trimming keeps, looking down from `j` to `lo`. */
  function EndKept(s: string, j: nat, lo: nat): (r: nat)
    requires lo <= j <= |s|
    ensures lo <= r <= j
    ensures forall k :: r <= k < j ==> IsTrimmable(s[k])
    ensures r > lo ==> !IsTrimmable(s[r - 1])
  {
    if j > lo && IsTrimmable(s[j - 1]) then EndKept(s, j - 1, lo) else j
  }

  /** ASCII case folding, the part of `String.toLowerCase` this model keeps. */
  function LowerChar(c: char): (r: char)
    ensures r == '.' <==> c == '.'
  {
    if 'A' <= c <= 'Z' then (c as int + 32) as char else c
  }

  function ToLower(s: string): (r: string)
    ensures |r| == |s|
    ensures forall i :: 0 <= i < |s| ==> r[i] == LowerChar(s[i])
  {
    if s == [] then [] else [LowerChar(s[0])] + ToLower(s[1..])
  }

  // ---------------------------------------------------------------
  // Decimal rendering of non-negative numbers (`String.valueOf(long)`)
  // ---------------------------------------------------------------

  predicate IsDigit(c: char) {
    '0' <= c <= '9'
  }

  function DigitChar(d: nat): (c: char)
    requires d < 10
    ensures IsDigit(c)
  {
    (d + '0' as int) as char
  }

  function DigitValue(c: char): nat
    requires IsDigit(c)
  {
    (c as int) - ('0' as int)
  }

  /** The shortest decimal rendering of `n`. */
  function NatToString(n: nat): (r: string)
    ensures |r| >= 1
    ensures forall i :: 0 <= i < |r| ==> IsDigit(r[i])
    ensures |r| > 1 ==> r[0] != '0'
  {
    if n < 10 then [DigitChar(n)] else NatToString(n / 10) + [DigitChar(n % 10)]
  }

  /** Reads a run of decimal digits back as a number. */
  function ParseDigits(s: string): nat
    requires forall i :: 0 <= i < |s| ==> IsDigit(s[i])
  {
    if s == [] then 0 else 10 * ParseDigits(s[..|s| - 1]) + DigitValue(s[|s| - 1])
  }

  /** Rendering and reading decimals are inverse. */
  lemma {:induction false} ParseNatToString(n: nat)
    ensures ParseDigits(NatToString(n)) == n
  {
    if n >= 10 {
      var s := NatToString(n);
      assert s[..|s| - 1] == NatToString(n / 10);
      ParseNatToString(n / 10);
    }
  }
}

=== FILE: upload.dfy ===
/**
  `GoogleDriveUploadStream`: an output stream that buffers bytes in a fixed
  array of one chunk and sends them to Drive, either as one plain insert or
  update (a file smaller than a chunk) or through a resumable upload session
  whose chunks carry a `Content-Range` header in the form of section 4.2 of
  RFC 7233. Status 308 is Drive's "Resume Incomplete" answer to a chunk.

  The HTTP exchange is a parameter: each operation returns the calls it made,
  and the server's reply to a call is read from `Env.server`.
 */
module Upload {
  import opened Wrappers
  import opened Strings
  import opened Drive

  /** `UPLOAD_CHUNK_SIZE`: 512 KiB, a multiple of the 256 KiB Drive requires. */
  const CHUNK: nat := 2 * 256 * 1024

  const DEFAULT_MIME_TYPE: string := "application/octet-stream"

  /** The status Drive answers to a chunk that leaves the upload incomplete. */
  const RESUME_INCOMPLETE: int := 308

  /** A buffered byte, as its unsigned value. */
  type byte = x: int | 0 <= x < 256

  datatype Content = Content(mimeType: string, bytes: seq<byte>)

  /** The Drive `File` metadata sent along: title, modified date, parents. */
  datatype FileMetadata = FileMetadata(title: string, modified: int, parents: Option<set<FileId>>)

  datatype Verb = PutVerb | PostVerb

  /** The requests the stream issues. */
  datatype Call =
    | Update(id: FileId, meta: FileMetadata, content: Option<Content>)
    | Insert(meta: FileMetadata, content: Option<Content>)
    | StartSession(verb: Verb, uri: string, meta: FileMetadata, uploadType: string)
    | PutChunk(uri: string, range: string, chunk: Content)

  datatype Reply = Reply(status: int, location: Option<string>)

  /**
    Why an operation stopped: an `IOException`, the array store past the end
    of the buffer, the content bounds check of `ByteArrayContent`, or a chunk
    sent before any session location was obtained.
   */
  datatype Failure = IOError | IndexOutOfBounds | IllegalArgument | NoSessionUri

  /**
    What the stream consults outside itself: the server's replies, the clock,
    the MIME detector (applied to the name and the whole buffer array) and
    the Drive root URL.
   */
  datatype Env = Env(
    server: Call -> Reply,
    now: int,
    detect: (string, seq<byte>) -> string,
    rootUrl: string)

  /**
    The stream's fields: the target file, the buffer array `uploadCache`, the
    write position `cacheOffset`, the bytes already sent `length`, the MIME
    type, the session URI and whether Drive has confirmed the upload.
   */
  datatype Stream = Stream(
    file: GFile,
    cache: seq<byte>,
    offset: nat,
    length: nat,
    mimeType: string,
    uploadUri: Option<string>,
    uploaded: bool)

  /** The outcome of one operation: the new state, the calls made, and the failure if any. */
  datatype Step = Step(stream: Stream, calls: seq<Call>, failure: Option<Failure>)

  /** A fresh stream for `file`. */
  function Open(file: GFile): (s: Stream)
    ensures Valid(s) && s.offset == 0 && s.length == 0
    ensures s.uploadUri.None? && !s.uploaded && s.file == file
  {
    Stream(file, seq(CHUNK, _ => 0), 0, 0, DEFAULT_MIME_TYPE, None, false)
  }

  /**
    The stream's invariant: the buffer array keeps its size, and bytes have
    been sent only inside a session.
   */
  predicate Valid(s: Stream) {
    && |s.cache| == CHUNK
    && (s.length > 0 ==> s.uploadUri.Some?)
  }

  /** `HttpResponse.isSuccessStatusCode`. */
  predicate IsSuccess(status: int) {
    200 <= status < 300
  }

  /** Combines an operation with the one that follows it. */
  function Then(a: Step, b: Step): Step {
    Step(b.stream, a.calls + b.calls, b.failure)
  }

  // ---------------------------------------------------------------
  // Request pieces
  // ---------------------------------------------------------------

  /**
    `buildFileMetadata`: the title, the file's own modification date or the
    current time when that is 0, and the parents: the explicit set, else the
    current parent, else none.
   */
  function BuildMetadata(f: GFile, now: int): (m: FileMetadata)
    ensures m.title == f.name
    ensures f.lastModified != 0 ==> m.modified == f.lastModified
    ensures f.lastModified == 0 ==> m.modified == now
    ensures f.parents.Some? ==> m.parents == f.parents
    ensures f.parents.None? && f.currentParent.Some? ==> m.parents == Some({f.currentParent.value})
    ensures m.parents.None? <==> f.parents.None? && f.currentParent.None?
  {
    FileMetadata(
      f.name,
      if f.lastModified != 0 then f.lastModified else now,
      if f.parents.Some? then f.parents
      else if f.currentParent.Some? then Some({f.currentParent.value})
      else None)
  }

  /**
    The `Content-Range` header of a chunk of `n` bytes starting at `length`:
    `*` for an empty chunk, and the total only when closing or when the
    chunk is short.
   */
  function ContentRange(length: nat, n: nat, close: bool): string {
    "bytes "
      + (if n == 0 then "*" else NatToString(length) + "-" + NatToString(length + n - 1))
      + "/"
      + (if close || n < CHUNK then NatToString(length + n) else "*")
  }

  /** The chunk request for the buffered bytes. */
  function ChunkCall(s: Stream, close: bool): Call
    requires s.offset <= |s.cache| && s.uploadUri.Some?
  {
    PutChunk(s.uploadUri.value, ContentRange(s.length, s.offset, close), Content(s.mimeType, s.cache[..s.offset]))
  }

  // ---------------------------------------------------------------
  // Operations
  // ---------------------------------------------------------------

  /**
    `write(int)`: stores the low eight bits at the write position and hands a
    full buffer to `handleChunk`. A write into a full buffer fails with the
    array store, after the position has already moved.
   */
  function Write(s: Stream, env: Env, b: int): (r: Step)
    requires Valid(s)
    ensures Valid(r.stream)
    ensures s.offset >= CHUNK ==> r == Step(s.(offset := s.offset + 1), [], Some(IndexOutOfBounds))
    ensures s.offset < CHUNK ==> r.stream.cache == s.cache[s.offset := b % 256]
    ensures s.offset + 1 < CHUNK ==> r == Step(s.(cache := s.cache[s.offset := b % 256], offset := s.offset + 1), [], None)
    ensures s.offset + 1 == CHUNK ==> r == HandleChunk(s.(cache := s.cache[s.offset := b % 256], offset := CHUNK), env)
    ensures s.offset + 1 == CHUNK && !s.uploaded ==> r.calls != []
    ensures s.uploaded ==> r.stream.uploaded && r.calls == []
  {
    if s.offset >= |s.cache| then Step(s.(offset := s.offset + 1), [], Some(IndexOutOfBounds))
    else
      var s1 := s.(cache := s.cache[s.offset := b % 256], offset := s.offset + 1);
      if s1.offset == CHUNK then HandleChunk(s1, env) else Step(s1, [], None)
  }

  /**
    `close()`: hands whatever is buffered to `handleChunk`: a short file
    that was never sent goes out as one update or insert of the buffered
    bytes; in a session the rest goes out as one final chunk.
   */
  function Close(s: Stream, env: Env): (r: Step)
    requires Valid(s)
    ensures Valid(r.stream)
    ensures s.uploaded ==> r == Step(s, [], None)
    ensures !s.uploaded && s.length == 0 && s.offset < CHUNK ==>
              && |r.calls| == 1 && (r.calls[0].Update? || r.calls[0].Insert?)
              && (s.offset > 0 ==> r.calls[0].content == Some(Content(r.stream.mimeType, s.cache[..s.offset])))
    ensures !s.uploaded && s.length > 0 && s.offset <= CHUNK ==>
              r.calls == [ChunkCall(s, s.offset == 0)]
  {
    HandleChunk(s, env)
  }

  /** The stream after `guessMimeType`, which reads the name and the whole buffer array. */
  function Detected(s: Stream, env: Env): Stream {
    s.(mimeType := env.detect(s.file.name, s.cache))
  }

  /**
    `handleChunk`: nothing once the upload is confirmed. The first handling
    detects the MIME type; a short buffer then goes out in one update or
    insert, and a full one opens a session and, once the session is known,
    goes out as the first chunk. Every later handling sends one chunk.
   */
  function HandleChunk(s: Stream, env: Env): (r: Step)
    requires Valid(s)
    ensures Valid(r.stream)
    ensures s.uploaded ==> r == Step(s, [], None)
    ensures r.stream.file == s.file && r.stream.cache == s.cache && |r.calls| <= 2
    ensures !s.uploaded && s.length == 0 && s.offset < CHUNK ==>
              && r == Direct(Detected(s, env), env)
              && |r.calls| == 1 && (r.calls[0].Update? || r.calls[0].Insert?)
    ensures var d := Detected(s, env);
            !s.uploaded && s.length == 0 && s.offset >= CHUNK && s.uploadUri.None? ==>
              && r.calls != [] && r.calls[0] == SessionCall(d, env)
              && (env.server(SessionCall(d, env)).status != 200 ==>
                    r == Step(d, [SessionCall(d, env)], Some(IOError)))
              && (env.server(SessionCall(d, env)).status == 200 && s.offset == CHUNK
                  && env.server(SessionCall(d, env)).location.Some? ==>
                    r.calls == [SessionCall(d, env),
                                ChunkCall(d.(uploadUri := env.server(SessionCall(d, env)).location), false)])
    ensures !s.uploaded && s.length == 0 && s.offset == CHUNK && s.uploadUri.Some? ==>
              r.calls == [ChunkCall(Detected(s, env), false)]
    ensures !s.uploaded && s.length > 0 && s.offset <= CHUNK ==>
              r.calls == [ChunkCall(s, s.offset == 0)] && r.stream.mimeType == s.mimeType
  {
    if s.uploaded then Step(s, [], None)
    else if s.length == 0 then
      var s1 := Detected(s, env);
      if s1.offset < CHUNK then Direct(s1, env)
      else
        var st := GetUploadSession(s1, env);
        if st.failure.Some? then st
        else Then(st, UploadChunk(st.stream, env, st.stream.offset == 0))
    else UploadChunk(s, env, s.offset == 0)
  }

  /**
    The short-file path of `handleChunk`: one update (existing file) or
    insert (new file) of the built metadata, without content when nothing
    is buffered. Success confirms the upload; the positions do not move
    either way.
   */
  function Direct(s: Stream, env: Env): (r: Step)
    requires Valid(s) && s.offset < CHUNK
    ensures Valid(r.stream) && |r.calls| == 1
    ensures r.stream.offset == s.offset && r.stream.length == s.length
    ensures r.calls[0].Update? <==> s.file.existing
    ensures (r.calls[0].Update? || r.calls[0].Insert?) && (r.calls[0].content.None? <==> s.offset == 0)
    ensures r.calls[0].meta == BuildMetadata(s.file, env.now)
    ensures r.calls[0].Update? ==> r.calls[0].id == s.file.id
    ensures s.offset > 0 ==> r.calls[0].content == Some(Content(s.mimeType, s.cache[..s.offset]))
    ensures r.failure.None? <==> IsSuccess(env.server(r.calls[0]).status)
    ensures r.failure.None? ==> r.stream == s.(uploaded := true)
    ensures r.failure.Some? ==> r.stream == s
  {
    var meta := BuildMetadata(s.file, env.now);
    var content := if s.offset > 0 then Some(Content(s.mimeType, s.cache[..s.offset])) else None;
    var call := if s.file.existing then Update(s.file.id, meta, content) else Insert(meta, content);
    if IsSuccess(env.server(call).status) then Step(s.(uploaded := true), [call], None)
    else Step(s, [call], Some(IOError))
  }

  /** The request that starts a resumable session for the stream's file. */
  function SessionCall(s: Stream, env: Env): Call {
    if s.file.existing then
      StartSession(PutVerb, env.rootUrl + "upload/drive/v2/files/" + IdText(s.file.id)
                              + "?uploadType=resumable&modifiedDateBehavior=fromBodyOrNow",
                   BuildMetadata(s.file, env.now), s.mimeType)
    else
      StartSession(PostVerb, env.rootUrl + "upload/drive/v2/files?uploadType=resumable",
                   BuildMetadata(s.file, env.now), s.mimeType)
  }

  /**
    `getUploadSession`: nothing when a session URI is known; otherwise start
    a resumable session and keep the `Location` of a 200 reply. An existing
    file is addressed by its id with PUT and keeps Drive's modification date
    rule; a new file is created with POST. The metadata travels as the body
    and the MIME type as `X-Upload-Content-Type`.
   */
  function GetUploadSession(s: Stream, env: Env): (r: Step)
    requires Valid(s)
    ensures Valid(r.stream)
    ensures s.uploadUri.Some? ==> r == Step(s, [], None)
    ensures r.stream == s || r.stream == s.(uploadUri := r.stream.uploadUri)
    ensures s.uploadUri.None? ==> r.calls == [SessionCall(s, env)]
    ensures s.uploadUri.None? ==>
              && r.calls[0].StartSession?
              && r.calls[0].verb == (if s.file.existing then PutVerb else PostVerb)
              && r.calls[0].meta == BuildMetadata(s.file, env.now)
              && r.calls[0].uploadType == s.mimeType
    ensures s.uploadUri.None? && s.file.existing ==>
              r.calls[0].uri == env.rootUrl + "upload/drive/v2/files/" + IdText(s.file.id)
                                + "?uploadType=resumable&modifiedDateBehavior=fromBodyOrNow"
    ensures s.uploadUri.None? && !s.file.existing ==>
              r.calls[0].uri == env.rootUrl + "upload/drive/v2/files?uploadType=resumable"
    ensures s.uploadUri.None? ==>
              (r.failure.None? <==> env.server(r.calls[0]).status == 200)
    ensures s.uploadUri.None? && r.failure.None? ==> r.stream.uploadUri == env.server(r.calls[0]).location
  {
    if s.uploadUri.Some? then Step(s, [], None)
    else
      var call := SessionCall(s, env);
      var reply := env.server(call);
      if reply.status == 200 then Step(s.(uploadUri := reply.location), [call], None)
      else Step(s, [call], Some(IOError))
  }

  /**
    `uploadChunk`: send the buffered bytes with their range. A success
    confirms the upload, 308 asks for more; both advance `length` by the
    bytes sent and empty the buffer. Any other status fails and leaves the
    state as it was.
   */
  function UploadChunk(s: Stream, env: Env, close: bool): (r: Step)
    requires Valid(s)
    ensures Valid(r.stream)
    ensures r.failure.Some? ==> r.stream == s
    ensures s.offset > CHUNK ==> r == Step(s, [], Some(IllegalArgument))
    ensures s.offset <= CHUNK && s.uploadUri.None? ==> r == Step(s, [], Some(NoSessionUri))
    ensures s.offset <= CHUNK && s.uploadUri.Some? ==> r.calls == [ChunkCall(s, close)]
    ensures s.offset <= CHUNK && s.uploadUri.Some? && IsSuccess(env.server(ChunkCall(s, close)).status) ==>
              r == Step(s.(uploaded := true, length := s.length + s.offset, offset := 0), r.calls, None)
    ensures s.offset <= CHUNK && s.uploadUri.Some? && env.server(ChunkCall(s, close)).status == RESUME_INCOMPLETE ==>
              r == Step(s.(length := s.length + s.offset, offset := 0), r.calls, None)
    ensures r.failure.None? <==>
              s.offset <= CHUNK && s.uploadUri.Some? &&
              (IsSuccess(env.server(ChunkCall(s, close)).status)
               || env.server(ChunkCall(s, close)).status == RESUME_INCOMPLETE)
  {
    if s.offset > |s.cache| then Step(s, [], Some(IllegalArgument))
    else if s.uploadUri.None? then Step(s, [], Some(NoSessionUri))
    else
      var n := s.offset;
      var call := ChunkCall(s, close);
      var status := env.server(call).status;
      if IsSuccess(status) then
        Step(s.(uploaded := true, length := s.length + n, offset := 0), [call], None)
      else if status == RESUME_INCOMPLETE then
        Step(s.(length := s.length + n, offset := 0), [call], None)
      else Step(s, [call], Some(IOError))
  }
}

=== FILE: upload_runs.dfy ===
/**
  Properties of whole sequences of stream operations: the chunk ranges are
  contiguous, a session is started at most once, nothing is sent after the
  upload is confirmed, a short file goes out as one request carrying exactly
  the written bytes, and the `Content-Range` header reads back as the range
  it was built from.
 */
module UploadRuns {
  import opened Wrappers
  import opened Strings
  import opened Drive
  import opened Upload

  datatype Op = WriteByte(b: int) | CloseStream

  function Apply(s: Stream, env: Env, op: Op): (r: Step)
    requires Valid(s)
    ensures Valid(r.stream)
  {
    match op
    case WriteByte(b) => Write(s, env, b)
    case CloseStream => Close(s, env)
  }

  /** Applies the operations in order, stopping at the first failure. */
  function Run(s: Stream, env: Env, ops: seq<Op>): (r: Step)
    requires Valid(s)
    ensures Valid(r.stream)
    decreases |ops|
  {
    if ops == [] then Step(s, [], None)
    else
      var st := Apply(s, env, ops[0]);
      if st.failure.Some? then st else Then(st, Run(st.stream, env, ops[1..]))
  }

  function Writes(bs: seq<int>): seq<Op> {
    seq(|bs|, i requires 0 <= i < |bs| => WriteByte(bs[i]))
  }

  /** The low eight bits of each written value. */
  function Bytes(bs: seq<int>): seq<byte> {
    seq(|bs|, i requires 0 <= i < |bs| => bs[i] % 256)
  }

  // ---------------------------------------------------------------
  // Chunk ranges
  // ---------------------------------------------------------------

  /** The bytes one request carries as a chunk. */
  function CallBytes(c: Call): nat {
    if c.PutChunk? then |c.chunk.bytes| else 0
  }

  /** The bytes carried by chunk requests. */
  function Sent(calls: seq<Call>): nat {
    if calls == [] then 0 else CallBytes(calls[0]) + Sent(calls[1..])
  }

  /** A chunk request names the range starting at `at`, announcing the total when it is empty. */
  predicate RangeFits(c: Call, at: nat) {
    c.PutChunk? ==> c.range == ContentRange(at, |c.chunk.bytes|, |c.chunk.bytes| == 0)
  }

  /**
    Every chunk request names the range that follows the bytes sent before
    it, starting at `at`, and announces the total exactly when it is short.
   */
  predicate ChunksFrom(calls: seq<Call>, at: nat) {
    calls == [] || (RangeFits(calls[0], at) && ChunksFrom(calls[1..], at + CallBytes(calls[0])))
  }

  lemma {:induction false} SentAppend(a: seq<Call>, b: seq<Call>)
    ensures Sent(a + b) == Sent(a) + Sent(b)
  {
    if a == [] {
      assert a + b == b;
    } else {
      assert (a + b)[0] == a[0];
      assert (a + b)[1..] == a[1..] + b;
      SentAppend(a[1..], b);
    }
  }

  lemma {:induction false} ChunksFromAppend(a: seq<Call>, b: seq<Call>, at: nat)
    ensures ChunksFrom(a + b, at) <==> ChunksFrom(a, at) && ChunksFrom(b, at + Sent(a))
  {
    if a == [] {
      assert a + b == b;
    } else {
      assert (a + b)[0] == a[0];
      assert (a + b)[1..] == a[1..] + b;
      ChunksFromAppend(a[1..], b, at + CallBytes(a[0]));
    }
  }

  /** One operation sends its chunk, if any, at the current length and accounts for it. */
  lemma ApplyChunks(s: Stream, env: Env, op: Op)
    requires Valid(s)
    ensures ChunksFrom(Apply(s, env, op).calls, s.length)
    ensures Apply(s, env, op).failure.None? ==> Apply(s, env, op).stream.length == s.length + Sent(Apply(s, env, op).calls)
  {
    var r := Apply(s, env, op);
    if op.WriteByte? && s.offset < CHUNK {
      var s1 := s.(cache := s.cache[s.offset := op.b % 256], offset := s.offset + 1);
      if s1.offset == CHUNK {
        HandleChunkChunks(s1, env);
      }
    } else if op.CloseStream? {
      HandleChunkChunks(s, env);
    }
  }

  lemma HandleChunkChunks(s: Stream, env: Env)
    requires Valid(s)
    ensures var r := HandleChunk(s, env);
            && ChunksFrom(r.calls, s.length)
            && (r.failure.None? ==> r.stream.length == s.length + Sent(r.calls))
  {
    var r := HandleChunk(s, env);
    if !s.uploaded {
      if s.length == 0 {
        var s1 := s.(mimeType := env.detect(s.file.name, s.cache));
        if s1.offset >= CHUNK {
          var st := GetUploadSession(s1, env);
          if st.failure.None? {
            var u := UploadChunk(st.stream, env, st.stream.offset == 0);
            UploadChunkChunks(st.stream, env, st.stream.offset == 0);
            assert st.calls == [] || (|st.calls| == 1 && st.calls[0].StartSession?);
            ChunksFromAppend(st.calls, u.calls, s.length);
            SentAppend(st.calls, u.calls);
          }
        }
      } else {
        UploadChunkChunks(s, env, s.offset == 0);
      }
    }
  }

  lemma UploadChunkChunks(s: Stream, env: Env, close: bool)
    requires Valid(s) && close == (s.offset == 0)
    ensures var r := UploadChunk(s, env, close);
            && ChunksFrom(r.calls, s.length)
            && (r.failure.None? ==> r.stream.length == s.length + Sent(r.calls))
  {
    var r := UploadChunk(s, env, close);
    if s.offset <= CHUNK && s.uploadUri.Some? {
      assert r.calls == [ChunkCall(s, close)];
      assert |r.calls[0].chunk.bytes| == s.offset;
      assert r.calls[1..] == [];
    }
  }

  /**
    Contiguity: over any run, each chunk request covers the bytes right after
    those sent before it, counting from the stream's length at the start; a
    run that does not fail ends with `length` grown by exactly the bytes sent.
   */
  lemma {:induction false} RunChunks(s: Stream, env: Env, ops: seq<Op>)
    requires Valid(s)
    ensures ChunksFrom(Run(s, env, ops).calls, s.length)
    ensures Run(s, env, ops).failure.None? ==> Run(s, env, ops).stream.length == s.length + Sent(Run(s, env, ops).calls)
    decreases |ops|
  {
    if ops != [] {
      var st := Apply(s, env, ops[0]);
      ApplyChunks(s, env, ops[0]);
      if st.failure.None? {
        var rest := Run(st.stream, env, ops[1..]);
        RunChunks(st.stream, env, ops[1..]);
        ChunksThen(st, rest, s.length);
        assert Run(s, env, ops) == Then(st, rest);
      }
    }
  }

  /** A step followed by a run that carries on where it stopped stays contiguous. */
  lemma ChunksThen(st: Step, rest: Step, at: nat)
    requires ChunksFrom(st.calls, at) && st.stream.length == at + Sent(st.calls)
    requires ChunksFrom(rest.calls, st.stream.length)
    requires rest.failure.None? ==> rest.stream.length == st.stream.length + Sent(rest.calls)
    ensures ChunksFrom(Then(st, rest).calls, at)
    ensures Then(st, rest).failure.None? ==> Then(st, rest).stream.length == at + Sent(Then(st, rest).calls)
  {
    ChunksFromAppend(st.calls, rest.calls, at);
    SentAppend(st.calls, rest.calls);
  }

  // ---------------------------------------------------------------
  // Sessions and confirmation
  // ---------------------------------------------------------------

  function Sessions(calls: seq<Call>): nat {
    if calls == [] then 0 else (if calls[0].StartSession? then 1 else 0) + Sessions(calls[1..])
  }

  lemma {:induction false} SessionsAppend(a: seq<Call>, b: seq<Call>)
    ensures Sessions(a + b) == Sessions(a) + Sessions(b)
  {
    if a == [] {
      assert a + b == b;
    } else {
      assert (a + b)[0] == a[0];
      assert (a + b)[1..] == a[1..] + b;
      SessionsAppend(a[1..], b);
    }
  }

  /**
    One operation starts a session only when none is known, never forgets a
    known one, and leaves one known whenever it started one and did not fail.
   */
  lemma ApplySessions(s: Stream, env: Env, op: Op)
    requires Valid(s)
    ensures var r := Apply(s, env, op);
            && Sessions(r.calls) <= (if s.uploadUri.None? then 1 else 0)
            && (s.uploadUri.Some? ==> r.stream.uploadUri.Some?)
            && (r.failure.None? && Sessions(r.calls) > 0 ==> r.stream.uploadUri.Some?)
  {
    if op.WriteByte? && s.offset < CHUNK {
      var s1 := s.(cache := s.cache[s.offset := op.b % 256], offset := s.offset + 1);
      if s1.offset == CHUNK {
        HandleChunkSessions(s1, env);
      }
    } else if op.CloseStream? {
      HandleChunkSessions(s, env);
    }
  }

  lemma HandleChunkSessions(s: Stream, env: Env)
    requires Valid(s)
    ensures var r := HandleChunk(s, env);
            && Sessions(r.calls) <= (if s.uploadUri.None? then 1 else 0)
            && (s.uploadUri.Some? ==> r.stream.uploadUri.Some?)
            && (r.failure.None? && Sessions(r.calls) > 0 ==> r.stream.uploadUri.Some?)
  {
    var r := HandleChunk(s, env);
    if !s.uploaded {
      if s.length == 0 {
        var s1 := s.(mimeType := env.detect(s.file.name, s.cache));
        if s1.offset < CHUNK {
          assert Sessions(r.calls) == 0 by {
            assert r.calls[1..] == [];
          }
        } else {
          var st := GetUploadSession(s1, env);
          var u := UploadChunk(st.stream, env, st.stream.offset == 0);
          if st.failure.Some? {
            if s.uploadUri.None? {
              assert st.calls[1..] == [];
            }
          } else {
            SessionsAppend(st.calls, u.calls);
            if s.uploadUri.None? {
              assert st.calls[1..] == [];
            }
            assert u.calls == [] || u.calls[1..] == [];
          }
        }
      } else {
        var u := UploadChunk(s, env, s.offset == 0);
        assert u.calls == [] || u.calls[1..] == [];
      }
    }
  }

  /**
    A run starts at most one resumable session, and none at all when the
    stream already knows its session URI.
   */
  lemma {:induction false} RunSessions(s: Stream, env: Env, ops: seq<Op>)
    requires Valid(s)
    ensures var r := Run(s, env, ops);
            && Sessions(r.calls) <= (if s.uploadUri.None? then 1 else 0)
            && (s.uploadUri.Some? ==> r.stream.uploadUri.Some?)
            && (r.failure.None? && Sessions(r.calls) > 0 ==> r.stream.uploadUri.Some?)
    decreases |ops|
  {
    if ops != [] {
      var st := Apply(s, env, ops[0]);
      ApplySessions(s, env, ops[0]);
      if st.failure.None? {
        var rest := Run(st.stream, env, ops[1..]);
        RunSessions(st.stream, env, ops[1..]);
        SessionsAppend(st.calls, rest.calls);
      }
    }
  }

  /** Once the upload is confirmed, no operation sends anything or undoes it. */
  lemma {:induction false} ConfirmedIsFinal(s: Stream, env: Env, ops: seq<Op>)
    requires Valid(s) && s.uploaded
    ensures Run(s, env, ops).calls == []
    ensures Run(s, env, ops).stream.uploaded
    decreases |ops|
  {
    if ops != [] {
      var st := Apply(s, env, ops[0]);
      if st.failure.None? {
        ConfirmedIsFinal(st.stream, env, ops[1..]);
      }
    }
  }

  /**
    One operation on a stream whose buffer has room leaves it room, unless it
    fails or the upload is confirmed: a full buffer is always sent at once.
   */
  lemma ApplyKeepsRoom(s: Stream, env: Env, op: Op)
    requires Valid(s) && s.offset < CHUNK
    ensures var r := Apply(s, env, op);
            r.failure.None? && !r.stream.uploaded ==> r.stream.offset < CHUNK
  {
    var r := Apply(s, env, op);
    if op.WriteByte? && s.offset + 1 == CHUNK && !s.uploaded {
      var s1 := s.(cache := s.cache[s.offset := op.b % 256], offset := s.offset + 1);
      assert r == HandleChunk(s1, env);
      if s1.length == 0 {
        var s2 := s1.(mimeType := env.detect(s1.file.name, s1.cache));
        var st := GetUploadSession(s2, env);
        if st.failure.None? {
          assert r == Then(st, UploadChunk(st.stream, env, st.stream.offset == 0));
        }
      }
    }
  }

  /**
    Between operations of a run that has neither failed nor been confirmed,
    the write position stays below the chunk size.
   */
  lemma {:induction false} RunKeepsRoom(s: Stream, env: Env, ops: seq<Op>)
    requires Valid(s) && s.offset < CHUNK
    ensures var r := Run(s, env, ops);
            r.failure.None? && !r.stream.uploaded ==> r.stream.offset < CHUNK
    decreases |ops|
  {
    if ops != [] {
      var st := Apply(s, env, ops[0]);
      ApplyKeepsRoom(s, env, ops[0]);
      if st.failure.None? {
        if st.stream.uploaded {
          ConfirmedIsFinal(st.stream, env, ops[1..]);
        } else {
          RunKeepsRoom(st.stream, env, ops[1..]);
        }
      }
    }
  }

  /**
    After the upload is confirmed, writes still fill the buffer without
    sending anything; the write after a full buffer fails on the array store.
   */
  lemma ConfirmedStreamOverflows(s: Stream, env: Env, b: int)
    requires Valid(s) && s.uploaded
    ensures var r := Write(s, env, b);
            && r.calls == []
            && (s.offset < CHUNK ==> r.failure.None? && r.stream.offset == s.offset + 1)
            && (s.offset >= CHUNK ==> r.failure == Some(IndexOutOfBounds))
  {
  }

  // ---------------------------------------------------------------
  // Short files
  // ---------------------------------------------------------------

  /** Writes that do not fill the buffer only store their bytes. */
  lemma {:induction false} BufferedWrites(s: Stream, env: Env, bs: seq<int>)
    requires Valid(s) && s.offset + |bs| < CHUNK
    ensures var r := Run(s, env, Writes(bs));
            && r.failure.None? && r.calls == []
            && r.stream == s.(cache := r.stream.cache, offset := s.offset + |bs|)
            && r.stream.cache[..s.offset] == s.cache[..s.offset]
            && r.stream.cache[s.offset..s.offset + |bs|] == Bytes(bs)
    decreases |bs|
  {
    var ops := Writes(bs);
    if bs == [] {
      assert ops == [] && Bytes(bs) == [];
    } else {
      assert ops[0] == WriteByte(bs[0]) && ops[1..] == Writes(bs[1..]);
      var s1 := s.(cache := s.cache[s.offset := bs[0] % 256], offset := s.offset + 1);
      var st := Write(s, env, bs[0]);
      assert st == Step(s1, [], None);
      BufferedWrites(s1, env, bs[1..]);
      var t := Run(s1, env, ops[1..]);
      assert Run(s, env, ops) == Then(st, t);
      CacheAfterWrites(s.cache, s1.cache, t.stream.cache, s.offset, bs);
    }
  }

  /** The buffer after one stored byte and the bytes stored after it. */
  lemma CacheAfterWrites(c0: seq<byte>, c1: seq<byte>, c2: seq<byte>, off: nat, bs: seq<int>)
    requires bs != [] && off < |c0| && c1 == c0[off := bs[0] % 256]
    requires off + |bs| <= |c2| && |c2| == |c1|
    requires c2[..off + 1] == c1[..off + 1]
    requires c2[off + 1..off + |bs|] == Bytes(bs[1..])
    ensures c2[..off] == c0[..off]
    ensures c2[off..off + |bs|] == Bytes(bs)
  {
    assert c2[..off] == c2[..off + 1][..off] == c1[..off + 1][..off] == c0[..off];
    forall i | 0 <= i < |bs| ensures c2[off..off + |bs|][i] == Bytes(bs)[i] {
      if i == 0 {
        assert c2[off] == c2[..off + 1][off] == c1[off];
      } else {
        assert c2[off + i] == c2[off + 1..off + |bs|][i - 1] == Bytes(bs[1..])[i - 1];
      }
    }
  }

  lemma ThenAssociative(x: Step, y: Step, z: Step)
    ensures Then(x, Then(y, z)) == Then(Then(x, y), z)
  {
    assert x.calls + (y.calls + z.calls) == (x.calls + y.calls) + z.calls;
  }

  /** Running two batches of operations is running one after the other. */
  lemma {:induction false} RunAppend(s: Stream, env: Env, a: seq<Op>, b: seq<Op>)
    requires Valid(s)
    ensures var ra := Run(s, env, a);
            Run(s, env, a + b) == if ra.failure.Some? then ra else Then(ra, Run(ra.stream, env, b))
    decreases |a|
  {
    if a == [] {
      assert a + b == b;
    } else {
      assert (a + b)[0] == a[0];
      assert (a + b)[1..] == a[1..] + b;
      var st := Apply(s, env, a[0]);
      if st.failure.None? {
        var ra' := Run(st.stream, env, a[1..]);
        assert Run(s, env, a) == Then(st, ra');
        assert Run(s, env, a + b) == Then(st, Run(st.stream, env, a[1..] + b));
        RunAppend(st.stream, env, a[1..], b);
        if ra'.failure.None? {
          ThenAssociative(st, ra', Run(ra'.stream, env, b));
        }
      } else {
        assert Run(s, env, a) == st;
        assert Run(s, env, a + b) == st;
      }
    }
  }

  /**
    A file shorter than a chunk, written to a fresh stream and closed, goes
    out as exactly one request and no session: an update of an existing file
    or an insert of a new one, carrying exactly the written bytes, and no
    content at all when nothing was written.
   */
  lemma ShortFileOneRequest(f: GFile, env: Env, bs: seq<int>)
    requires |bs| < CHUNK
    ensures var r := Run(Open(f), env, Writes(bs) + [CloseStream]);
            && |r.calls| == 1
            && (r.calls[0].Update? <==> f.existing)
            && (r.calls[0].Update? || r.calls[0].Insert?)
            && (r.calls[0].content.None? <==> bs == [])
            && (bs != [] ==> r.calls[0].content.value.bytes == Bytes(bs))
            && (r.failure.None? <==> r.stream.uploaded)
  {
    var s := Open(f);
    var w := Run(s, env, Writes(bs));
    BufferedWrites(s, env, bs);
    RunAppend(s, env, Writes(bs), [CloseStream]);
    var c := Close(w.stream, env);
    assert Run(w.stream, env, [CloseStream]) == c;
    assert w.stream.length == 0 && !w.stream.uploaded;
    var s1 := w.stream.(mimeType := env.detect(f.name, w.stream.cache));
    assert c == Direct(s1, env);
    assert w.stream.cache[..|bs|] == Bytes(bs);
  }

  // ---------------------------------------------------------------
  // Files of a full chunk
  // ---------------------------------------------------------------

  /**
    The write that fills the buffer of a fresh stream starts a resumable
    session (PUT for an existing file, POST for a new one); when Drive
    answers 200 with a location, exactly one chunk follows, sent there,
    carrying every byte written and announcing no total yet.
   */
  lemma FullChunkStartsSession(f: GFile, env: Env, bs: seq<int>)
    requires |bs| == CHUNK
    ensures var r := Run(Open(f), env, Writes(bs));
            && r.calls != [] && r.calls[0].StartSession?
            && r.calls[0].verb == (if f.existing then PutVerb else PostVerb)
            && (env.server(r.calls[0]).status == 200 && env.server(r.calls[0]).location.Some? ==>
                  && |r.calls| == 2 && r.calls[1].PutChunk?
                  && r.calls[1].uri == env.server(r.calls[0]).location.value
                  && r.calls[1].chunk.bytes == Bytes(bs)
                  && r.calls[1].range == ContentRange(0, CHUNK, false))
  {
    var s := Open(f);
    var front, last := bs[..CHUNK - 1], bs[CHUNK - 1];
    assert Writes(bs) == Writes(front) + [WriteByte(last)];
    var w := Run(s, env, Writes(front));
    BufferedWrites(s, env, front);
    RunAppend(s, env, Writes(front), [WriteByte(last)]);
    var s1 := w.stream.(cache := w.stream.cache[CHUNK - 1 := last % 256], offset := CHUNK);
    assert Run(w.stream, env, [WriteByte(last)]) == HandleChunk(s1, env);
    assert Run(s, env, Writes(bs)) == HandleChunk(s1, env);
    assert s1.cache[..CHUNK] == Bytes(bs) by {
      forall i | 0 <= i < CHUNK ensures s1.cache[i] == Bytes(bs)[i] {
        if i < CHUNK - 1 {
          assert s1.cache[i] == w.stream.cache[..CHUNK - 1][i] == Bytes(front)[i];
        }
      }
    }
    FullBufferStartsSession(s1, env);
  }

  /** A full buffer handled before anything was sent opens a session and then sends it whole. */
  lemma FullBufferStartsSession(s: Stream, env: Env)
    requires Valid(s) && !s.uploaded && s.length == 0 && s.offset == CHUNK && s.uploadUri.None?
    ensures var r := HandleChunk(s, env);
            && r.calls != [] && r.calls[0].StartSession?
            && r.calls[0].verb == (if s.file.existing then PutVerb else PostVerb)
            && (env.server(r.calls[0]).status == 200 && env.server(r.calls[0]).location.Some? ==>
                  && |r.calls| == 2 && r.calls[1].PutChunk?
                  && r.calls[1].uri == env.server(r.calls[0]).location.value
                  && r.calls[1].chunk.bytes == s.cache[..CHUNK]
                  && r.calls[1].range == ContentRange(0, CHUNK, false))
  {
    var d := Detected(s, env);
    assert GetUploadSession(d, env).calls == [SessionCall(d, env)];
  }

  // ---------------------------------------------------------------
  // Reading a Content-Range header back
  // ---------------------------------------------------------------

  /** The fields of a `Content-Range`: the byte positions sent, if any, and the total, if known. */
  datatype RangeSpec = RangeSpec(span: Option<(nat, nat)>, total: Option<nat>)

  /** What a chunk of `n` bytes at `length` claims. */
  function Claimed(length: nat, n: nat, close: bool): RangeSpec {
    RangeSpec(
      if n == 0 then None else Some((length, length + n - 1)),
      if close || n < CHUNK then Some(length + n) else None)
  }

  predicate AllDigits(s: string) {
    forall i :: 0 <= i < |s| ==> IsDigit(s[i])
  }

  /** `*` or a decimal number; `None` for anything else. */
  function ParseStarOrNumber(s: string): Option<Option<nat>> {
    if s == "*" then Some(None)
    else if s != [] && AllDigits(s) then Some(Some(ParseDigits(s)))
    else None
  }

  /** `*` or `first-last`; `None` for anything else. */
  function ParseSpan(s: string): Option<Option<(nat, nat)>> {
    if s == "*" then Some(None)
    else
      var d := LastIndexOf(s, '-');
      if d < 0 then None
      else
        var a, b := s[..d], s[d + 1..];
        if a != [] && b != [] && AllDigits(a) && AllDigits(b) then Some(Some((ParseDigits(a), ParseDigits(b))))
        else None
  }

  /** Reads `bytes <span>/<total>` as in section 4.2 of RFC 7233. */
  function ParseContentRange(h: string): Option<RangeSpec> {
    if !StartsWith(h, "bytes ") then None
    else
      var rest := h[6..];
      var slash := LastIndexOf(rest, '/');
      if slash < 0 then None
      else
        match (ParseSpan(rest[..slash]), ParseStarOrNumber(rest[slash + 1..]))
        case (Some(span), Some(total)) => Some(RangeSpec(span, total))
        case _ => None
  }

  /** The last `c` in `x + [c] + y`, when `y` holds none, is the one after `x`. */
  lemma LastIndexAfter(x: string, c: char, y: string)
    requires forall i :: 0 <= i < |y| ==> y[i] != c
    ensures LastIndexOf(x + [c] + y, c) == |x|
  {
    var s := x + [c] + y;
    var r := LastIndexOf(s, c);
    assert s[|x|] == c;
  }

  lemma DigitsNoPunctuation(n: nat)
    ensures var d := NatToString(n);
            && AllDigits(d) && d != [] && d != "*"
            && forall i :: 0 <= i < |d| ==> d[i] != '/' && d[i] != '-'
  {
  }

  /** The span half of the header reads back as the positions sent. */
  lemma SpanRoundTrip(length: nat, n: nat)
    ensures var a := if n == 0 then "*" else NatToString(length) + "-" + NatToString(length + n - 1);
            && ParseSpan(a) == Some(if n == 0 then None else Some((length, length + n - 1)))
            && forall i :: 0 <= i < |a| ==> a[i] != '/'
  {
    if n > 0 {
      var x, y := NatToString(length), NatToString(length + n - 1);
      DigitsNoPunctuation(length);
      DigitsNoPunctuation(length + n - 1);
      SpanOfDigits(x, y);
      ParseNatToString(length);
      ParseNatToString(length + n - 1);
    }
  }

  /** Two decimal numbers joined by `-` read back as that pair. */
  lemma SpanOfDigits(x: string, y: string)
    requires x != [] && y != [] && AllDigits(x) && AllDigits(y)
    requires forall i :: 0 <= i < |x| ==> x[i] != '/'
    requires forall i :: 0 <= i < |y| ==> y[i] != '/' && y[i] != '-'
    ensures ParseSpan(x + "-" + y) == Some(Some((ParseDigits(x), ParseDigits(y))))
    ensures forall i :: 0 <= i < |x + "-" + y| ==> (x + "-" + y)[i] != '/'
  {
    var a := x + "-" + y;
    assert |a| >= 3;
    assert a != "*";
    LastIndexAfter(x, '-', y);
    assert a[..|x|] == x && a[|x| + 1..] == y;
  }

  /**
    Round trip of the header: parsing what a chunk request carries gives
    back the positions sent and the total announced.
   */
  lemma ContentRangeRoundTrip(length: nat, n: nat, close: bool)
    ensures ParseContentRange(ContentRange(length, n, close)) == Some(Claimed(length, n, close))
  {
    var a := if n == 0 then "*" else NatToString(length) + "-" + NatToString(length + n - 1);
    var b := if close || n < CHUNK then NatToString(length + n) else "*";
    assert ContentRange(length, n, close) == "bytes " + (a + "/" + b) by {
      assert ContentRange(length, n, close) == "bytes " + a + "/" + b;
    }
    SpanRoundTrip(length, n);
    TotalRoundTrip(length, n, close);
    ParseHeader(a, b);
  }

  /** The total half of the header reads back as the total announced. */
  lemma TotalRoundTrip(length: nat, n: nat, close: bool)
    ensures var b := if close || n < CHUNK then NatToString(length + n) else "*";
            && ParseStarOrNumber(b) == Some(Claimed(length, n, close).total)
            && forall i :: 0 <= i < |b| ==> b[i] != '/'
  {
    if close || n < CHUNK {
      DigitsNoPunctuation(length + n);
      ParseNatToString(length + n);
    }
  }

  /** The header splits at its last `/`, which the total cannot contain. */
  lemma ParseHeader(a: string, b: string)
    requires forall i :: 0 <= i < |b| ==> b[i] != '/'
    requires ParseSpan(a).Some? && ParseStarOrNumber(b).Some?
    ensures ParseContentRange("bytes " + (a + "/" + b)) == Some(RangeSpec(ParseSpan(a).value, ParseStarOrNumber(b).value))
  {
    var h := "bytes " + (a + "/" + b);
    var rest := a + "/" + b;
    assert StartsWith(h, "bytes ") && h[6..] == rest;
    LastIndexAfter(a, '/', b);
    assert rest[..|a|] == a && rest[|a| + 1..] == b;
  }

  /** Different chunks never carry the same header. */
  lemma ContentRangeDistinguishes(l1: nat, n1: nat, l2: nat, n2: nat)
    requires n1 > 0 && n2 > 0
    requires ContentRange(l1, n1, false) == ContentRange(l2, n2, false)
    ensures l1 == l2 && n1 == n2
  {
    ContentRangeRoundTrip(l1, n1, false);
    ContentRangeRoundTrip(l2, n2, false);
  }
}

=== FILE: view.dfy ===
/**
  The FTP file-system view (`FtpFileSystemView`): a tree of file wrappers
  hanging from the home folder, path resolution one name at a time through
  the metadata cache, the working directory of a session, and the file
  operations that a wrapper forwards to the controller.
 */
module View {
  import opened Wrappers
  import opened Strings
  import Path
  import opened Drive
  import opened NameCodec
  import Controller
  import Upload

  const SEPARATOR: string := "/"
  const SELF: string := "."
  const PARENT: string := ".."

  // ---------------------------------------------------------------
  // Wrappers and their paths
  // ---------------------------------------------------------------

  /**
    `FtpFileWrapper`: the folder it was reached from (none for the home
    folder), the Drive file, and the name the FTP client sees.
   */
  datatype Node = Node(parent: Option<Node>, file: GFile, name: string)

  predicate IsRoot(n: Node) {
    n.parent.None?
  }

  /** The top of the chain of folders `n` was reached through. */
  function RootOf(n: Node): (r: Node)
    ensures IsRoot(r)
    decreases n
  {
    if n.parent.None? then n else RootOf(n.parent.value)
  }

  /**
    `getAbsolutePath`: the root shows its own name; a child of the root is
    `/name`; anything deeper appends `/name` to its parent's path.
   */
  function AbsolutePath(n: Node): string
    decreases n
  {
    if n.parent.None? then n.name
    else if n.parent.value.parent.None? then SEPARATOR + n.name
    else AbsolutePath(n.parent.value) + SEPARATOR + n.name
  }

  /** The names below the root down to `n`. */
  function Chain(n: Node): (r: seq<string>)
    ensures |r| > 0 <==> !IsRoot(n)
    decreases n
  {
    if n.parent.None? then [] else Chain(n.parent.value) + [n.name]
  }

  /** Each name preceded by a separator. */
  function Slashed(names: seq<string>): string {
    if names == [] then "" else Slashed(names[..|names| - 1]) + SEPARATOR + names[|names| - 1]
  }

  /**
    Below the root a wrapper's path is the separator-prefixed names of its
    chain, whatever the root is called.
   */
  lemma {:induction false} AbsolutePathIsChain(n: Node)
    requires !IsRoot(n)
    ensures AbsolutePath(n) == Slashed(Chain(n))
    decreases n
  {
    var p := n.parent.value;
    var c := Chain(n);
    assert c == Chain(p) + [n.name];
    assert c[..|c| - 1] == Chain(p);
    if !IsRoot(p) {
      AbsolutePathIsChain(p);
    }
  }

  /** What a child's name is appended to: `/` under the root, the path and a separator below it. */
  function Prefix(n: Node): string {
    if IsRoot(n) then SEPARATOR else AbsolutePath(n) + SEPARATOR
  }

  lemma ChildPath(child: Node)
    requires child.parent.Some?
    ensures AbsolutePath(child) == Prefix(child.parent.value) + child.name
  {
  }

  /** Every path below a root named `/` starts with the separator. */
  lemma {:induction false} PathStartsWithSeparator(n: Node)
    requires RootOf(n).name == SEPARATOR
    ensures StartsWith(AbsolutePath(n), SEPARATOR)
    decreases n
  {
    if n.parent.Some? && n.parent.value.parent.Some? {
      PathStartsWithSeparator(n.parent.value);
    }
  }

  // ---------------------------------------------------------------
  // Looking up one name
  // ---------------------------------------------------------------

  /**
    `getFileByName` with `createFtpFileWrapper`: a name carrying an id is
    looked up by that id and accepted only if the file's sanitised name is
    the decoded name; any other name is looked up in the folder. A failed or
    ambiguous lookup gives a new, not yet existing file in the folder. The
    wrapper shows the requested name, made legal and tagged with the file's
    id if it is not.
   */
  function GetFileByName(md: Metadata, folder: Node, part: string): (r: Node)
    ensures r.parent == Some(folder)
    ensures r.name == VirtualName(part, r.file.id)
    ensures r.name == part <==> IsLegal(part)
    ensures var (decoded, id) := Decode(part);
            id.Some? && md.byId(Id(id.value)).Found? && Sanitize(md.byId(Id(id.value)).file.name) == decoded ==>
              r.file == md.byId(Id(id.value)).file
    ensures var (decoded, id) := Decode(part);
            id.Some? && (md.byId(Id(id.value)).NotFound? || md.byId(Id(id.value)).Ambiguous?
                         || Sanitize(md.byId(Id(id.value)).file.name) != decoded) ==>
              r.file == Prospective(folder.file.id, part)
    ensures Decode(part).1.None? && md.byName(folder.file.id, part).Found? ==>
              r.file == md.byName(folder.file.id, part).file
    ensures Decode(part).1.None? && (md.byName(folder.file.id, part).NotFound? || md.byName(folder.file.id, part).Ambiguous?) ==>
              r.file == Prospective(folder.file.id, part)
  {
    var (decoded, id) := Decode(part);
    var found :=
      if id.Some? then
        match md.byId(Id(id.value))
        case Found(f) => if Sanitize(f.name) == decoded then Some(f) else None
        case _ => None
      else
        match md.byName(folder.file.id, part)
        case Found(f) => Some(f)
        case _ => None;
    var file := if found.Some? then found.value else Prospective(folder.file.id, part);
    Node(Some(folder), file, VirtualName(part, file.id))
  }

  /** A plain name the folder holds once resolves to that file, shown under its own name. */
  lemma PlainNameResolves(md: Metadata, folder: Node, f: GFile)
    requires Decode(f.name).1.None? && IsLegal(f.name)
    requires md.byName(folder.file.id, f.name) == Found(f)
    ensures GetFileByName(md, folder, f.name) == Node(Some(folder), f, f.name)
  {
  }

  /**
    The name given to one of several same-named files resolves to that very
    file through its id, and is shown unchanged.
   */
  lemma DuplicateNameResolves(md: Metadata, folder: Node, f: GFile, id: string)
    requires f.id == Id(id) && md.byId(Id(id)) == Found(f)
    requires IsLegal(f.name) && NoToken(f.name) && NoLineTerminator(f.name)
    requires |id| == ID_LENGTH && NoUnderscore(id) && NoLineTerminator(id) && IsLegal(id)
    ensures GetFileByName(md, folder, Encode(f.name, id)) == Node(Some(folder), f, Encode(f.name, id))
  {
    DecodeEncode(f.name, id);
    SanitizeFixesExactlyLegal(f.name);
    EncodeKeepsLegal(f.name, id);
    SanitizeFixesExactlyLegal(Encode(f.name, id));
  }

  /**
    The name given to a file with illegal characters resolves to that very
    file through its id, and is shown unchanged.
   */
  lemma IllegalNameResolves(md: Metadata, folder: Node, f: GFile, id: string)
    requires f.id == Id(id) && md.byId(Id(id)) == Found(f)
    requires !IsLegal(f.name) && NoToken(Sanitize(f.name)) && NoLineTerminator(f.name)
    requires |id| == ID_LENGTH && NoUnderscore(id) && NoLineTerminator(id) && IsLegal(id)
    ensures var shown := VirtualName(f.name, f.id);
            GetFileByName(md, folder, shown) == Node(Some(folder), f, shown)
  {
    var shown := VirtualName(f.name, f.id);
    VirtualNameDecodes(f.name, id);
    VirtualNameLegal(f.name, f.id);
    SanitizeFixesExactlyLegal(shown);
  }

  // ---------------------------------------------------------------
  // Splitting and walking a path
  // ---------------------------------------------------------------

  /** The position of the first separator at or after `i`, or -1. */
  function SeparatorFrom(s: string, i: nat): (r: int)
    requires i <= |s|
    ensures r == -1 || i <= r < |s|
    ensures r >= 0 ==> s[r] == '/'
    ensures forall j :: i <= j < |s| && (r < 0 || j < r) ==> s[j] != '/'
    decreases |s| - i
  {
    if i == |s| then -1 else if s[i] == '/' then i else SeparatorFrom(s, i + 1)
  }

  function FirstSeparator(s: string): int {
    SeparatorFrom(s, 0)
  }

  predicate HasNoSeparator(s: string) {
    forall i :: 0 <= i < |s| ==> s[i] != '/'
  }

  /** The text between separators, empty pieces included. */
  function Pieces(s: string): (r: seq<string>)
    ensures |r| >= 1
    ensures forall k :: 0 <= k < |r| ==> HasNoSeparator(r[k])
    decreases |s|
  {
    var i := FirstSeparator(s);
    if i < 0 then
      assert HasNoSeparator(s);
      [s]
    else
      var first, rest := s[..i], Pieces(s[i + 1..]);
      assert HasNoSeparator(first);
      assert forall k :: 1 <= k < 1 + |rest| ==> ([first] + rest)[k] == rest[k - 1];
      [first] + rest
  }

  /** The pieces put back together with one separator between each two. */
  function Unsplit(ps: seq<string>): string
    requires |ps| >= 1
  {
    if |ps| == 1 then ps[0] else ps[0] + SEPARATOR + Unsplit(ps[1..])
  }

  /** Splitting loses nothing: the pieces rejoin to the string. */
  lemma {:induction false} PiecesRejoin(s: string)
    ensures Unsplit(Pieces(s)) == s
    decreases |s|
  {
    var i := FirstSeparator(s);
    if i >= 0 {
      PiecesRejoin(s[i + 1..]);
      assert s == s[..i] + SEPARATOR + s[i + 1..];
    }
  }

  function DropTrailingEmpty(ps: seq<string>): (r: seq<string>)
    ensures |r| <= |ps| && r == ps[..|r|]
    ensures forall k :: |r| <= k < |ps| ==> ps[k] == ""
    ensures r == [] || r[|r| - 1] != ""
  {
    if ps != [] && ps[|ps| - 1] == "" then DropTrailingEmpty(ps[..|ps| - 1]) else ps
  }

  /**
    `String.split("/")`: the whole string when it has no separator;
    otherwise the pieces, without the empty ones at the end.
   */
  function Split(s: string): (r: seq<string>)
    ensures HasNoSeparator(s) ==> r == [s]
    ensures !HasNoSeparator(s) ==>
              && |r| <= |Pieces(s)| && r == Pieces(s)[..|r|]
              && (forall k :: |r| <= k < |Pieces(s)| ==> Pieces(s)[k] == "")
              && (r == [] || r[|r| - 1] != "")
  {
    if FirstSeparator(s) < 0 then [s] else DropTrailingEmpty(Pieces(s))
  }

  /** The last piece of a string that does not end with a separator is not empty. */
  lemma {:induction false} LastPieceNotEmpty(s: string)
    requires s != [] && s[|s| - 1] != '/'
    ensures var ps := Pieces(s); ps[|ps| - 1] != ""
    decreases |s|
  {
    var i := FirstSeparator(s);
    if i >= 0 {
      var rest := s[i + 1..];
      assert rest != [] && rest[|rest| - 1] == s[|s| - 1];
      LastPieceNotEmpty(rest);
    }
  }

  /** Without a trailing separator, splitting keeps every piece. */
  lemma SplitKeepsAllPieces(s: string)
    requires s == [] || s[|s| - 1] != '/'
    ensures Split(s) == Pieces(s)
  {
    if FirstSeparator(s) >= 0 {
      LastPieceNotEmpty(s);
    }
  }

  /** The loop of `getFileByPath`: each piece is looked up inside the previous result. */
  function Walk(md: Metadata, folder: Node, parts: seq<string>): (r: Node)
    ensures RootOf(r) == RootOf(folder)
    decreases |parts|
  {
    if parts == [] then folder else Walk(md, GetFileByName(md, folder, parts[0]), parts[1..])
  }

  /**
    `getFileByPath`: the working directory's own path gives it back; a path
    under the working directory is walked from there; any other absolute
    path from the home folder; a relative path from the working directory.
   */
  function GetFileByPath(home: Node, current: Node, md: Metadata, path: string): (r: Node)
    ensures RootOf(home) == home && RootOf(current) == home ==> RootOf(r) == home
  {
    if Path.Equals(AbsolutePath(current), path) then current
    else if StartsWith(path, SEPARATOR) then
      var here := Path.Join(AbsolutePath(current), SEPARATOR);
      if StartsWith(path, here) then Walk(md, current, Split(path[|here|..]))
      else Walk(md, home, Split(path[1..]))
    else Walk(md, current, Split(path))
  }

  /** Characters a path of legal names may hold: legal ones and the separator. */
  predicate PathChars(s: string) {
    forall i :: 0 <= i < |s| ==> s[i] == '/' || !IsIllegal(s[i])
  }

  /**
    Walking the pieces of a path of legal names lands on a wrapper whose
    path is the starting folder's prefix followed by that path.
   */
  lemma {:induction false} WalkPath(md: Metadata, folder: Node, rel: string)
    requires PathChars(rel)
    ensures AbsolutePath(Walk(md, folder, Pieces(rel))) == Prefix(folder) + rel
    decreases |rel|
  {
    var i := FirstSeparator(rel);
    if i < 0 {
      PieceIsLegal(rel, rel);
      WalkSinglePiece(md, folder, rel);
    } else {
      var part, rest := rel[..i], rel[i + 1..];
      PieceIsLegal(rel, part);
      var child := GetFileByName(md, folder, part);
      WalkFirstPiece(md, folder, rel);
      PathCharsSuffix(rel, i + 1);
      WalkPath(md, child, rest);
      ChildPrefix(child, folder, part);
      Regroup(Prefix(folder), rel, i);
    }
  }

  /** A name without separators is one piece, looked up directly. */
  lemma WalkSinglePiece(md: Metadata, folder: Node, rel: string)
    requires FirstSeparator(rel) < 0 && IsLegal(rel)
    ensures AbsolutePath(Walk(md, folder, Pieces(rel))) == Prefix(folder) + rel
  {
    assert Pieces(rel) == [rel];
    var child := GetFileByName(md, folder, rel);
    assert Walk(md, folder, [rel]) == Walk(md, child, []);
  }

  /** Cutting a path at a separator and gluing it back behind a prefix. */
  lemma Regroup(a: string, rel: string, i: int)
    requires 0 <= i < |rel| && rel[i] == '/'
    ensures a + rel[..i] + SEPARATOR + rel[i + 1..] == a + rel
  {
    assert rel == rel[..i] + SEPARATOR + rel[i + 1..];
  }

  lemma ChildPrefix(child: Node, folder: Node, part: string)
    requires child.parent == Some(folder) && child.name == part
    ensures Prefix(child) == Prefix(folder) + part + SEPARATOR
  {
  }

  lemma PieceIsLegal(rel: string, part: string)
    requires PathChars(rel) && HasNoSeparator(part) && |part| <= |rel| && part == rel[..|part|]
    ensures IsLegal(part)
  {
    forall j | 0 <= j < |part| ensures !IsIllegal(part[j]) {
      assert part[j] == rel[j];
    }
  }

  lemma PathCharsSuffix(rel: string, k: nat)
    requires PathChars(rel) && k <= |rel|
    ensures PathChars(rel[k..])
  {
    forall j | 0 <= j < |rel| - k ensures rel[k..][j] == '/' || !IsIllegal(rel[k..][j]) {
      assert rel[k..][j] == rel[k + j];
    }
  }

  /** Walking a path with a separator first looks up the piece before it. */
  lemma WalkFirstPiece(md: Metadata, folder: Node, rel: string)
    requires FirstSeparator(rel) >= 0
    ensures var i := FirstSeparator(rel);
            Walk(md, folder, Pieces(rel)) == Walk(md, GetFileByName(md, folder, rel[..i]), Pieces(rel[i + 1..]))
  {
    var i := FirstSeparator(rel);
    var ps := Pieces(rel);
    assert ps == [rel[..i]] + Pieces(rel[i + 1..]);
    assert ps[1..] == Pieces(rel[i + 1..]);
  }

  /**
    The view is settled on `n` when its path is well formed: `/` for a root,
    otherwise longer than one character and without a trailing separator.
   */
  predicate Settled(n: Node) {
    if IsRoot(n) then n.name == SEPARATOR
    else |AbsolutePath(n)| > 1 && !EndsWith(AbsolutePath(n), SEPARATOR)
  }

  /** A non-empty path of legal names, not ending with a separator. */
  predicate CleanPath(s: string) {
    s != [] && s[|s| - 1] != '/' && PathChars(s)
  }

  /**
    Absolute resolution: from any settled working directory, resolving
    `/s` for a path of legal names gives the wrapper whose path is `/s`.
   */
  lemma ResolveAbsolute(home: Node, current: Node, md: Metadata, s: string)
    requires IsRoot(home) && home.name == SEPARATOR
    requires Settled(current) && CleanPath(s)
    ensures AbsolutePath(GetFileByPath(home, current, md, SEPARATOR + s)) == SEPARATOR + s
  {
    var path := SEPARATOR + s;
    var abs := AbsolutePath(current);
    assert path[|path| - 1] == s[|s| - 1];
    assert PathChars(path[1..]) by { assert path[1..] == s; }
    if Path.Equals(abs, path) {
      assert Path.StripOne(path) == path;
      assert !IsRoot(current);
      assert Path.StripOne(abs) == abs;
    } else {
      var here := Path.Join(abs, SEPARATOR);
      if IsRoot(current) {
        assert here == SEPARATOR;
        SplitKeepsAllPieces(s);
        assert path[|here|..] == s;
        WalkPath(md, current, s);
      } else {
        assert here == abs + SEPARATOR;
        if StartsWith(path, here) {
          var rel := path[|here|..];
          assert path == here + rel;
          assert PathChars(rel) by {
            forall j | 0 <= j < |rel| ensures rel[j] == '/' || !IsIllegal(rel[j]) {
              assert rel[j] == s[|here| - 1 + j];
            }
          }
          assert rel == [] || rel[|rel| - 1] == s[|s| - 1];
          SplitKeepsAllPieces(rel);
          WalkPath(md, current, rel);
        } else {
          SplitKeepsAllPieces(s);
          assert path[1..] == s;
          WalkPath(md, home, s);
        }
      }
    }
  }

  /**
    Relative resolution: a path of legal names not starting with a separator
    is resolved inside the working directory.
   */
  lemma ResolveRelative(home: Node, current: Node, md: Metadata, s: string)
    requires RootOf(current).name == SEPARATOR
    requires CleanPath(s) && s[0] != '/'
    ensures AbsolutePath(GetFileByPath(home, current, md, s)) == Prefix(current) + s
  {
    var abs := AbsolutePath(current);
    PathStartsWithSeparator(current);
    assert Path.StripOne(s) == s;
    assert Path.StripOne(abs)[0] == '/';
    assert !Path.Equals(abs, s);
    SplitKeepsAllPieces(s);
    WalkPath(md, current, s);
  }

  // ---------------------------------------------------------------
  // The session's working directory
  // ---------------------------------------------------------------

  /** A view before its first use, or with its home folder and working directory. */
  datatype Session = Fresh | Ready(home: Node, current: Node)

  /** The home folder, built from Drive's root folder and shown as `/`. */
  function Home(root: GFile): (h: Node)
    ensures IsRoot(h) && h.name == SEPARATOR && Settled(h)
  {
    Node(None, root, SEPARATOR)
  }

  /** The view's invariant: a home shown as `/` from which the working directory hangs. */
  predicate WellFormed(s: Session) {
    s.Ready? ==> IsRoot(s.home) && s.home.name == SEPARATOR && RootOf(s.current) == s.home
  }

  /** `initWorkingDirectory`: on first use, home and working directory become the root folder. */
  function Init(s: Session, root: GFile): (r: Session)
    ensures r.Ready? && WellFormed(s) ==> WellFormed(r)
    ensures s.Ready? ==> r == s
    ensures s.Fresh? ==> r == Ready(Home(root), Home(root)) && WellFormed(r)
  {
    if s.Fresh? then Ready(Home(root), Home(root)) else s
  }

  /** `getWorkingDirectory`. */
  function WorkingDirectory(s: Session, root: GFile): (r: (Session, Node))
    ensures r.0.Ready? && r.1 == r.0.current
    ensures WellFormed(s) ==> WellFormed(r.0)
    ensures s.Fresh? ==> r.1 == Home(root)
  {
    var v := Init(s, root);
    (v, v.current)
  }

  /** `dispose`: the next use starts again from the root folder. */
  function Dispose(s: Session): (r: Session)
    ensures r.Fresh? && WellFormed(r)
  {
    Fresh
  }

  /**
    `changeWorkingDirectory`: `/` goes home, `.` stays, `..` goes to the
    parent if there is one; any other path moves there only when it resolves
    to a directory. Each comparison ignores one trailing separator.
   */
  function ChangeWorkingDirectory(s: Session, root: GFile, md: Metadata, path: string): (r: (Session, bool))
    requires WellFormed(s)
    ensures WellFormed(r.0) && r.0.Ready?
    ensures r.0.home == Init(s, root).home
    ensures !r.1 ==> r.0 == Init(s, root)
    ensures r.1 && r.0.current != Init(s, root).current ==>
              || r.0.current == r.0.home
              || Init(s, root).current.parent == Some(r.0.current)
              || r.0.current.file.isDirectory
  {
    var v := Init(s, root);
    if Path.Equals(SEPARATOR, path) then (v.(current := v.home), true)
    else if Path.Equals(SELF, path) then (v, true)
    else if Path.Equals(PARENT, path) then
      if v.current.parent.None? then (v, true) else (v.(current := v.current.parent.value), true)
    else
      var f := GetFileByPath(v.home, v.current, md, path);
      if f.file.isDirectory then (v.(current := f), true) else (v, false)
  }

  /**
    `getFile`: `./` (or `.`) and the empty name give the working directory;
    anything else is resolved as a path.
   */
  function GetFile(s: Session, root: GFile, md: Metadata, fileName: string): (r: (Session, Node))
    requires WellFormed(s)
    ensures r.0 == Init(s, root) && WellFormed(r.0)
    ensures RootOf(r.1) == r.0.home
    ensures fileName == [] || fileName == "." || fileName == "./" ==> r.1 == r.0.current
    ensures !Path.Equals("./", fileName) && fileName != [] ==>
              r.1 == GetFileByPath(r.0.home, r.0.current, md, fileName)
  {
    var v := Init(s, root);
    if Path.Equals("./", fileName) then (v, v.current)
    else if |fileName| == 0 then (v, v.current)
    else (v, GetFileByPath(v.home, v.current, md, fileName))
  }

  /** The separator, `.` and `..` do not name a folder to descend into. */
  predicate PlainName(p: string) {
    p != [] && HasNoSeparator(p) && IsLegal(p) && p != SELF && p != PARENT
  }

  /**
    Changing to an absolute path of legal names that resolves to a directory
    makes that path the working directory; one that does not resolve to a
    directory leaves the view as it was.
   */
  lemma ChangeToAbsolutePath(s: Session, root: GFile, md: Metadata, p: string)
    requires WellFormed(s) && Settled(Init(s, root).current) && CleanPath(p)
    ensures var (v, ok) := ChangeWorkingDirectory(s, root, md, SEPARATOR + p);
            var target := GetFileByPath(Init(s, root).home, Init(s, root).current, md, SEPARATOR + p);
            && (ok <==> target.file.isDirectory)
            && (ok ==> AbsolutePath(v.current) == SEPARATOR + p)
  {
    var path := SEPARATOR + p;
    var v := Init(s, root);
    assert path[|path| - 1] == p[|p| - 1];
    assert Path.StripOne(path) == path;
    assert !Path.Equals(SEPARATOR, path) && !Path.Equals(SELF, path) && !Path.Equals(PARENT, path);
    ResolveAbsolute(v.home, v.current, md, p);
  }

  /** Descending into a subfolder by name and then to `..` comes back to where it started. */
  lemma DescendThenAscend(s: Session, root: GFile, md: Metadata, p: string)
    requires WellFormed(s) && PlainName(p)
    ensures var (v1, ok) := ChangeWorkingDirectory(s, root, md, p);
            ok ==> v1.current == GetFileByName(md, Init(s, root).current, p)
                   && ChangeWorkingDirectory(v1, root, md, PARENT) == (Init(s, root), true)
  {
    var v := Init(s, root);
    var f := GetFileByName(md, v.current, p);
    ChangeToPlainName(s, root, md, p);
    if f.file.isDirectory {
      AscendToParent(v.(current := f), root, md);
    }
  }

  /** A plain name is looked up in the working directory. */
  lemma ChangeToPlainName(s: Session, root: GFile, md: Metadata, p: string)
    requires WellFormed(s) && PlainName(p)
    ensures var v := Init(s, root);
            var f := GetFileByName(md, v.current, p);
            ChangeWorkingDirectory(s, root, md, p) == if f.file.isDirectory then (v.(current := f), true) else (v, false)
  {
    var v := Init(s, root);
    assert p[|p| - 1] != '/';
    assert Path.StripOne(p) == p;
    assert !Path.Equals(SEPARATOR, p) && !Path.Equals(SELF, p) && !Path.Equals(PARENT, p);
    SingleNameLookup(v.home, v.current, md, p);
  }

  /** A plain name resolved as a path is looked up directly in the working directory. */
  lemma SingleNameLookup(home: Node, current: Node, md: Metadata, p: string)
    requires RootOf(current).name == SEPARATOR && PlainName(p)
    ensures GetFileByPath(home, current, md, p) == GetFileByName(md, current, p)
  {
    PathStartsWithSeparator(current);
    var abs := AbsolutePath(current);
    assert p[|p| - 1] != '/';
    assert Path.StripOne(p) == p;
    assert Path.StripOne(abs)[0] == '/';
    assert !Path.Equals(abs, p);
    assert !StartsWith(p, SEPARATOR);
    assert Split(p) == [p];
    assert Walk(md, current, [p]) == Walk(md, GetFileByName(md, current, p), []);
  }

  /** `..` below the home folder goes to the parent. */
  lemma AscendToParent(v: Session, root: GFile, md: Metadata)
    requires WellFormed(v) && v.Ready? && v.current.parent.Some?
    ensures ChangeWorkingDirectory(v, root, md, PARENT) == (v.(current := v.current.parent.value), true)
  {
    assert !Path.Equals(SEPARATOR, PARENT) && !Path.Equals(SELF, PARENT);
  }

  /**
    The three special directories always succeed: `/` (or `//`) goes home,
    `.` (or `./`) stays, and `..` at the home folder stays there.
   */
  lemma SpecialDirectories(s: Session, root: GFile, md: Metadata)
    requires WellFormed(s)
    ensures var v := Init(s, root);
            && ChangeWorkingDirectory(s, root, md, "/") == (v.(current := v.home), true)
            && ChangeWorkingDirectory(s, root, md, "//") == (v.(current := v.home), true)
            && ChangeWorkingDirectory(s, root, md, ".") == (v, true)
            && ChangeWorkingDirectory(s, root, md, "./") == (v, true)
            && (v.current.parent.None? ==> ChangeWorkingDirectory(s, root, md, "..") == (v, true))
  {
    assert Path.Equals(SEPARATOR, "//");
    assert !Path.Equals(SEPARATOR, ".") && !Path.Equals(SEPARATOR, "./") && Path.Equals(SELF, "./");
    assert !Path.Equals(SEPARATOR, "..") && !Path.Equals(SELF, "..");
  }

  /** A path naming the working directory, give or take one trailing separator, resolves to it. */
  lemma CurrentPathGivesCurrent(home: Node, current: Node, md: Metadata, path: string)
    requires Path.Equals(AbsolutePath(current), path)
    ensures GetFileByPath(home, current, md, path) == current
  {
  }

  // ---------------------------------------------------------------
  // File operations a wrapper forwards to the controller
  // ---------------------------------------------------------------

  /** `delete`: a file that does not exist is an error; otherwise trash it. */
  function Delete(n: Node, trashed: bool): (r: Controller.Outcome<bool>)
    ensures r.Thrown? <==> !n.file.existing
    ensures r.Thrown? ==> r == Controller.Thrown(Controller.Runtime, [])
    ensures r.Returned? ==> r.value == trashed && |r.events| >= 1 && r.events[0] == Controller.TrashRemote(n.file.id, Controller.TRASH_ATTEMPTS)
  {
    if !n.file.existing then Controller.Thrown(Controller.Runtime, [])
    else Controller.TrashFile(n.file, trashed)
  }

  /** `move`: rename the file to the destination's shown name. */
  function Move(n: Node, destination: Node, remote: Option<FileId>): (r: Controller.Outcome<bool>)
    ensures r.Returned? && r.value == remote.Some?
    ensures |r.events| >= 1 && r.events[0] == Controller.TouchRemote(n.file.id, Some(destination.name), None)
  {
    Controller.RenameFile(n.file, destination.name, remote)
  }

  /** `mkdir`: the root cannot be created; anything else is created in its parent. */
  function Mkdir(n: Node, created: Option<FileId>): (r: Controller.Outcome<bool>)
    ensures r.Thrown? <==> IsRoot(n)
    ensures r.Thrown? ==> r == Controller.Thrown(Controller.IllegalArgument, [])
    ensures r.Returned? ==> r.value == created.Some? && |r.events| >= 1
                            && r.events[0] == Controller.MkdirRemote(n.parent.value.file.id, n.file.name)
  {
    if IsRoot(n) then Controller.Thrown(Controller.IllegalArgument, [])
    else Controller.Mkdir(n.parent.value.file.id, n.file, created)
  }

  /** `setLastModified`: only a positive time is accepted. */
  function SetLastModified(n: Node, time: int, remote: Option<FileId>): (r: Controller.Outcome<bool>)
    ensures r.Thrown? <==> time <= 0
    ensures r.Returned? ==> r.value == remote.Some? && |r.events| >= 1
                            && r.events[0] == Controller.TouchRemote(n.file.id, None, Some(time))
  {
    Controller.UpdateLastModified(n.file, time, remote)
  }

  /** `createOutputStream`: an upload stream for any wrapper that is not a directory. */
  function CreateOutputStream(n: Node): (r: Controller.Outcome<Upload.Stream>)
    ensures r.Thrown? <==> n.file.isDirectory
    ensures r.Returned? ==> r.value == Upload.Open(n.file)
  {
    Controller.CreateOutputStream(n.file)
  }

  /**
    A folder made by `mkdir` on a wrapper obtained by name goes into the
    folder that name was looked up in, under the requested name.
   */
  lemma MkdirUsesLookupFolder(md: Metadata, folder: Node, part: string, created: Option<FileId>)
    requires Decode(part).1.None? && md.byName(folder.file.id, part).NotFound?
    ensures var r := Mkdir(GetFileByName(md, folder, part), created);
            r.Returned? && r.events[0] == Controller.MkdirRemote(folder.file.id, part)
  {
  }
}

=== FILE: wrappers.dfy ===
/** Optional values, standing in for Java's nullable references. */
module Wrappers {

  datatype Option<+T> = None | Some(value: T)
}
